=== FILE: README.md ===
# Deployment configurator — a Dafny model of its core

The configurator is a small REST service that builds a deployment topology step by step:
- the component types of an application (their ports and event types);
- named instances of those types and the connections between their ports;
- units that group instances;
- devices that host units;
- the protocol of each connection that crosses a unit boundary;
- resilience mechanisms (active replication or checkpoint recovery) per instance.

The topology can be exported as a configuration document and imported back. A separate
client turns the device list of a cluster into the configurator's device records.

This project models that core:
- the topology records and the protocol enumeration (`types.dfy`);
- the one topology object that every handler updates in place, as the class `Topology.Store`
  (`store.dfy`);
- the helper library by concern: lookups, port compatibility, resilience records, unit
  connections and protocol changes, export, and import;
- every topology-changing request handler, as a method on the store that returns the response
  it sends;
- the device conversion of the devices client.

JavaScript behaviour that matters is written out:
- `undefined` is `Option.None`, and so is `null`;
- a property read on `undefined` raises a TypeError, which is `Completion.Threw` or a `threw`
  flag; in a handler it becomes status 500 (`Response.ServerError`);
- a plain object used as a dictionary is an ordered list of `(key, value)` entries
  (`Js.Record`), looked up by its first entry with the key; it holds only its own keys, in
  insertion order (see Left out for how JavaScript differs);
- once a handler has sent a response, a later response raises, so the first one stands
  (`App.Answer`). A change of the topology made before that point stays made.

Each operation is proved against a specification:
- a function that states the new topology or the result;
- the invariant that the operation preserves, such as unique instance names, no unit placed
  twice, no unit hosted twice, or unique resilience ids;
- or a partner operation: removing after adding, or importing after exporting, a partial round trip whose losses are stated.

## Model

| member | source | states |
|---|---|---|
| Types.ByKey | types.ts:23-30 | looking a string up as a key of `conn_protocol` gives exactly the member with that key, and `undefined` for any other string |
| Types.ByValue | types.ts:23-30 | looking a string up among the values of `conn_protocol` gives exactly the member with that value |
| Types.ProtocolMembers | types.ts:23-30 | six distinct members with six distinct values; key and value agree for every member but MQTT_EXTERNAL, whose value is spelled `MQTT_EXTRENAL` |
| Topology.Cleared | app.ts:12-25 | clearing empties setup, instances, connections, units, devices and resilience records, resets the library path to the empty string, and keeps the other configurations |
| Topology.InitData | app.ts:28-30 | start-up initialisation sets the resilience library path and changes nothing else |
| Topology.Store.constructor | app.ts:10-31 | the start-up topology (clear, then initialise) is empty, has an empty resilience record list and holds the resilience library path |
| Js.NatToStringInjective | app.ts:304 | the decimal text of a number identifies the number, so the numbered unit ids differ |
| Compat.IntersectionMembers | util.ts:229-235 | `_.intersection`: exactly the elements in both lists, once each, never more than the first list holds |
| Compat.IntersectionFull | util.ts:229-235 | the intersection has the first list's length exactly when that list has no duplicates and lies inside the second, and is then that list |
| Compat.PortsCompatibleSpec | util.ts:229-235 | a source port fits a target port exactly when every event type of the source is an event type of the target; a source port that lists an event type twice never fits |
| Compat.ConnectionExists | util.ts:240-254 | true exactly when some unit holds a unit connection with the same four endpoint fields, whatever its protocol |
| Lookup.FindNamed | util.ts:68-76 | `_.find` by name: the first instance of the list with that name, and `undefined` exactly when no instance has it |
| Lookup.GetInstance | util.ts:68-76 | the first instance with the name in the first type list, in key order, that holds one; found exactly when some list holds one |
| Lookup.InstanceNameUnique | util.ts:474-484 | true exactly when exactly one instance over all types has the name |
| Lookup.ComponentTypeUsed | util.ts:78-85 | true exactly when the type is a key of the instance record |
| Lookup.FirstHolding | util.ts:220-222 | the first type list, in key order, holding an instance with the name, and none exactly when no list holds one |
| Lookup.GetComponentInfoOfInstance | util.ts:219-227 | the setup entry of the type of the first list holding an instance with the name (`undefined` when that entry is missing), and `undefined` when no list holds one |
| Lookup.GetUnitIndx | util.ts:199-207 | the index of the first unit with the id, and `undefined` exactly when no unit has it |
| Lookup.GetDeviceIndx | util.ts:209-217 | the index of the first device with the name, and `undefined` exactly when no device has it |
| Resilience.ExecutionSitesFeasible | util.ts:29-40 | true exactly when every site is a non-empty id of an existing unit |
| Resilience.FirstWithId | util.ts:42-49 | the index of the first record with the id, and none exactly when no record has it |
| Resilience.ComponentHasActiveReplication | util.ts:87-100 | true exactly when some record has the id, whatever its mechanism (the prototype test is never true) |
| Resilience.ComponentHasCheckpointRecovery | util.ts:102-115 | true exactly when some record has the id, whatever its mechanism |
| Resilience.UnitHasCheckpointRecovery | util.ts:117-132 | an unknown unit id raises; otherwise `unitNameUnique` holds exactly when one unit has the id, `hasCheckPointing` exactly when some component of the first such unit has a record, and a missing record list raises only when that unit has components |
| Resilience.Apply | util.ts:155-180 | editing an active-replication record keeps its id, its enabled flag and whichever parameters the edit does not set; editing a checkpoint record raises |
| Resilience.Edited | util.ts:155-180 | the edit loop raises exactly when a record with the id is a checkpoint record; every other record is kept, ids are kept, and without a raise every record with the id is edited |
| Resilience.EditRecords | util.ts:155-180 | the in-place loop leaves the records `Edited` describes, and raises when that run raises or when the record list is missing |
| Resilience.SetReplicationParameters | util.ts:155-170 | every record with the id gets the fault model, n and f |
| Resilience.SetReplicationExecutionSite | util.ts:172-180 | every record with the id gets the site appended to its execution sites |
| Resilience.RetuneComplete | util.ts:155-170 | on active-replication records, setting parameters never raises and gives each record with the id exactly the new fault model, n and f, with its sites and flag unchanged |
| Resilience.SetExecutionSites | util.ts:42-58 | without a record for the id nothing changes and the result is `undefined`; otherwise the first such record gets the sites and the sites are returned, or the call raises on a checkpoint record |
| Resilience.AddReplicatedComponent | util.ts:139-153 | appends an enabled active-replication record with the parameters and no sites; raises exactly when the record list is missing |
| Resilience.AddCheckpointedComponent | util.ts:182-197 | appends a checkpoint record with recovery and checkpointing enabled; raises exactly when the record list is missing |
| Placement.RelevantUnitNames | util.ts:264-272 | the collected names are exactly the ids of units that hold a unit connection with the endpoints |
| Placement.ListedAsWrittenDiffers | util.ts:278 | the device test as written agrees with "the device lists the protocol" for every protocol but MQTT_EXTERNAL, where it asks instead for an `undefined` entry (an entry a JSON-borne device list never holds, see Left out) |
| Placement.MqttExternalRejectedAsWritten | util.ts:278 | a device that lists MQTT_EXTERNAL fails the test as written for MQTT_EXTERNAL |
| Placement.DevicesSupport | util.ts:274-283 | true exactly when every device hosting an involved unit lists the protocol |
| Placement.Rewritten | util.ts:285-296 | every unit connection with the endpoints gets the new protocol; everything else in every unit is unchanged |
| Placement.RewriteUninvolved | util.ts:286-296 | a unit with no connection with the endpoints is left as it is |
| Placement.ChangeProtocol | util.ts:263-298 | with the corrected device test (see Left out): the change succeeds exactly when every device hosting an involved unit lists the protocol; it then rewrites exactly the matching unit connections and otherwise changes nothing |
| Placement.EntryTagged | util.ts:424-441 | an entry pushed for a matching pair is REST, has the connection's endpoints and names the considered unit's component that is one of them |
| Placement.PushEntries | util.ts:422-446 | the two innermost loops push, for one connection, one entry per matching (considered component, other component) pair, in loop order, onto the considered unit only |
| Placement.PushAcross | util.ts:418-447 | the loop over the topology's connections pushes the entries of every connection in turn onto the considered unit only |
| Placement.DerivedComplete | util.ts:413-447 | every connection and pair of components, one on the considered unit and one on any other unit, whose names are its two ends in either order, has its entry among those pushed |
| Placement.DerivedSound | util.ts:413-447 | every pushed entry comes from such a connection and pair: it is REST, its endpoints are a topology connection and it names a component of the considered unit |
| Placement.DerivedCount | util.ts:413-447 | exactly one entry is pushed per matching (other unit, connection, considered component, other component) choice, so duplicates in the topology are pushed again |
| Placement.AppendedTwice | util.ts:434-442 | pushing two runs of entries onto a unit's connections equals pushing their concatenation |
| Placement.NothingDerived | util.ts:409-452 | a unit without components, or a topology without connections, gets no new unit connections |
| Placement.InitUnitConnections | util.ts:409-452 | always succeeds; appends to the considered unit, and to no other part of the topology, exactly the entries `Derived` lists (characterised by DerivedComplete, DerivedSound and DerivedCount), in loop order |
| Export.GenerateExtToolsConfig | util.ts:300-314 | honey pots are kept only when non-empty; the debug front-end block only when the ports and host name are all set; `useIds` is always present and true exactly when it was `true` |
| Export.GenerateExtToolsConfigIdempotent | util.ts:300-314 | normalising an already normalised tools configuration changes nothing |
| Export.CheckRelevantConnAsWritten | util.ts:322-337 | with a non-empty list: relevant exactly when a component is named, the connection touches it and the list lacks it; with an empty list: relevant whenever a component is named |
| Export.CheckRelevantConn | util.ts:322-337 | relevant exactly when a component is named, the connection touches it and the list does not hold it |
| Export.CheckRelevantConnAgrees | util.ts:322-337 | the corrected relevance test agrees with the written one whenever the unit-connection list is non-empty |
| Export.Explicit | util.ts:341-353 | the entries are exactly the unit connections placed on the instance, with the on-unit tag dropped |
| Export.OnUnitAsWritten | util.ts:355-367 | the connections list starts with the explicit entries, which it keeps |
| Export.OnUnit | util.ts:355-367 | after the explicit entries, one ON_UNIT entry for each topology connection touching the instance that is not yet listed, with no repeated endpoints |
| Export.OnUnitAgrees | util.ts:339-369 | the written loop and the corrected one build the same list whenever the explicit entries are non-empty |
| Export.ForeignConnectionAsWritten | util.ts:322-337 | an instance with no explicit entries gets an ON_UNIT entry for a connection between two other instances |
| Export.OutputComponents | util.ts:371-387 | one output component per placed component, in order, with the type's name and ports when it has a type, the instance's name as id, its start state, generator and arguments; its connections are the `Export.OutputConnections` list, built on the corrected `Export.OnUnit` (see Left out) |
| Export.KnownNames | util.ts:389-395 | the hosted unit names that are ids of existing units; their order and repetitions are stated by `Export.KnownNamesAppend` and `Export.KnownNamesOne` |
| Export.KnownNamesAppend | util.ts:389-395 | names are filtered piecewise: the kept names of two lists in a row are those of the first followed by those of the second, so the device's order and repeated names are kept |
| Export.KnownNamesOne | util.ts:389-395 | a single name is kept exactly when it is the id of a unit, and is dropped otherwise |
| Export.OutputUnits | util.ts:389-406 | one output unit per hosted unit name that names an existing unit, built from the first unit with that id |
| Export.OutputElements | util.ts:454-472 | one element per device that hosts at least one unit; their order is stated by `Export.OutputElementsAppend` and `Export.OutputElementsOne` |
| Export.OutputElementsAppend | util.ts:454-472 | elements are built piecewise: the elements of two device lists in a row are those of the first followed by those of the second, so they follow the device order |
| Export.OutputElementsOne | util.ts:454-472 | a single device gives its element exactly when it hosts a unit, and nothing otherwise |
| Export.OutputElementsHosted | util.ts:454-472 | every element comes from a hosting device, and every hosting device gives its element |
| Export.TransformOutput | util.ts:486-502 | raises exactly when the record list or the tools configuration is missing; otherwise builds the elements and passes the resilience records (`{}` when empty), security, tools, degradation, npm, migration and debugging configurations through; each component's connections are the corrected `Export.OnUnit` list (see Left out) |
| Import.UnitsOf | util.ts:522 | the units of all elements, flattened |
| Import.InstanceOf | util.ts:528-533 | an imported instance takes the component's id, start state, generator and arguments |
| Import.StartStateKey | util.ts:543 | the start-state key expression always evaluates to the empty string |
| Import.AddInstance | util.ts:534-540 | the instance is appended to its type's list, which is created when missing; other types keep theirs |
| Import.AddConnections | util.ts:554-563 | connections are appended only when no equal connection is already listed, so the list stays free of duplicates and holds exactly the old connections and those of the components |
| Import.OfType | util.ts:522-540 | the instances collected for a type are exactly those of the components of that type |
| Import.CollectedTypes | util.ts:522-540 | after the component pass, a type has a setup entry and an instance list exactly when some component has it, and the list is its instances in order |
| Import.CollectedConnections | util.ts:554-563 | the collected connections have no duplicates and are exactly the endpoints of all component connections |
| Import.CollectedStartStates | util.ts:541-548 | the start-state dictionary has the single key `""` exactly when some component has a start state, and is empty otherwise |
| Import.CollectedGenerators | util.ts:549-553 | a generator name is recorded exactly when it is non-empty and some component names it |
| Import.FirstTouching | util.ts:584-591 | the first component name of the unit that is an end of the connection, and none exactly when no name is |
| Import.Tag | util.ts:582-591 | each unit connection keeps its endpoints and protocol and is tagged with the first of the unit's component names at one of its ends; one with no such end keeps its tag |
| Import.ImportedComponentAsWritten | util.ts:592-614 | each placed component takes the first instance of its type found on the unit, whichever component that instance belongs to |
| Import.SecondOfTypeAsWritten | util.ts:592-614 | with two components of one type on a unit, the second is given the first one's instance |
| Import.ImportedComponent | util.ts:603-615 | each placed component takes its type and its own instance |
| Import.ImportedUnit | util.ts:581-619 | an imported unit keeps the id, shadow-mode configuration and component order, tags every component connection, gives each component its own instance (the corrected rule, see Left out) and drops the pinned node port |
| Import.ImportedDevice | util.ts:569-580 | an imported device keeps name, architecture, protocols and location, and lists the ids of its units |
| Import.Imported | util.ts:504-644 | the imported topology holds the collected instances and connections, one device per element and one unit per unit of the document, and reads the resilience, security and tools sections and the capitalised debugging key; each placed component holds its own instance (see Left out) |
| Import.PushConnections | util.ts:554-563 | the connection loop appends exactly what `AddConnections` describes |
| Import.CollectComponents | util.ts:522-564 | the component pass collects exactly what `Collect` describes |
| Import.ImportDevices | util.ts:569-580 | the element loop builds exactly the imported devices |
| Import.TransformInput | util.ts:504-644 | the import builds exactly the topology `Imported` describes, with the corrected instance of each placed component (see Left out) |
| Import.ImportedInstancesRegistered | util.ts:522-615 | every placed component of an imported unit has a type whose instance list holds that component's own instance |
| Import.ExportImport | util.ts:486-644 | importing an export keeps the non-empty resilience records, the normalised tools configuration and one device per hosting device; it loses the debugging configuration and the pinned node ports |
| AutoConnect.VisitsExactly | app.ts:258-266 | the four loops visit exactly the pairs whose target comes before the source in visiting order, as the `break` on the source itself leaves them |
| AutoConnect.PortPairsMembers | app.ts:267-278 | a visit yields exactly the connections from an out port of the source to a compatible in port of the target |
| AutoConnect.LinkedSpec | app.ts:259-279 | one visit raises exactly when the source type has no setup entry, or the target type has none while the source has out ports; otherwise it yields exactly the compatible port pairs |
| AutoConnect.RunAllAppend | app.ts:258-283 | running two visit lists one after the other is running their concatenation |
| AutoConnect.Sticks | app.ts:258-283 | once a run has raised, later visits change nothing |
| AutoConnect.RunAllExactly | app.ts:258-283 | every pushed connection comes from one visit; without a raise, every visit's connections are pushed |
| AutoConnect.PushCompatible | app.ts:268-277 | the inner loop appends exactly the compatible pairs for one source port to the connections, in order, and changes nothing else |
| AutoConnect.PushPairs | app.ts:267-278 | the two port loops append exactly the pairs of every out port, in order, and change nothing else |
| Resilience.EditLoop | util.ts:155-180 | the loop over the record list leaves exactly the records `Edited` describes and raises exactly when that run raises |
| AutoConnect.LinkVisit | app.ts:263-279 | one visit appends exactly what `Linked` describes |
| AutoConnect.RunTargetList | app.ts:263-280 | one target list appends exactly the run of its visits |
| AutoConnect.RunSource | app.ts:261-281 | one source instance appends exactly the run of its visits over all target lists |
| AutoConnect.RunType | app.ts:260-282 | one source type appends exactly the run of its instances' visits |
| AutoConnect.ConnectAll | app.ts:258-283 | the four loops append exactly the run of all visits, and raise exactly when that run raises |
| App.ResetGet | app.ts:48-52 | after loading a setup, every type of the setup has an empty instance list and every other type keeps its list |
| App.LoadSetupInfo | app.ts:39-56 | replaces the setup description and resets the instance lists of its types |
| App.LoadDevicesInfo | app.ts:57-71 | replaces the device list |
| App.AddComponentInstance | app.ts:72-99 | rejects an unknown type, an unknown start state and a name already used, in that order; otherwise appends exactly the new instance to its type's list |
| App.WithInstanceCount | app.ts:91-94 | appending an instance raises the count of its name by one and leaves every other name's count alone |
| App.WithInstanceUnique | app.ts:88-94 | add-component-instance keeps instance names unique, and the new instance is the one found by its name |
| App.PurgeAll | app.ts:115 | the `forEach` loop leaves every type's list without the instances of that name, and changes nothing else |
| App.RemoveComponentInstance | app.ts:100-119 | rejects a name no instance has; otherwise removes every instance with the name from every type's list |
| App.PurgedCount | app.ts:115 | after removal no instance has the name, every other name keeps its count, and the types stay as they were |
| App.PurgedUnique | app.ts:115 | removal keeps instance names unique |
| App.AddThenRemove | app.ts:72-119 | removing an instance just added gives back its type's list as it was before |
| AppConnections.FindPort | app.ts:138-139 | `_.find`: the first port with the name and direction, and `undefined` exactly when none has both |
| AppConnections.Resolve | app.ts:132-143 | the name check fails exactly when an end has no setup entry; the port check fails exactly when no out port or no in port of the right name exists; otherwise the ports are the first out port and the first in port with the requested names |
| AppConnections.AddConnection | app.ts:120-164 | rejects a bad name or port, incompatible ports and a connection already present, in that order; otherwise appends exactly that connection |
| AppConnections.AddedKeepsNoDuplicates | app.ts:156-160 | add-connection never creates a duplicate |
| AppConnections.Without | app.ts:195 | `_.remove`: the connections that differ from the request, and one fewer exactly when the request was present |
| AppConnections.AddThenRemoveConnection | app.ts:120-202 | removing a connection just added gives back the connections as they were |
| AppConnections.RemoveConnection | app.ts:165-202 | rejects a bad name or port, then a connection not present; otherwise removes every equal connection; port compatibility is not checked |
| AppConnections.ChangeUnitConnectionProtocol | app.ts:203-251 | rejects a bad name or port, an unknown protocol value, a connection no unit holds and a protocol some hosting device does not list (the corrected device test, see Left out), in that order; otherwise rewrites exactly the matching unit connections |
| AppConnections.AddConnectionsAuto | app.ts:252-287 | appends the run of all visits; a type without a setup entry gives status 500 and keeps what was appended before |
| AppConnections.AutoRunTwice | app.ts:252-287 | a second call appends the same connections again, so any connection made the first time is then listed twice |
| AppPlacement.CreateUnits | app.ts:288-315 | appends `count` empty units (none for a count of zero or less) numbered on from the current length |
| AppPlacement.CreatedSequential | app.ts:300-310 | units numbered `unit_1`, `unit_2`, … stay numbered that way after more are created |
| AppPlacement.SequentialUnique | app.ts:300-310 | sequentially numbered units have distinct ids |
| AppPlacement.FindPlaced | app.ts:333-340 | the nested search finds exactly the instances already placed on some unit |
| AppPlacement.WithComponentOnce | app.ts:333-349 | placing an instance that is nowhere placed keeps every instance placed at most once, and places it exactly once |
| AppPlacement.MapComponentInstanceOnUnit | app.ts:316-353 | rejects an unknown instance, an instance already placed and an unknown unit, in that order; otherwise appends the instance with its type to the first unit with the id |
| AppPlacement.FindHosted | app.ts:374-381 | the nested search finds exactly the unit ids some device already hosts |
| AppPlacement.WithHostedOnce | app.ts:374-387 | hosting a unit that no device hosts keeps every unit hosted at most once, and hosts it exactly once |
| AppPlacement.MapUnitOnDevice | app.ts:354-391 | rejects an unknown device, an unknown unit and a unit already hosted, in that order; otherwise derives the unit's connections and appends the unit id to the device |
| AppResilience.TypeCheck | app.ts:406-409 | the component-type check answers exactly when the type is not a key of the instance record |
| AppResilience.NewRecord | app.ts:418-423 | the new record has the instance's id and is active replication exactly for that mechanism name |
| AppResilience.AddResilienceMechanism | app.ts:392-429 | an unknown mechanism name is answered first; then an unknown instance, a missing record list and an existing record; the type check's answer stands if it came first; the record is appended whenever the later checks pass |
| AppResilience.AddedKeepsUniqueIds | app.ts:392-429 | adding a record for an id without one keeps ids unique, and the new record is the only one with that id |
| AppResilience.ChangeFaultToleranceParams | app.ts:430-459 | rejects an unknown instance and an instance without a record; otherwise every record with the id is retuned, and a checkpoint record gives status 500 |
| AppResilience.EditedKeepsUniqueIds | app.ts:430-459 | retuning records keeps ids unique |
| AppResilience.SetExecutionSitesHandler | app.ts:460-493 | rejects an unknown instance, an instance without a record and an empty or unknown site; otherwise the first record with the id gets the sites, and a checkpoint record gives status 500 |
| AppResilience.WithSitesKeepsUniqueIds | app.ts:460-493 | setting sites keeps ids unique |
| DevicesClient.ConvertProtocol | devices-client.ts:43 | `BLE` and `BLUETOOTH` give the Bluetooth member; any other name gives the member with that key, or `undefined` |
| DevicesClient.ConvertDevice | devices-client.ts:37-46 | a converted device keeps name and architecture, converts each protocol in order, has location "unknown" and hosts no units |
| DevicesClient.InitDevices | devices-client.ts:31-59 | nothing for an empty list; otherwise the converted devices in order, followed by the `ext` device |
| DevicesClient.ExtDeviceProtocols | devices-client.ts:49-56 | the `ext` device lists every protocol but ON_UNIT |

## Left out

- The HTTP layer is not modelled: express routing, body parsing, logging, `res.status`/`send`, the `req.body === undefined` guard and the start-up of the server. Each handler is a method whose result is the response it sends.
- The parameter type checks of `handleGenericInputErrors`/`checkParams` are left out because the handler parameters are typed. For the same reason `count` of create-units is an integer, and a fractional count is not modelled.
- `generateId` draws random characters. The element ids are a parameter of `Export.TransformOutput` instead.
- `strHasDirFormat` is not used by any handler, so it is not modelled.
- The security handlers (set-security-config, set-communication-secret) and the read-only endpoints (get-setup, get-devices, get-configuration) are not modelled. The security, npm, degradation, migration and debugging configurations are carried as opaque text.
- setupinfo-client.ts is not modelled. Neither are the command-line part of devices-client.ts (the yargs options, running the cluster script, the POST to the server) nor its migration state.
- lodash is modelled by meaning: `_.find`, `_.filter`, `_.intersection`, `_.some` and `_.remove` on plain records compared field by field.
- Objects are compared and stored by value. Aliasing between an instance in a type's list and the same instance placed on a unit is not modelled, so a later change to one is not seen through the other.
- `initUnitConnections` takes a device index that it never uses. Its result is always true, so map-unit-on-device's rejection after it cannot happen and is not modelled.
- AppResilience.AddResilienceMechanism: app.ts calls `componentHasResilienceConfig`, which util.ts does not define, and calls `addReplicatedComponent`/`setReplicationParameters` with one argument fewer than util.ts declares. The model uses `componentHasActiveReplication` and takes the fault model as a handler parameter, with n = 4 and f = 1 for a new replication.
- AppResilience.ChangeFaultToleranceParams: the same call mismatch; the fault model is a handler parameter.
- AppResilience.SetExecutionSitesHandler: app.ts:480 calls the same undefined `componentHasResilienceConfig`; the model uses `componentHasActiveReplication`.
- In the handlers with a component-type check, app.ts answers "component does not exist" without returning. The model follows the code: the handler goes on, the first answer stands, and the topology still changes.
- The Bluetooth member: types.ts names it `BLE`, while devices-client.ts looks it up and lists it as `BLUETOOTH`. DevicesClient.ConvertProtocol and DevicesClient.ExtDevice map both names to the one Bluetooth member. Against the types.ts shown, `conn_protocol["BLUETOOTH"]` would be `undefined`.
- Import.Imported: a component without a type is filed under the key "undefined", and one without ports gets an empty port list. An `undefined` field of the document is otherwise not modelled.
- An instance reference on a unit always holds its instance. The optional `instance?.name` reads of util.ts therefore always succeed in the model.
- AutoConnect.Linked: a visit naming indices outside the instance lists yields nothing. No loop produces such a visit.
- Placement.ChangeProtocol: uses the corrected device test `Placement.Listed` (see Findings). As written, util.ts:278 looks the value up as a key, so a request for MQTT_EXTERNAL (value `MQTT_EXTRENAL`) is refused whenever a device hosts an involved unit, whatever that device lists; the model lets it through when every such device lists MQTT_EXTERNAL. For every other protocol the two agree (`Placement.ListedAsWrittenDiffers`).
- AppConnections.ChangeUnitConnectionProtocol: built on `Placement.ChangeProtocol`, so for the request value `MQTT_EXTRENAL` it answers Ok where the service answers status 400 whenever a device hosts an involved unit; every other request gets the service's answer.
- Export.OutputConnections: uses the corrected `Export.OnUnit` (see Findings). As written, a component with no explicit unit connections gets an ON_UNIT entry for the first topology connection, whether or not it touches the component; later connections are tested as intended (`Export.ForeignConnectionAsWritten`); with explicit entries the two agree (`Export.OnUnitAgrees`).
- Export.OutputComponents: its connection lists are those of `Export.OutputConnections`, with the same difference from the service.
- Export.TransformOutput: its components are those of `Export.OutputComponents`, with the same difference from the service.
- Import.ImportedUnit: gives each placed component its own instance (see Findings). As written, util.ts:613 gives every component `insts[type][0]`, so a second component of a type already on the unit is given the first one's instance (`Import.SecondOfTypeAsWritten`); with one component per type on a unit the two agree.
- Import.Imported: its units are those of `Import.ImportedUnit`, with the same difference from the service.
- Import.TransformInput: builds the topology of `Import.Imported`, with the same difference from the service.
- A dictionary holds only its own string keys. A JavaScript object also answers the keys it inherits, so `startStates["toString"]` (app.ts:86) or `componentInstances["constructor"]` (app.ts:83, 407, 442, 471) find a member of `Object.prototype` where the model finds nothing.
- A dictionary keeps insertion order. JavaScript lists integer-like keys first, in ascending numeric order, so for type names such as `"2"` and `"10"` the order of `Object.keys`/`values`/`entries` (app.ts:50, 258, 261; util.ts:69, 220, 476) differs from the model's. This changes which list `getInstance` and `getComponentInfoOfInstance` search first and the order of the auto-connect visits.
- `null` and `undefined` are both `Option.None`. The devices client sends its device list as JSON (devices-client.ts:19), which turns an unknown protocol's `undefined` into `null`. The service therefore never holds a device list with an `undefined` entry, and the MQTT_EXTERNAL clause of `Placement.ListedAsWrittenDiffers` (an `undefined` entry lets MQTT_EXTERNAL through) describes a list the service never receives from that client.

## Findings

| source | as written | input that shows it | evidently intended | confidence | as-written member | corrected member |
|---|---|---|---|---|---|---|
| util.ts:322-337 | `checkRelevantConn` tests the "touches the component" condition inside its loop over the unit connections, so with an empty list it returns true for every connection | an instance `c1` with no explicit unit connections and a topology connection `s1.p1 -> a1.p2`: the exported component `c1` gets an ON_UNIT entry for that connection | only connections touching the component are added as ON_UNIT entries | not executed | Export.ForeignConnectionAsWritten | Export.OnUnit |
| util.ts:278 | `changeProtocol` looks the protocol's value up as a key (`conn_protocol[value]`); for MQTT_EXTERNAL the value `MQTT_EXTRENAL` is not a key, so the lookup is `undefined` | a device listing MQTT_EXTERNAL that hosts an involved unit: the change to MQTT_EXTERNAL is refused | the device must list the requested protocol | not executed | Placement.MqttExternalRejectedAsWritten | Placement.ChangeProtocol |
| util.ts:592-614 | import gives every placed component `insts[type][0]`, the first instance of its type found on the unit | two components `a` and `b` of type `T` on one unit: `b` is given the instance named `a` | each placed component gets its own instance | not executed | Import.SecondOfTypeAsWritten | Import.ImportedInstancesRegistered |

=== FILE: app.dfy ===
/** The request handlers of the configurator service, with the HTTP layer taken away: each
    handler is a method on the one topology store that returns the response the client sees.
    This file holds the responses, the two loaders and the component-instance handlers. */
module App {
  import opened Js
  import opened Types
  import opened Topology
  import opened Lookup

  /** Why a request was answered with an input error (status 400). */
  datatype Reason =
    | UnknownComponent | UnknownStartState | InstanceExists | UnknownInstance
    | InvalidName | InvalidPort | IncompatiblePorts | DuplicateConnection | MissingConnection
    | UnknownProtocol | ProtocolNotAllowed
    | AlreadyMapped | UnknownUnit | UnknownDevice | UnitAlreadyMapped
    | UnknownMechanism | MechanismDefined | NotReplicated | UnknownSite

  /** Status 200, status 400 with a reason, or status 500 when the handler raised a TypeError
      before answering. */
  datatype Response = Ok | InputError(reason: Reason) | ServerError

  /** The response the client sees when `first` may already have been sent: a second
      answer raises inside the handler, so the first one stands. */
  function Answer(first: Option<Response>, r: Response): (a: Response)
    ensures first.Some? ==> a == first.value
    ensures first.None? ==> a == r
  {
    first.GetOr(r)
  }

  // ---------------------------------------------------------------------------------------
  // load-setup-info, load-devices-info

  /** The instance record once the list of every key in `keys` has been replaced by `[]`. */
  function Reset(ci: Record<seq<Instance>>, keys: seq<string>): Record<seq<Instance>> {
    if keys == [] then ci else Put(Reset(ci, keys[..|keys| - 1]), keys[|keys| - 1], [])
  }

  /** Every type of the new setup gets an empty instance list; the other types keep theirs. */
  lemma {:induction false} ResetGet(ci: Record<seq<Instance>>, keys: seq<string>, k: string)
    ensures Get(Reset(ci, keys), k) == if k in keys then Some([]) else Get(ci, k)
  {
    if keys != [] {
      var n := |keys| - 1;
      InLast(keys, k);
      if k != keys[n] {
        ResetGet(ci, keys[..n], k);
        ResetOther(ci, keys, k);
      }
    }
  }

  /** Membership in a list is membership in all but its last entry, or being that entry. */
  lemma InLast(keys: seq<string>, k: string)
    requires keys != []
    ensures k in keys <==> k in keys[..|keys| - 1] || k == keys[|keys| - 1]
  {
    assert keys == keys[..|keys| - 1] + [keys[|keys| - 1]];
  }

  /** A key other than the last one reset is looked up before the last reset. */
  lemma ResetOther(ci: Record<seq<Instance>>, keys: seq<string>, k: string)
    requires keys != [] && k != keys[|keys| - 1]
    ensures Get(Reset(ci, keys), k) == Get(Reset(ci, keys[..|keys| - 1]), k)
  {
  }

  /** load-setup-info: the setup is replaced and every component type it names starts over
      with no instances; lists of types it does not name stay. */
  method LoadSetupInfo(store: Store, config: SetupInfo) returns (r: Response)
    modifies store
    ensures r == Ok
    ensures store.data == old(store.data).(setupInfo := config,
                                           componentInstances := Reset(old(store.data.componentInstances), Keys(config.components)))
  {
    store.data := store.data.(setupInfo := config);
    ghost var d0 := store.data;
    var keys := Keys(config.components);
    for i := 0 to |keys|
      invariant store.data == d0.(componentInstances := Reset(d0.componentInstances, keys[..i]))
    {
      assert keys[..i + 1][..i] == keys[..i];
      store.data := store.data.(componentInstances := Put(store.data.componentInstances, keys[i], []));
    }
    assert keys[..|keys|] == keys;
    return Ok;
  }

  /** load-devices-info: the device list is replaced. */
  method LoadDevicesInfo(store: Store, devices: seq<Device>) returns (r: Response)
    modifies store
    ensures r == Ok
    ensures store.data == old(store.data).(devices := devices)
  {
    store.data := store.data.(devices := devices);
    return Ok;
  }

  // ---------------------------------------------------------------------------------------
  // add-component-instance, remove-component-instance

  /** No two instances, over all types, share a name. */
  ghost predicate UniqueNames(ci: Record<seq<Instance>>) {
    forall x :: InstanceCount(ci, x) <= 1
  }

  /** The instance record with `inst` appended to the list of type `component`. */
  function WithInstance(ci: Record<seq<Instance>>, component: string, inst: Instance): Record<seq<Instance>>
    requires Get(ci, component).Some?
  {
    Put(ci, component, Get(ci, component).value + [inst])
  }

  lemma {:induction false} CountNamedAppend(l: seq<Instance>, inst: Instance, x: string)
    ensures CountNamed(l + [inst], x) == CountNamed(l, x) + if inst.name == x then 1 else 0
  {
    if l != [] {
      assert (l + [inst])[1..] == l[1..] + [inst];
      CountNamedAppend(l[1..], inst, x);
    }
  }

  /** Replacing the list of one type changes the count by the difference of the two lists. */
  lemma {:induction false} InstanceCountPut(ci: Record<seq<Instance>>, key: string, l: seq<Instance>, x: string)
    requires Get(ci, key).Some?
    ensures InstanceCount(Put(ci, key, l), x) == InstanceCount(ci, x) - CountNamed(Get(ci, key).value, x) + CountNamed(l, x)
  {
    if ci[0].0 != key {
      InstanceCountPut(ci[1..], key, l, x);
      assert Put(ci, key, l)[1..] == Put(ci[1..], key, l);
    } else {
      assert Put(ci, key, l)[1..] == ci[1..];
    }
  }

  /** Adding an instance adds one to the count of its name and leaves every other name's. */
  lemma WithInstanceCount(ci: Record<seq<Instance>>, component: string, inst: Instance, x: string)
    requires Get(ci, component).Some?
    ensures InstanceCount(WithInstance(ci, component, inst), x) == InstanceCount(ci, x) + if inst.name == x then 1 else 0
  {
    InstanceCountPut(ci, component, Get(ci, component).value + [inst], x);
    CountNamedAppend(Get(ci, component).value, inst, x);
  }

  /** Adding an instance under a name nobody uses keeps names unique. */
  lemma WithInstanceUnique(ci: Record<seq<Instance>>, component: string, inst: Instance)
    requires Get(ci, component).Some? && UniqueNames(ci) && GetInstance(inst.name, ci).None?
    ensures UniqueNames(WithInstance(ci, component, inst))
    ensures GetInstance(inst.name, WithInstance(ci, component, inst)) == Some(inst)
  {
    forall x ensures InstanceCount(WithInstance(ci, component, inst), x) <= 1 {
      WithInstanceCount(ci, component, inst, x);
    }
    WithInstanceCount(ci, component, inst, inst.name);
    InstanceCountOne(WithInstance(ci, component, inst), inst);
  }

  /** When a name occurs once and `inst` is in some list, the lookup finds `inst`. */
  lemma {:induction false} InstanceCountOne(ci: Record<seq<Instance>>, inst: Instance)
    requires InstanceCount(ci, inst.name) == 1
    requires exists k :: 0 <= k < |ci| && inst in ci[k].1
    ensures GetInstance(inst.name, ci) == Some(inst)
  {
    var k :| 0 <= k < |ci| && inst in ci[k].1;
    if k == 0 {
      CountNamedIn(ci[0].1, inst);
      FindNamedOne(ci[0].1, inst);
    } else {
      assert inst in ci[1..][k - 1].1;
      CountNamedIn(ci[k].1, inst);
      if CountNamed(ci[0].1, inst.name) > 0 {
        InstanceCountIn(ci[1..], k - 1, inst);
        assert false;
      }
      CountNamedZero(ci[0].1, inst.name);
      InstanceCountOne(ci[1..], inst);
    }
  }

  lemma {:induction false} CountNamedIn(l: seq<Instance>, inst: Instance)
    requires inst in l
    ensures CountNamed(l, inst.name) >= 1
  {
    if l[0] != inst {
      assert inst in l[1..];
      CountNamedIn(l[1..], inst);
    }
  }

  lemma {:induction false} InstanceCountIn(ci: Record<seq<Instance>>, k: nat, inst: Instance)
    requires k < |ci| && inst in ci[k].1
    ensures InstanceCount(ci, inst.name) >= 1
  {
    if k == 0 {
      CountNamedIn(ci[0].1, inst);
    } else {
      assert ci[1..][k - 1] == ci[k];
      InstanceCountIn(ci[1..], k - 1, inst);
    }
  }

  /** In a list where the name occurs once, the first instance with that name is `inst`. */
  lemma {:induction false} FindNamedOne(l: seq<Instance>, inst: Instance)
    requires inst in l && CountNamed(l, inst.name) == 1
    ensures FindNamed(l, inst.name) == Some(inst)
  {
    if l[0] != inst {
      assert inst in l[1..];
      CountNamedIn(l[1..], inst);
      FindNamedOne(l[1..], inst);
    }
  }

  /** add-component-instance: an unknown type, an unknown start state or a name some instance
      already has is rejected, in that order; otherwise exactly one instance, with the given
      start state, is appended to the list of its type. */
  method AddComponentInstance(store: Store, component: string, name: string, startState: string) returns (r: Response)
    modifies store
    ensures var d := old(store.data);
            r == if Get(d.componentInstances, component).None? then InputError(UnknownComponent)
                 else if Get(d.setupInfo.startStates, startState).None? then InputError(UnknownStartState)
                 else if InstanceCount(d.componentInstances, name) > 0 then InputError(InstanceExists)
                 else Ok
    ensures r.Ok? ==> store.data == old(store.data).(componentInstances :=
                        WithInstance(old(store.data.componentInstances), component, Instance(name, Some(startState), None, None)))
    ensures !r.Ok? ==> store.data == old(store.data)
  {
    var instances := Get(store.data.componentInstances, component);
    if instances.None? {
      return InputError(UnknownComponent);
    } else if Get(store.data.setupInfo.startStates, startState).None? {
      return InputError(UnknownStartState);
    } else if GetInstance(name, store.data.componentInstances).Some? {
      return InputError(InstanceExists);
    }
    var inst := Instance(name, Some(startState), None, None);
    store.data := store.data.(componentInstances := Put(store.data.componentInstances, component, instances.value + [inst]));
    return Ok;
  }

  /** `_.remove(instances, el => el.name === name)`: the list without the instances so named. */
  function WithoutNamed(l: seq<Instance>, name: string): (r: seq<Instance>)
    ensures forall x :: x in r <==> x in l && x.name != name
    ensures CountNamed(r, name) == 0
  {
    if l == [] then []
    else if l[0].name == name then WithoutNamed(l[1..], name)
    else [l[0]] + WithoutNamed(l[1..], name)
  }

  /** The instance record after the loop of remove-component-instance. */
  function Purged(ci: Record<seq<Instance>>, name: string): Record<seq<Instance>> {
    seq(|ci|, i requires 0 <= i < |ci| => (ci[i].0, WithoutNamed(ci[i].1, name)))
  }

  lemma {:induction false} CountNamedWithout(l: seq<Instance>, name: string, x: string)
    requires x != name
    ensures CountNamed(WithoutNamed(l, name), x) == CountNamed(l, x)
  {
    if l != [] {
      CountNamedWithout(l[1..], name, x);
      if l[0].name != name {
        assert ([l[0]] + WithoutNamed(l[1..], name))[1..] == WithoutNamed(l[1..], name);
      }
    }
  }

  /** Removing an instance by name leaves no instance of that name and every other name's
      count, and keeps every type, in order. */
  lemma {:induction false} PurgedCount(ci: Record<seq<Instance>>, name: string, x: string)
    ensures InstanceCount(Purged(ci, name), x) == if x == name then 0 else InstanceCount(ci, x)
    ensures Keys(Purged(ci, name)) == Keys(ci)
  {
    if ci != [] {
      assert Purged(ci, name)[1..] == Purged(ci[1..], name);
      PurgedCount(ci[1..], name, x);
      if x != name {
        CountNamedWithout(ci[0].1, name, x);
      }
    }
  }

  /** Removing keeps names unique. */
  lemma PurgedUnique(ci: Record<seq<Instance>>, name: string)
    requires UniqueNames(ci)
    ensures UniqueNames(Purged(ci, name))
  {
    forall x ensures InstanceCount(Purged(ci, name), x) <= 1 {
      PurgedCount(ci, name, x);
    }
  }

  /** Removing an instance just added restores the type list it was added to. */
  lemma AddThenRemove(ci: Record<seq<Instance>>, component: string, inst: Instance)
    requires Get(ci, component).Some? && GetInstance(inst.name, ci).None?
    ensures Get(Purged(WithInstance(ci, component, inst), inst.name), component) == Get(ci, component)
  {
    var l := Get(ci, component).value;
    assert CountNamed(l, inst.name) == 0 by {
      var k := GetIndex(ci, component);
      InstanceCountAt(ci, k, inst.name);
    }
    CountNamedZero(l, inst.name);
    WithoutNamedNone(l, inst.name);
    WithoutNamedAppend(l, inst);
    PurgedGet(WithInstance(ci, component, inst), inst.name, component);
  }

  /** The position of the first entry under `key`. */
  function GetIndex<V>(r: Record<V>, key: string): (k: nat)
    requires Get(r, key).Some?
    ensures k < |r| && r[k].0 == key && Get(r, key) == Some(r[k].1)
  {
    if r[0].0 == key then 0 else GetIndex(r[1..], key) + 1
  }

  lemma {:induction false} InstanceCountAt(ci: Record<seq<Instance>>, k: nat, x: string)
    requires k < |ci|
    ensures CountNamed(ci[k].1, x) <= InstanceCount(ci, x)
  {
    if k > 0 {
      assert ci[1..][k - 1] == ci[k];
      InstanceCountAt(ci[1..], k - 1, x);
    }
  }

  lemma {:induction false} WithoutNamedNone(l: seq<Instance>, name: string)
    requires forall k :: 0 <= k < |l| ==> l[k].name != name
    ensures WithoutNamed(l, name) == l
  {
    if l != [] {
      WithoutNamedNone(l[1..], name);
      assert l == [l[0]] + l[1..];
    }
  }

  lemma {:induction false} WithoutNamedAppend(l: seq<Instance>, inst: Instance)
    ensures WithoutNamed(l + [inst], inst.name) == WithoutNamed(l, inst.name)
  {
    if l != [] {
      assert (l + [inst])[1..] == l[1..] + [inst];
      WithoutNamedAppend(l[1..], inst);
    }
  }

  lemma {:induction false} PurgedGet(ci: Record<seq<Instance>>, name: string, key: string)
    ensures Get(Purged(ci, name), key) == match Get(ci, key) case None => None case Some(l) => Some(WithoutNamed(l, name))
  {
    if ci != [] {
      assert Purged(ci, name)[1..] == Purged(ci[1..], name);
      PurgedGet(ci[1..], name, key);
    }
  }

  /** The `forEach` of remove-component-instance: `_.remove` by name on every type's list. */
  method PurgeAll(store: Store, name: string)
    modifies store
    ensures store.data == old(store.data).(componentInstances := Purged(old(store.data.componentInstances), name))
  {
    ghost var d0 := store.data;
    var c0 := store.data.componentInstances;
    for i := 0 to |c0|
      invariant store.data == d0.(componentInstances := store.data.componentInstances)
      invariant |store.data.componentInstances| == |c0|
      invariant forall k :: 0 <= k < i ==> store.data.componentInstances[k] == (c0[k].0, WithoutNamed(c0[k].1, name))
      invariant forall k :: i <= k < |c0| ==> store.data.componentInstances[k] == c0[k]
    {
      var entry := store.data.componentInstances[i];
      store.data := store.data.(componentInstances := store.data.componentInstances[i := (entry.0, WithoutNamed(entry.1, name))]);
    }
    assert store.data.componentInstances == Purged(c0, name);
  }

  /** remove-component-instance: an unknown name is rejected; otherwise every instance so
      named is removed from every type's list. The type in the request is not used. */
  method RemoveComponentInstance(store: Store, component: string, name: string) returns (r: Response)
    modifies store
    ensures r == if InstanceCount(old(store.data.componentInstances), name) == 0 then InputError(UnknownInstance) else Ok
    ensures r.Ok? ==> store.data == old(store.data).(componentInstances := Purged(old(store.data.componentInstances), name))
    ensures !r.Ok? ==> store.data == old(store.data)
  {
    var instance := GetInstance(name, store.data.componentInstances);
    if instance.None? {
      return InputError(UnknownInstance);
    }
    PurgeAll(store, name);
    return Ok;
  }
}

=== FILE: app_connections.dfy ===
/** The connection handlers of the configurator service: add-connection, remove-connection,
    change-unit-connection-protocol and add-connections-auto. */
module AppConnections {
  import opened Js
  import opened Types
  import opened Topology
  import opened Lookup
  import opened Compat
  import opened Placement
  import opened AutoConnect
  import opened App

  /** `_.find(ports, p => p.name === name && p.direction === dir)`: the first such port. */
  function FindPort(ports: seq<Port>, name: string, dir: Direction): (r: Option<Port>)
    ensures r.Some? ==> r.value in ports && r.value.name == name && r.value.direction == dir
    ensures r.None? <==> forall k :: 0 <= k < |ports| ==> !(ports[k].name == name && ports[k].direction == dir)
    ensures r.Some? ==> exists k :: 0 <= k < |ports| && ports[k] == r.value &&
                          forall j :: 0 <= j < k ==> !(ports[j].name == name && ports[j].direction == dir)
  {
    if ports == [] then None
    else if ports[0].name == name && ports[0].direction == dir then Some(ports[0])
    else
      var r := FindPort(ports[1..], name, dir);
      assert forall k :: 1 <= k < |ports| ==> ports[k] == ports[1..][k - 1];
      r
  }

  /** What the name and port checks of the three connection handlers leave: the error
      they answer with, or the two ports the request names. */
  datatype Ends = Rejected(reason: Reason) | Resolved(sourcePort: Port, targetPort: Port)

  /** The name and port checks: both instances must have a type with a setup entry, the
      source port must be an out port of the source's type and the target port an in port
      of the target's type. */
  function Resolve(d: Data, c: Connection): (r: Ends)
    ensures var sc := GetComponentInfoOfInstance(c.sourceComponent, d.componentInstances, d.setupInfo.components);
            var tc := GetComponentInfoOfInstance(c.targetComponent, d.componentInstances, d.setupInfo.components);
            && (r == Rejected(InvalidName) <==> sc.None? || tc.None?)
            && (r == Rejected(InvalidPort) <==>
                  sc.Some? && tc.Some? &&
                  ((forall k :: 0 <= k < |sc.value.ports| ==> !(sc.value.ports[k].name == c.sourcePort && sc.value.ports[k].direction == Out)) ||
                   (forall k :: 0 <= k < |tc.value.ports| ==> !(tc.value.ports[k].name == c.targetPort && tc.value.ports[k].direction == In))))
            && (r.Resolved? ==>
                  && r.sourcePort in sc.value.ports && r.sourcePort.name == c.sourcePort && r.sourcePort.direction == Out
                  && r.targetPort in tc.value.ports && r.targetPort.name == c.targetPort && r.targetPort.direction == In
                  && FindPort(sc.value.ports, c.sourcePort, Out) == Some(r.sourcePort)
                  && FindPort(tc.value.ports, c.targetPort, In) == Some(r.targetPort))
    ensures r.Rejected? ==> r.reason == InvalidName || r.reason == InvalidPort
  {
    var sc := GetComponentInfoOfInstance(c.sourceComponent, d.componentInstances, d.setupInfo.components);
    var tc := GetComponentInfoOfInstance(c.targetComponent, d.componentInstances, d.setupInfo.components);
    if sc.None? || tc.None? then Rejected(InvalidName)
    else
      var sp := FindPort(sc.value.ports, c.sourcePort, Out);
      var tp := FindPort(tc.value.ports, c.targetPort, In);
      if sp.None? || tp.None? then Rejected(InvalidPort)
      else Resolved(sp.value, tp.value)
  }

  // ---------------------------------------------------------------------------------------
  // add-connection

  /** add-connection: after the name and port checks, incompatible ports and a connection
      already present are rejected; otherwise exactly this connection is appended. */
  method AddConnection(store: Store, sourceComponent: string, sourcePort: string,
                       targetComponent: string, targetPort: string) returns (r: Response)
    modifies store
    ensures var c := Connection(sourceComponent, sourcePort, targetComponent, targetPort);
            var e := Resolve(old(store.data), c);
            r == if e.Rejected? then InputError(e.reason)
                 else if !ArePortsCompatible(e.sourcePort, e.targetPort) then InputError(IncompatiblePorts)
                 else if c in old(store.data.connections) then InputError(DuplicateConnection)
                 else Ok
    ensures r.Ok? ==> store.data == old(store.data).(connections := old(store.data.connections) +
                                       [Connection(sourceComponent, sourcePort, targetComponent, targetPort)])
    ensures !r.Ok? ==> store.data == old(store.data)
  {
    var connection := Connection(sourceComponent, sourcePort, targetComponent, targetPort);
    var e := Resolve(store.data, connection);
    if e.Rejected? {
      return InputError(e.reason);
    }
    if !ArePortsCompatible(e.sourcePort, e.targetPort) {
      return InputError(IncompatiblePorts);
    }
    if connection in store.data.connections {
      return InputError(DuplicateConnection);
    }
    store.data := store.data.(connections := store.data.connections + [connection]);
    return Ok;
  }

  /** add-connection never creates a duplicate. */
  lemma AddedKeepsNoDuplicates(cs: seq<Connection>, c: Connection)
    requires NoDuplicates(cs) && c !in cs
    ensures NoDuplicates(cs + [c])
  {
    forall i, j | 0 <= i < j < |cs| + 1 ensures (cs + [c])[i] != (cs + [c])[j] {
      if j == |cs| {
        assert cs[i] in cs;
      }
    }
  }

  // ---------------------------------------------------------------------------------------
  // remove-connection

  /** `_.remove(connections, c)`: the list without every connection equal to `c` on the four
      endpoint fields. */
  function Without(cs: seq<Connection>, c: Connection): (r: seq<Connection>)
    ensures forall x :: x in r <==> x in cs && x != c
    ensures |r| == |cs| <==> c !in cs
    ensures |r| <= |cs|
  {
    if cs == [] then []
    else if cs[0] == c then Without(cs[1..], c)
    else [cs[0]] + Without(cs[1..], c)
  }

  lemma {:induction false} WithoutAbsent(cs: seq<Connection>, c: Connection)
    requires c !in cs
    ensures Without(cs, c) == cs
  {
    if cs != [] {
      assert c !in cs[1..];
      WithoutAbsent(cs[1..], c);
      assert cs == [cs[0]] + cs[1..];
    }
  }

  lemma WithoutCons(x: Connection, cs: seq<Connection>, c: Connection)
    ensures Without([x] + cs, c) == if x == c then Without(cs, c) else [x] + Without(cs, c)
  {
    assert ([x] + cs)[1..] == cs;
  }

  lemma {:induction false} WithoutAppend(cs: seq<Connection>, d: seq<Connection>, c: Connection)
    ensures Without(cs + d, c) == Without(cs, c) + Without(d, c)
  {
    if cs != [] {
      var rest := cs[1..];
      assert cs + d == [cs[0]] + (rest + d);
      WithoutAppend(rest, d, c);
      WithoutCons(cs[0], rest + d, c);
      WithoutCons(cs[0], rest, c);
      assert cs == [cs[0]] + rest;
    } else {
      assert cs + d == d;
    }
  }

  /** Removing a connection just added restores the list. */
  lemma AddThenRemoveConnection(cs: seq<Connection>, c: Connection)
    requires c !in cs
    ensures Without(cs + [c], c) == cs
  {
    WithoutAppend(cs, [c], c);
    WithoutAbsent(cs, c);
    assert Without([c], c) == [];
  }

  /** remove-connection: after the name and port checks, every connection equal to the
      request is removed; when there was none, the answer is an input error. Port
      compatibility is not checked. */
  method RemoveConnection(store: Store, sourceComponent: string, sourcePort: string,
                          targetComponent: string, targetPort: string) returns (r: Response)
    modifies store
    ensures var c := Connection(sourceComponent, sourcePort, targetComponent, targetPort);
            var e := Resolve(old(store.data), c);
            r == if e.Rejected? then InputError(e.reason)
                 else if c !in old(store.data.connections) then InputError(MissingConnection)
                 else Ok
    ensures r.Ok? ==> store.data == old(store.data).(connections := Without(old(store.data.connections),
                                       Connection(sourceComponent, sourcePort, targetComponent, targetPort)))
    ensures !r.Ok? ==> store.data == old(store.data)
  {
    var connection := Connection(sourceComponent, sourcePort, targetComponent, targetPort);
    var e := Resolve(store.data, connection);
    if e.Rejected? {
      return InputError(e.reason);
    }
    var before := store.data.connections;
    store.data := store.data.(connections := Without(before, connection));
    if |store.data.connections| == |before| {
      WithoutAbsent(before, connection);
      return InputError(MissingConnection);
    }
    return Ok;
  }

  // ---------------------------------------------------------------------------------------
  // change-unit-connection-protocol

  /** change-unit-connection-protocol: after the name and port checks, a protocol string that
      is not a value of `conn_protocol`, a connection no unit holds, and a protocol some
      hosting device lacks are rejected, in that order; otherwise every unit connection with
      these endpoints gets the protocol and nothing else changes. */
  method ChangeUnitConnectionProtocol(store: Store, sourceComponent: string, sourcePort: string,
                                      targetComponent: string, targetPort: string, protocol: string)
    returns (r: Response)
    modifies store
    ensures var c := Connection(sourceComponent, sourcePort, targetComponent, targetPort);
            var e := Resolve(old(store.data), c);
            var p := ByValue(protocol);
            r == if e.Rejected? then InputError(e.reason)
                 else if p.None? then InputError(UnknownProtocol)
                 else
                   var uc := UnitConnection(None, sourceComponent, sourcePort, targetComponent, targetPort, p.value);
                   if !ConnectionExists(uc, old(store.data.units)) then InputError(MissingConnection)
                   else if !Allowed(old(store.data), uc) then InputError(ProtocolNotAllowed)
                   else Ok
    ensures r.Ok? ==> store.data == WithUnits(old(store.data), Rewritten(old(store.data.units),
                        UnitConnection(None, sourceComponent, sourcePort, targetComponent, targetPort, ByValue(protocol).value)))
    ensures !r.Ok? ==> store.data == old(store.data)
  {
    var e := Resolve(store.data, Connection(sourceComponent, sourcePort, targetComponent, targetPort));
    if e.Rejected? {
      return InputError(e.reason);
    }
    var usedProtocol := ByValue(protocol);
    if usedProtocol.None? {
      return InputError(UnknownProtocol);
    }
    var connection := UnitConnection(None, sourceComponent, sourcePort, targetComponent, targetPort, usedProtocol.value);
    if !ConnectionExists(connection, store.data.units) {
      return InputError(MissingConnection);
    }
    var ok := ChangeProtocol(store, connection);
    if !ok {
      return InputError(ProtocolNotAllowed);
    }
    return Ok;
  }

  // ---------------------------------------------------------------------------------------
  // add-connections-auto

  /** The run of the auto-connect loops over a topology. */
  function AutoRun(d: Data): Run {
    RunAll(d.componentInstances, d.setupInfo.components, Visits(d.componentInstances))
  }

  /** add-connections-auto: the loops' connections are appended; a type without a setup
      entry stops them with a TypeError (status 500), keeping what was pushed before. */
  method AddConnectionsAuto(store: Store) returns (r: Response)
    modifies store
    ensures r == if AutoRun(old(store.data)).threw then ServerError else Ok
    ensures store.data == Extended(old(store.data), AutoRun(old(store.data)))
  {
    var threw := ConnectAll(store);
    return if threw then ServerError else Ok;
  }

  /** A second add-connections-auto appends the same connections again: nothing it reads
      has changed, and no duplicate check stands in the way, so any connection it made the
      first time is now listed twice. */
  lemma AutoRunTwice(d: Data)
    ensures AutoRun(Extended(d, AutoRun(d))) == AutoRun(d)
    ensures var run := AutoRun(d);
            run.pushed != [] ==> !NoDuplicates(Extended(Extended(d, run), run).connections)
  {
    var run := AutoRun(d);
    if run.pushed != [] {
      var cs := Extended(Extended(d, run), run).connections;
      var i, j := |d.connections|, |d.connections| + |run.pushed|;
      assert cs == d.connections + run.pushed + run.pushed;
      assert cs[i] == run.pushed[0] == cs[j];
    }
  }
}

=== FILE: app_placement.dfy ===
/** The unit and placement handlers of the configurator service: create-units,
    map-component-instance-on-unit and map-unit-on-device. */
module AppPlacement {
  import opened Js
  import opened Types
  import opened Topology
  import opened Lookup
  import opened Placement
  import opened App

  // ---------------------------------------------------------------------------------------
  // create-units

  /** The unit create-units makes for number `k`: id `unit_k`, nothing on it. */
  function NewUnit(k: nat): Unit {
    Unit("unit_" + NatToString(k), [], [], None, None)
  }

  /** `count` new units numbered from `first` on. */
  function NewUnits(first: nat, count: nat): seq<Unit> {
    seq(count, j requires 0 <= j < count => NewUnit(first + j))
  }

  lemma NewUnitsSnoc(first: nat, count: nat)
    ensures NewUnits(first, count + 1) == NewUnits(first, count) + [NewUnit(first + count)]
  {
    assert forall j :: 0 <= j < count ==> NewUnits(first, count + 1)[j] == NewUnits(first, count)[j];
  }

  /** create-units: `count` empty units are appended, numbered on from the current number
      of units; a count of zero or less creates none. */
  method CreateUnits(store: Store, count: int) returns (r: Response)
    modifies store
    ensures r == Ok
    ensures store.data == old(store.data).(units := old(store.data.units) +
                                             NewUnits(|old(store.data.units)| + 1, if count > 0 then count else 0))
  {
    ghost var d0 := store.data;
    var unitMbr := |store.data.units| + 1;
    var i := 0;
    while i < count
      invariant 0 <= i && (count > 0 ==> i <= count) && (count <= 0 ==> i == 0)
      invariant unitMbr == |d0.units| + 1 + i
      invariant store.data == d0.(units := d0.units + NewUnits(|d0.units| + 1, i))
    {
      var unit := Unit("unit_" + NatToString(unitMbr), [], [], None, None);
      NewUnitsSnoc(|d0.units| + 1, i);
      store.data := store.data.(units := store.data.units + [unit]);
      unitMbr := unitMbr + 1;
      i := i + 1;
    }
    return Ok;
  }

  /** Unit `i` is called `unit_{i+1}`, as create-units numbers them. */
  ghost predicate SequentialIds(units: seq<Unit>) {
    forall i :: 0 <= i < |units| ==> units[i].id == "unit_" + NatToString(i + 1)
  }

  /** Units numbered on from the end keep the numbering. */
  lemma CreatedSequential(units: seq<Unit>, count: nat)
    requires SequentialIds(units)
    ensures SequentialIds(units + NewUnits(|units| + 1, count))
    ensures |units + NewUnits(|units| + 1, count)| == |units| + count
  {
    var us := units + NewUnits(|units| + 1, count);
    forall i | 0 <= i < |us| ensures us[i].id == "unit_" + NatToString(i + 1) {
      if i >= |units| {
        assert us[i] == NewUnits(|units| + 1, count)[i - |units|] == NewUnit(|units| + 1 + (i - |units|));
      }
    }
  }

  /** Different numbers give different unit ids. */
  lemma UnitIdInjective(a: nat, b: nat)
    requires a != b
    ensures "unit_" + NatToString(a) != "unit_" + NatToString(b)
  {
    var x, y := "unit_" + NatToString(a), "unit_" + NatToString(b);
    assert x[5..] == NatToString(a) && y[5..] == NatToString(b);
    if x == y {
      NatToStringInjective(a, b);
    }
  }

  /** Sequentially numbered units have different ids. */
  lemma SequentialUnique(units: seq<Unit>)
    requires SequentialIds(units)
    ensures NoDuplicates(UnitIds(units))
  {
    forall i, j | 0 <= i < j < |units| ensures UnitIds(units)[i] != UnitIds(units)[j] {
      UnitIdInjective(i + 1, j + 1);
    }
  }

  // ---------------------------------------------------------------------------------------
  // map-component-instance-on-unit

  /** Some unit holds an instance called `name`. */
  ghost predicate Placed(units: seq<Unit>, name: string) {
    exists i, j :: 0 <= i < |units| && 0 <= j < |units[i].components| && units[i].components[j].instance.name == name
  }

  /** The nested search loop of map-component-instance-on-unit. */
  method FindPlaced(units: seq<Unit>, name: string) returns (found: bool)
    ensures found <==> Placed(units, name)
  {
    for i := 0 to |units|
      invariant forall i', j :: 0 <= i' < i && 0 <= j < |units[i'].components| ==> units[i'].components[j].instance.name != name
    {
      var unit := units[i];
      for j := 0 to |unit.components|
        invariant forall j' :: 0 <= j' < j ==> unit.components[j'].instance.name != name
      {
        if unit.components[j].instance.name == name {
          return true;
        }
      }
    }
    return false;
  }

  /** How many components named `name` one unit holds. */
  function RefCount(refs: seq<InstanceRef>, name: string): nat {
    if refs == [] then 0 else (if refs[0].instance.name == name then 1 else 0) + RefCount(refs[1..], name)
  }

  /** How many components named `name` all units hold together. */
  function PlaceCount(units: seq<Unit>, name: string): nat {
    if units == [] then 0 else RefCount(units[0].components, name) + PlaceCount(units[1..], name)
  }

  /** No instance is placed twice, on one unit or on two. */
  ghost predicate PlacedOnce(units: seq<Unit>) {
    forall x :: PlaceCount(units, x) <= 1
  }

  /** The units with `ref` appended to the components of unit `k`. */
  function WithComponent(units: seq<Unit>, k: nat, ref: InstanceRef): seq<Unit>
    requires k < |units|
  {
    units[k := units[k].(components := units[k].components + [ref])]
  }

  lemma {:induction false} RefCountAppend(refs: seq<InstanceRef>, ref: InstanceRef, x: string)
    ensures RefCount(refs + [ref], x) == RefCount(refs, x) + if ref.instance.name == x then 1 else 0
  {
    if refs != [] {
      assert (refs + [ref])[1..] == refs[1..] + [ref];
      RefCountAppend(refs[1..], ref, x);
    }
  }

  /** Appending a component adds one to its name's count and leaves the others. */
  lemma {:induction false} WithComponentCount(units: seq<Unit>, k: nat, ref: InstanceRef, x: string)
    requires k < |units|
    ensures PlaceCount(WithComponent(units, k, ref), x) == PlaceCount(units, x) + if ref.instance.name == x then 1 else 0
  {
    if k == 0 {
      RefCountAppend(units[0].components, ref, x);
      assert WithComponent(units, k, ref)[1..] == units[1..];
    } else {
      WithComponentCount(units[1..], k - 1, ref, x);
      assert WithComponent(units, k, ref)[1..] == WithComponent(units[1..], k - 1, ref);
    }
  }

  lemma {:induction false} RefCountZero(refs: seq<InstanceRef>, x: string)
    ensures RefCount(refs, x) == 0 <==> forall j :: 0 <= j < |refs| ==> refs[j].instance.name != x
  {
    if refs != [] {
      RefCountZero(refs[1..], x);
      assert forall j :: 1 <= j < |refs| ==> refs[j] == refs[1..][j - 1];
    }
  }

  /** The count is zero exactly when no unit holds the instance. */
  lemma {:induction false} PlaceCountZero(units: seq<Unit>, x: string)
    ensures PlaceCount(units, x) == 0 <==> !Placed(units, x)
  {
    if units != [] {
      PlaceCountZero(units[1..], x);
      RefCountZero(units[0].components, x);
      if Placed(units, x) {
        var i, j :| 0 <= i < |units| && 0 <= j < |units[i].components| && units[i].components[j].instance.name == x;
        if i > 0 {
          assert units[1..][i - 1] == units[i];
        }
      }
      if Placed(units[1..], x) {
        var i, j :| 0 <= i < |units[1..]| && 0 <= j < |units[1..][i].components| && units[1..][i].components[j].instance.name == x;
        assert units[i + 1] == units[1..][i];
      }
    }
  }

  /** Placing an instance no unit holds keeps every instance placed at most once. */
  lemma WithComponentOnce(units: seq<Unit>, k: nat, ref: InstanceRef)
    requires k < |units| && PlacedOnce(units) && !Placed(units, ref.instance.name)
    ensures PlacedOnce(WithComponent(units, k, ref))
    ensures PlaceCount(WithComponent(units, k, ref), ref.instance.name) == 1
  {
    PlaceCountZero(units, ref.instance.name);
    forall x ensures PlaceCount(WithComponent(units, k, ref), x) <= 1 {
      WithComponentCount(units, k, ref, x);
    }
    WithComponentCount(units, k, ref, ref.instance.name);
  }

  /** map-component-instance-on-unit: an unknown instance, an instance some unit already
      holds and an unknown unit are rejected, in that order; otherwise the instance, with the
      setup entry of its type, is appended to the first unit with that id and nothing else changes. */
  method MapComponentInstanceOnUnit(store: Store, component: string, name: string, unit: string) returns (r: Response)
    modifies store
    ensures var d := old(store.data);
            r == if InstanceCount(d.componentInstances, name) == 0 then InputError(UnknownInstance)
                 else if Placed(d.units, name) then InputError(AlreadyMapped)
                 else if unit !in UnitIds(d.units) then InputError(UnknownUnit)
                 else Ok
    ensures r.Ok? ==>
              var d := old(store.data);
              var inst := GetInstance(name, d.componentInstances).value;
              var ref := InstanceRef(GetComponentInfoOfInstance(name, d.componentInstances, d.setupInfo.components), inst);
              store.data == d.(units := WithComponent(d.units, GetUnitIndx(unit, d.units).value, ref))
    ensures !r.Ok? ==> store.data == old(store.data)
  {
    var instance := GetInstance(name, store.data.componentInstances);
    var unitIndx := GetUnitIndx(unit, store.data.units);
    if instance.None? {
      return InputError(UnknownInstance);
    }
    var placed := FindPlaced(store.data.units, instance.value.name);
    if placed {
      return InputError(AlreadyMapped);
    }
    if unitIndx.None? {
      return InputError(UnknownUnit);
    }
    var ref := InstanceRef(GetComponentInfoOfInstance(instance.value.name, store.data.componentInstances,
                                                      store.data.setupInfo.components), instance.value);
    var k := unitIndx.value;
    store.data := store.data.(units := store.data.units[k := store.data.units[k].(components := store.data.units[k].components + [ref])]);
    return Ok;
  }

  // ---------------------------------------------------------------------------------------
  // map-unit-on-device

  /** Some device lists the unit id `id`. */
  ghost predicate Hosted(devices: seq<Device>, id: string) {
    exists i, j :: 0 <= i < |devices| && 0 <= j < |devices[i].units| && devices[i].units[j] == id
  }

  /** The nested search loop of map-unit-on-device. */
  method FindHosted(devices: seq<Device>, id: string) returns (found: bool)
    ensures found <==> Hosted(devices, id)
  {
    for i := 0 to |devices|
      invariant forall i', j :: 0 <= i' < i && 0 <= j < |devices[i'].units| ==> devices[i'].units[j] != id
    {
      var dev := devices[i];
      for j := 0 to |dev.units|
        invariant forall j' :: 0 <= j' < j ==> dev.units[j'] != id
      {
        if dev.units[j] == id {
          return true;
        }
      }
    }
    return false;
  }

  /** How often `id` occurs in one list of unit ids. */
  function IdCount(ids: seq<string>, id: string): nat {
    if ids == [] then 0 else (if ids[0] == id then 1 else 0) + IdCount(ids[1..], id)
  }

  /** How often all devices together list `id`. */
  function HostCount(devices: seq<Device>, id: string): nat {
    if devices == [] then 0 else IdCount(devices[0].units, id) + HostCount(devices[1..], id)
  }

  /** No unit is hosted twice, by one device or by two. */
  ghost predicate HostedOnce(devices: seq<Device>) {
    forall x :: HostCount(devices, x) <= 1
  }

  /** The devices with `id` appended to the units of device `k`. */
  function WithHosted(devices: seq<Device>, k: nat, id: string): seq<Device>
    requires k < |devices|
  {
    devices[k := devices[k].(units := devices[k].units + [id])]
  }

  lemma {:induction false} IdCountAppend(ids: seq<string>, id: string, x: string)
    ensures IdCount(ids + [id], x) == IdCount(ids, x) + if id == x then 1 else 0
  {
    if ids != [] {
      assert (ids + [id])[1..] == ids[1..] + [id];
      IdCountAppend(ids[1..], id, x);
    }
  }

  /** Hosting a unit adds one to its id's count and leaves the others. */
  lemma {:induction false} WithHostedCount(devices: seq<Device>, k: nat, id: string, x: string)
    requires k < |devices|
    ensures HostCount(WithHosted(devices, k, id), x) == HostCount(devices, x) + if id == x then 1 else 0
  {
    if k == 0 {
      IdCountAppend(devices[0].units, id, x);
      assert WithHosted(devices, k, id)[1..] == devices[1..];
    } else {
      WithHostedCount(devices[1..], k - 1, id, x);
      assert WithHosted(devices, k, id)[1..] == WithHosted(devices[1..], k - 1, id);
    }
  }

  lemma {:induction false} IdCountZero(ids: seq<string>, x: string)
    ensures IdCount(ids, x) == 0 <==> x !in ids
  {
    if ids != [] {
      IdCountZero(ids[1..], x);
      assert ids == [ids[0]] + ids[1..];
    }
  }

  /** The count is zero exactly when no device hosts the unit. */
  lemma {:induction false} HostCountZero(devices: seq<Device>, x: string)
    ensures HostCount(devices, x) == 0 <==> !Hosted(devices, x)
  {
    if devices != [] {
      HostCountZero(devices[1..], x);
      IdCountZero(devices[0].units, x);
      if Hosted(devices, x) {
        var i, j :| 0 <= i < |devices| && 0 <= j < |devices[i].units| && devices[i].units[j] == x;
        if i > 0 {
          assert devices[1..][i - 1] == devices[i];
        } else {
          assert x in devices[0].units;
        }
      }
      if Hosted(devices[1..], x) {
        var i, j :| 0 <= i < |devices[1..]| && 0 <= j < |devices[1..][i].units| && devices[1..][i].units[j] == x;
        assert devices[i + 1] == devices[1..][i];
      }
      if x in devices[0].units {
        var j :| 0 <= j < |devices[0].units| && devices[0].units[j] == x;
      }
    }
  }

  /** Hosting a unit no device hosts keeps every unit hosted at most once. */
  lemma WithHostedOnce(devices: seq<Device>, k: nat, id: string)
    requires k < |devices| && HostedOnce(devices) && !Hosted(devices, id)
    ensures HostedOnce(WithHosted(devices, k, id))
    ensures HostCount(WithHosted(devices, k, id), id) == 1
  {
    HostCountZero(devices, id);
    forall x ensures HostCount(WithHosted(devices, k, id), x) <= 1 {
      WithHostedCount(devices, k, id, x);
    }
    WithHostedCount(devices, k, id, id);
  }

  /** map-unit-on-device: an unknown device, an unknown unit and a unit some device already
      hosts are rejected, in that order; otherwise the unit's connections to every other
      unit, hosted or not, are derived and the unit id is appended to the first device with that name. */
  method MapUnitOnDevice(store: Store, unit: string, device: string) returns (r: Response)
    modifies store
    ensures var d := old(store.data);
            r == if GetDeviceIndx(device, d.devices).None? then InputError(UnknownDevice)
                 else if unit !in UnitIds(d.units) then InputError(UnknownUnit)
                 else if Hosted(d.devices, unit) then InputError(UnitAlreadyMapped)
                 else Ok
    ensures r.Ok? ==>
              var d := old(store.data);
              var u := GetUnitIndx(unit, d.units).value;
              var d1 := Appended(d, u, Derived(d.units, u, d.connections, |d.units|));
              store.data == d1.(devices := WithHosted(d.devices, GetDeviceIndx(device, d.devices).value, unit))
    ensures !r.Ok? ==> store.data == old(store.data)
  {
    var unitIndx := GetUnitIndx(unit, store.data.units);
    var deviceIndx := GetDeviceIndx(device, store.data.devices);
    if deviceIndx.None? {
      return InputError(UnknownDevice);
    }
    if unitIndx.None? {
      return InputError(UnknownUnit);
    }
    var hosted := FindHosted(store.data.devices, store.data.units[unitIndx.value].id);
    if hosted {
      return InputError(UnitAlreadyMapped);
    }
    var _ := InitUnitConnections(store, deviceIndx.value, unitIndx.value);
    var k := deviceIndx.value;
    var id := store.data.units[unitIndx.value].id;
    store.data := store.data.(devices := store.data.devices[k := store.data.devices[k].(units := store.data.devices[k].units + [id])]);
    return Ok;
  }
}

=== FILE: app_resilience.dfy ===
/** The resilience handlers of the configurator service: add-resilience-mechanism,
    change-fault-tolerance-params and set-execution-sites. In all three the check for the
    component type answers with an input error but does not return, so the handler goes on:
    a later answer raises (the first one stands) and a later change of the topology still
    happens. */
module AppResilience {
  import opened Js
  import opened Types
  import opened Topology
  import opened Lookup
  import opened Resilience
  import opened App

  /** What the component-type check has sent, if anything. */
  function TypeCheck(d: Data, component: string): (s: Option<Response>)
    ensures s.Some? <==> Get(d.componentInstances, component).None?
    ensures s.Some? ==> s.value == InputError(UnknownComponent)
  {
    if Get(d.componentInstances, component).None? then Some(InputError(UnknownComponent)) else None
  }

  /** No two resilience records share an id. */
  predicate UniqueIds(rs: seq<ResilienceRecord>) {
    forall i, j :: 0 <= i < j < |rs| ==> rs[i].id != rs[j].id
  }

  // ---------------------------------------------------------------------------------------
  // add-resilience-mechanism

  /** The two mechanism names the handler accepts. */
  predicate KnownMechanism(mechanism: string) {
    mechanism == "activeReplication" || mechanism == "checkpointRecovery"
  }

  /** The record add-resilience-mechanism appends: active replication with n = 4 and f = 1,
      or checkpoint recovery with both parts enabled. */
  function NewRecord(mechanism: string, faultModel: string, name: string): (rec: ResilienceRecord)
    requires KnownMechanism(mechanism)
    ensures rec.id == name
    ensures rec.mechanisms.ActiveReplication? <==> mechanism == "activeReplication"
  {
    if mechanism == "activeReplication" then ResilienceRecord(name, ActiveReplication(faultModel, 4, 1, true, []))
    else ResilienceRecord(name, CheckpointRecovery(true, true))
  }

  /** add-resilience-mechanism reaches the point where it appends a record. */
  predicate Adds(d: Data, name: string, mechanism: string) {
    && KnownMechanism(mechanism)
    && InstanceCount(d.componentInstances, name) > 0
    && d.resilienceInfo.components.Some?
    && !HasRecord(d.resilienceInfo.components.value, name)
  }

  /** add-resilience-mechanism: an unknown mechanism name is rejected first; then an unknown
      instance, a missing record list (status 500) and an instance that already has a record
      are rejected; otherwise one record for the instance is appended. */
  method AddResilienceMechanism(store: Store, component: string, name: string, mechanism: string, faultModel: string)
    returns (r: Response)
    modifies store
    ensures var d := old(store.data);
            var first := TypeCheck(d, component);
            r == if !KnownMechanism(mechanism) then InputError(UnknownMechanism)
                 else if InstanceCount(d.componentInstances, name) == 0 then Answer(first, InputError(UnknownInstance))
                 else if d.resilienceInfo.components.None? then Answer(first, ServerError)
                 else if HasRecord(d.resilienceInfo.components.value, name) then Answer(first, InputError(MechanismDefined))
                 else Answer(first, Ok)
    ensures Adds(old(store.data), name, mechanism) ==>
              store.data == WithRecords(old(store.data), old(store.data.resilienceInfo.components).value +
                                                         [NewRecord(mechanism, faultModel, name)])
    ensures !Adds(old(store.data), name, mechanism) ==> store.data == old(store.data)
  {
    if mechanism != "activeReplication" && mechanism != "checkpointRecovery" {
      return InputError(UnknownMechanism);
    }
    var sent := TypeCheck(store.data, component);
    var instance := GetInstance(name, store.data.componentInstances);
    if instance.None? {
      return Answer(sent, InputError(UnknownInstance));
    }
    if store.data.resilienceInfo.components.None? {
      return Answer(sent, ServerError);
    }
    if ComponentHasActiveReplication(instance.value.name, store.data.resilienceInfo.components.value) {
      return Answer(sent, InputError(MechanismDefined));
    }
    if mechanism == "activeReplication" {
      var _ := AddReplicatedComponent(store, faultModel, instance.value.name, 4, 1);
    }
    if mechanism == "checkpointRecovery" {
      var _ := AddCheckpointedComponent(store, instance.value.name);
    }
    return Answer(sent, Ok);
  }

  /** Adding a record for an id without one keeps ids unique, and the new record is the
      only one with that id. */
  lemma AddedKeepsUniqueIds(rs: seq<ResilienceRecord>, rec: ResilienceRecord)
    requires UniqueIds(rs) && !HasRecord(rs, rec.id)
    ensures UniqueIds(rs + [rec])
    ensures forall i :: 0 <= i < |rs + [rec]| && (rs + [rec])[i].id == rec.id ==> i == |rs|
  {
  }

  // ---------------------------------------------------------------------------------------
  // change-fault-tolerance-params

  /** The handler reaches the edit of the records. */
  predicate Retunes(d: Data, name: string) {
    && InstanceCount(d.componentInstances, name) > 0
    && d.resilienceInfo.components.Some?
    && HasRecord(d.resilienceInfo.components.value, name)
  }

  /** change-fault-tolerance-params: an unknown instance, a missing record list (status 500)
      and an instance without a record are rejected; otherwise every record with the id gets
      the new fault model, n and f, and editing a checkpoint record raises (status 500). */
  method ChangeFaultToleranceParams(store: Store, component: string, name: string, n: int, f: int, faultModel: string)
    returns (r: Response)
    modifies store
    ensures var d := old(store.data);
            var first := TypeCheck(d, component);
            r == if InstanceCount(d.componentInstances, name) == 0 then Answer(first, InputError(UnknownInstance))
                 else if d.resilienceInfo.components.None? then Answer(first, ServerError)
                 else if !HasRecord(d.resilienceInfo.components.value, name) then Answer(first, InputError(NotReplicated))
                 else if Edited(d.resilienceInfo.components.value, name, SetParams(faultModel, n, f)).threw then Answer(first, ServerError)
                 else Answer(first, Ok)
    ensures Retunes(old(store.data), name) ==>
              store.data == WithRecords(old(store.data),
                              Edited(old(store.data.resilienceInfo.components).value, name, SetParams(faultModel, n, f)).records)
    ensures !Retunes(old(store.data), name) ==> store.data == old(store.data)
  {
    var sent := TypeCheck(store.data, component);
    var instance := GetInstance(name, store.data.componentInstances);
    if instance.None? {
      return Answer(sent, InputError(UnknownInstance));
    }
    if store.data.resilienceInfo.components.None? {
      return Answer(sent, ServerError);
    }
    if !ComponentHasActiveReplication(instance.value.name, store.data.resilienceInfo.components.value) {
      return Answer(sent, InputError(NotReplicated));
    }
    var threw := SetReplicationParameters(store, faultModel, instance.value.name, n, f);
    if threw {
      return Answer(sent, ServerError);
    }
    return Answer(sent, Ok);
  }

  /** Editing records keeps their ids, so it keeps them unique. */
  lemma EditedKeepsUniqueIds(rs: seq<ResilienceRecord>, name: string, e: Edit)
    requires UniqueIds(rs)
    ensures UniqueIds(Edited(rs, name, e).records)
  {
  }

  // ---------------------------------------------------------------------------------------
  // set-execution-sites

  /** The records with the sites of record `k` replaced. */
  function WithSites(rs: seq<ResilienceRecord>, k: nat, sites: seq<string>): seq<ResilienceRecord>
    requires k < |rs| && rs[k].mechanisms.ActiveReplication?
  {
    rs[k := rs[k].(mechanisms := rs[k].mechanisms.(executionSites := sites))]
  }

  /** The handler writes the sites: every check passes and the first record with the id
      is an active-replication record. */
  predicate SetsSites(d: Data, name: string, sites: seq<string>) {
    && InstanceCount(d.componentInstances, name) > 0
    && d.resilienceInfo.components.Some?
    && HasRecord(d.resilienceInfo.components.value, name)
    && ExecutionSitesFeasible(sites, d.units)
    && var rs := d.resilienceInfo.components.value;
       rs[FirstWithId(rs, name).value].mechanisms.ActiveReplication?
  }

  /** set-execution-sites: an unknown instance, a missing record list (status 500), an instance
      without a record and a site list naming an empty or unknown unit are rejected; otherwise
      the first record with the id gets the sites, and a checkpoint record raises (status 500). */
  method SetExecutionSitesHandler(store: Store, component: string, name: string, sites: seq<string>) returns (r: Response)
    modifies store
    ensures var d := old(store.data);
            var first := TypeCheck(d, component);
            r == if InstanceCount(d.componentInstances, name) == 0 then Answer(first, InputError(UnknownInstance))
                 else if d.resilienceInfo.components.None? then Answer(first, ServerError)
                 else if !HasRecord(d.resilienceInfo.components.value, name) then Answer(first, InputError(NotReplicated))
                 else if !ExecutionSitesFeasible(sites, d.units) then Answer(first, InputError(UnknownSite))
                 else
                   var rs := d.resilienceInfo.components.value;
                   if rs[FirstWithId(rs, name).value].mechanisms.CheckpointRecovery? then Answer(first, ServerError)
                   else Answer(first, Ok)
    ensures SetsSites(old(store.data), name, sites) ==>
              var rs := old(store.data.resilienceInfo.components).value;
              store.data == WithRecords(old(store.data), WithSites(rs, FirstWithId(rs, name).value, sites))
    ensures !SetsSites(old(store.data), name, sites) ==> store.data == old(store.data)
  {
    var sent := TypeCheck(store.data, component);
    var instance := GetInstance(name, store.data.componentInstances);
    if instance.None? {
      return Answer(sent, InputError(UnknownInstance));
    }
    if store.data.resilienceInfo.components.None? {
      return Answer(sent, ServerError);
    }
    if !ComponentHasActiveReplication(instance.value.name, store.data.resilienceInfo.components.value) {
      return Answer(sent, InputError(NotReplicated));
    }
    if !ExecutionSitesFeasible(sites, store.data.units) {
      return Answer(sent, InputError(UnknownSite));
    }
    var result := SetExecutionSites(store, sites, instance.value.name);
    if result.Threw? {
      return Answer(sent, ServerError);
    }
    return Answer(sent, Ok);
  }

  /** Setting sites keeps every id, so it keeps them unique. */
  lemma WithSitesKeepsUniqueIds(rs: seq<ResilienceRecord>, k: nat, sites: seq<string>)
    requires k < |rs| && rs[k].mechanisms.ActiveReplication? && UniqueIds(rs)
    ensures UniqueIds(WithSites(rs, k, sites))
  {
  }
}

=== FILE: auto_connect.dfy ===
/** The add-connections-auto handler of app.ts: for every pair of component instances it
    visits, a connection for each compatible (out, in) port pair, with no duplicate check. */
module AutoConnect {
  import opened Js
  import opened Types
  import opened Compat
  import opened Topology

  type Instances = Record<seq<Instance>>

  // ---------------------------------------------------------------------------------------
  // the visiting order of the four instance loops

  /** The `si`-th instance of list `ti` as source, the `sj`-th instance of list `tj` as target. */
  datatype Visit = Visit(ti: nat, si: nat, tj: nat, sj: nat)

  /** The four indices name existing instances. */
  predicate ValidVisit(ci: Instances, v: Visit) {
    v.ti < |ci| && v.si < |ci[v.ti].1| && v.tj < |ci| && v.sj < |ci[v.tj].1|
  }

  /** A pair the loops reach: the `break` on meeting the source itself cuts the source's own
      list short, so there only the targets before the source are visited. */
  predicate Visited(ci: Instances, v: Visit) {
    ValidVisit(ci, v) && (v.tj != v.ti || v.sj < v.si)
  }

  /** How many targets of list `tj` the source (ti, si) visits. */
  function Bound(ci: Instances, ti: nat, si: nat, tj: nat): (b: nat)
    requires ti < |ci| && si < |ci[ti].1| && tj < |ci|
    ensures b <= |ci[tj].1|
  {
    if tj == ti then si else |ci[tj].1|
  }

  /** The visits of the innermost loop, over list `tj`. */
  function TargetsIn(ci: Instances, ti: nat, si: nat, tj: nat): (r: seq<Visit>)
    requires ti < |ci| && si < |ci[ti].1| && tj < |ci|
    ensures |r| == Bound(ci, ti, si, tj)
    ensures forall k :: 0 <= k < |r| ==> r[k] == Visit(ti, si, tj, k)
  {
    seq(Bound(ci, ti, si, tj), k requires 0 <= k < Bound(ci, ti, si, tj) => Visit(ti, si, tj, k))
  }

  /** The visits of source (ti, si) over the first `m` target lists. */
  function TargetsUpTo(ci: Instances, ti: nat, si: nat, m: nat): seq<Visit>
    requires ti < |ci| && si < |ci[ti].1| && m <= |ci|
  {
    if m == 0 then [] else TargetsUpTo(ci, ti, si, m - 1) + TargetsIn(ci, ti, si, m - 1)
  }

  /** The visits of the first `n` sources of list `ti`. */
  function SourcesUpTo(ci: Instances, ti: nat, n: nat): seq<Visit>
    requires ti < |ci| && n <= |ci[ti].1|
  {
    if n == 0 then [] else SourcesUpTo(ci, ti, n - 1) + TargetsUpTo(ci, ti, n - 1, |ci|)
  }

  /** The visits of the sources of the first `m` lists. */
  function TypesUpTo(ci: Instances, m: nat): seq<Visit>
    requires m <= |ci|
  {
    if m == 0 then [] else TypesUpTo(ci, m - 1) + SourcesUpTo(ci, m - 1, |ci[m - 1].1|)
  }

  /** All visits, in the order of the loops. */
  function Visits(ci: Instances): seq<Visit> {
    TypesUpTo(ci, |ci|)
  }

  lemma {:induction false} TargetsUpToMembers(ci: Instances, ti: nat, si: nat, m: nat)
    requires ti < |ci| && si < |ci[ti].1| && m <= |ci|
    ensures forall v :: v in TargetsUpTo(ci, ti, si, m) <==> v.ti == ti && v.si == si && v.tj < m && Visited(ci, v)
  {
    if m > 0 {
      TargetsUpToMembers(ci, ti, si, m - 1);
      var seg := TargetsIn(ci, ti, si, m - 1);
      forall v: Visit | v.ti == ti && v.si == si && v.tj == m - 1 && Visited(ci, v) ensures v in seg {
        assert seg[v.sj] == v;
      }
    }
  }

  lemma {:induction false} SourcesUpToMembers(ci: Instances, ti: nat, n: nat)
    requires ti < |ci| && n <= |ci[ti].1|
    ensures forall v :: v in SourcesUpTo(ci, ti, n) <==> v.ti == ti && v.si < n && Visited(ci, v)
  {
    if n > 0 {
      SourcesUpToMembers(ci, ti, n - 1);
      TargetsUpToMembers(ci, ti, n - 1, |ci|);
    }
  }

  lemma {:induction false} TypesUpToMembers(ci: Instances, m: nat)
    requires m <= |ci|
    ensures forall v :: v in TypesUpTo(ci, m) <==> v.ti < m && Visited(ci, v)
  {
    if m > 0 {
      TypesUpToMembers(ci, m - 1);
      SourcesUpToMembers(ci, m - 1, |ci[m - 1].1|);
    }
  }

  /** The loops visit exactly the pairs of instances in which the target does not come at or
      after the source in the source's own list. */
  lemma VisitsExactly(ci: Instances)
    ensures forall v :: v in Visits(ci) <==> Visited(ci, v)
  {
    TypesUpToMembers(ci, |ci|);
  }

  predicate IsPrefix(a: seq<Visit>, b: seq<Visit>) {
    |a| <= |b| && b[..|a|] == a
  }

  lemma {:induction false} TargetsUpToPrefix(ci: Instances, ti: nat, si: nat, m: nat, m': nat)
    requires ti < |ci| && si < |ci[ti].1| && m <= m' <= |ci|
    ensures IsPrefix(TargetsUpTo(ci, ti, si, m), TargetsUpTo(ci, ti, si, m'))
  {
    if m < m' {
      TargetsUpToPrefix(ci, ti, si, m, m' - 1);
    }
  }

  lemma {:induction false} SourcesUpToPrefix(ci: Instances, ti: nat, n: nat, n': nat)
    requires ti < |ci| && n <= n' <= |ci[ti].1|
    ensures IsPrefix(SourcesUpTo(ci, ti, n), SourcesUpTo(ci, ti, n'))
  {
    if n < n' {
      SourcesUpToPrefix(ci, ti, n, n' - 1);
    }
  }

  lemma {:induction false} TypesUpToPrefix(ci: Instances, m: nat, m': nat)
    requires m <= m' <= |ci|
    ensures IsPrefix(TypesUpTo(ci, m), TypesUpTo(ci, m'))
  {
    if m < m' {
      TypesUpToPrefix(ci, m, m' - 1);
    }
  }

  // ---------------------------------------------------------------------------------------
  // what one visit pushes

  /** lodash `_.filter(ports, port => port.direction === dir)`. */
  function WithDirection(ports: seq<Port>, dir: Direction): (r: seq<Port>)
    ensures forall p :: p in r <==> p in ports && p.direction == dir
  {
    if ports == [] then []
    else
      var n := |ports| - 1;
      var init := WithDirection(ports[..n], dir);
      assert ports == ports[..n] + [ports[n]];
      if ports[n].direction == dir then init + [ports[n]] else init
  }

  /** The connection from port `sp` of `source` to port `tp` of `target`. */
  function Wire(source: string, sp: Port, target: string, tp: Port): Connection {
    Connection(source, sp.name, target, tp.name)
  }

  /** The innermost port loop: one connection per target port compatible with `sp`. */
  function PairsFor(source: string, sp: Port, target: string, ins: seq<Port>): seq<Connection> {
    if ins == [] then []
    else
      var n := |ins| - 1;
      PairsFor(source, sp, target, ins[..n]) + (if ArePortsCompatible(sp, ins[n]) then [Wire(source, sp, target, ins[n])] else [])
  }

  lemma {:induction false} PairsForMembers(source: string, sp: Port, target: string, ins: seq<Port>)
    ensures forall x :: x in PairsFor(source, sp, target, ins) <==>
              exists tp :: tp in ins && ArePortsCompatible(sp, tp) && x == Wire(source, sp, target, tp)
  {
    if ins != [] {
      var n := |ins| - 1;
      PairsForMembers(source, sp, target, ins[..n]);
      assert ins == ins[..n] + [ins[n]];
    }
  }

  /** Some out port and some in port are compatible and `x` joins them. */
  predicate Joins(x: Connection, source: string, outs: seq<Port>, target: string, ins: seq<Port>) {
    exists sp, tp :: sp in outs && tp in ins && ArePortsCompatible(sp, tp) && x == Wire(source, sp, target, tp)
  }

  /** Both port loops: for each out port, the connections to the compatible in ports. */
  function PortPairs(source: string, outs: seq<Port>, target: string, ins: seq<Port>): seq<Connection> {
    if outs == [] then []
    else PortPairs(source, outs[..|outs| - 1], target, ins) + PairsFor(source, outs[|outs| - 1], target, ins)
  }

  /** The port loops push exactly the connections joining an out port to a compatible in port. */
  lemma {:induction false} PortPairsMembers(source: string, outs: seq<Port>, target: string, ins: seq<Port>)
    ensures forall x :: x in PortPairs(source, outs, target, ins) <==> Joins(x, source, outs, target, ins)
  {
    if outs != [] {
      var n := |outs| - 1;
      PortPairsMembers(source, outs[..n], target, ins);
      PairsForMembers(source, outs[n], target, ins);
      assert outs == outs[..n] + [outs[n]];
    }
  }

  /** One in port more: its connection, if compatible, comes after the others. */
  lemma PairsForSnoc(source: string, sp: Port, target: string, ins: seq<Port>, k: nat)
    requires k < |ins|
    ensures PairsFor(source, sp, target, ins[..k + 1])
         == PairsFor(source, sp, target, ins[..k]) + (if ArePortsCompatible(sp, ins[k]) then [Wire(source, sp, target, ins[k])] else [])
  {
    assert ins[..k + 1][..k] == ins[..k];
  }

  /** One out port more: its connections come after the others. */
  lemma PortPairsSnoc(source: string, outs: seq<Port>, target: string, ins: seq<Port>, k: nat)
    requires k < |outs|
    ensures PortPairs(source, outs[..k + 1], target, ins)
         == PortPairs(source, outs[..k], target, ins) + PairsFor(source, outs[k], target, ins)
  {
    assert outs[..k + 1][..k] == outs[..k];
  }

  /** What a run of the loops has pushed, and whether it stopped on a TypeError. */
  datatype Run = Run(pushed: seq<Connection>, threw: bool)

  /** One run followed by another; nothing runs after a TypeError. */
  function Then(a: Run, b: Run): Run {
    if a.threw then a else Run(a.pushed + b.pushed, b.threw)
  }

  /** One visit. Reading the ports of a type with no setup entry raises a TypeError: the
      source's as soon as the port loops start, the target's once there is an out port.
      Indices naming no instance visit nothing. */
  function Linked(ci: Instances, comps: Record<ComponentInfo>, v: Visit): Run {
    if !ValidVisit(ci, v) then Run([], false)
    else
      var source, target := ci[v.ti].1[v.si], ci[v.tj].1[v.sj];
      match Get(comps, ci[v.ti].0)
      case None => Run([], true)
      case Some(sc) =>
        var outs := WithDirection(sc.ports, Out);
        if outs == [] then Run([], false)
        else
          match Get(comps, ci[v.tj].0)
          case None => Run([], true)
          case Some(tc) => Run(PortPairs(source.name, outs, target.name, WithDirection(tc.ports, In)), false)
  }

  /** A visit raises exactly when the source's type has no setup entry, or the target's has
      none and the source's type has an out port; it pushes nothing then, and otherwise
      exactly the connections from the source's out ports to compatible in ports of the target. */
  lemma LinkedSpec(ci: Instances, comps: Record<ComponentInfo>, v: Visit)
    requires ValidVisit(ci, v)
    ensures var r := Linked(ci, comps, v);
            var sc, tc := Get(comps, ci[v.ti].0), Get(comps, ci[v.tj].0);
            && (r.threw <==> sc.None? || (tc.None? && WithDirection(sc.value.ports, Out) != []))
            && (r.threw ==> r.pushed == [])
            && (sc.Some? && tc.Some? ==>
                  forall x :: x in r.pushed <==>
                    Joins(x, ci[v.ti].1[v.si].name, WithDirection(sc.value.ports, Out),
                          ci[v.tj].1[v.sj].name, WithDirection(tc.value.ports, In)))
  {
    var sc, tc := Get(comps, ci[v.ti].0), Get(comps, ci[v.tj].0);
    if sc.Some? && tc.Some? {
      var outs := WithDirection(sc.value.ports, Out);
      PortPairsMembers(ci[v.ti].1[v.si].name, outs, ci[v.tj].1[v.sj].name, WithDirection(tc.value.ports, In));
    }
  }

  /** The visits `vs` run in order. */
  function RunAll(ci: Instances, comps: Record<ComponentInfo>, vs: seq<Visit>): Run {
    if vs == [] then Run([], false)
    else Then(RunAll(ci, comps, vs[..|vs| - 1]), Linked(ci, comps, vs[|vs| - 1]))
  }

  lemma ThenAssoc(x: Run, y: Run, z: Run)
    ensures Then(Then(x, y), z) == Then(x, Then(y, z))
  {
    if !x.threw && !y.threw {
      assert (x.pushed + y.pushed) + z.pushed == x.pushed + (y.pushed + z.pushed);
    }
  }

  /** A prefix one visit longer runs that visit after the shorter prefix. */
  lemma RunAllSnoc(ci: Instances, comps: Record<ComponentInfo>, vs: seq<Visit>, n: nat)
    requires n < |vs|
    ensures RunAll(ci, comps, vs[..n + 1]) == Then(RunAll(ci, comps, vs[..n]), Linked(ci, comps, vs[n]))
  {
    assert vs[..n + 1][..n] == vs[..n];
  }

  lemma {:induction false} RunAllAppend(ci: Instances, comps: Record<ComponentInfo>, a: seq<Visit>, b: seq<Visit>)
    ensures RunAll(ci, comps, a + b) == Then(RunAll(ci, comps, a), RunAll(ci, comps, b))
  {
    var x := RunAll(ci, comps, a);
    if b == [] {
      assert a + b == a;
      assert x.pushed + [] == x.pushed;
    } else {
      var n := |b| - 1;
      var ab := a + b;
      assert ab[..|ab| - 1] == a + b[..n];
      assert ab[|ab| - 1] == b[n];
      var y, z := RunAll(ci, comps, b[..n]), Linked(ci, comps, b[n]);
      calc {
        RunAll(ci, comps, ab);
        Then(RunAll(ci, comps, a + b[..n]), z);
        { RunAllAppend(ci, comps, a, b[..n]); }
        Then(Then(x, y), z);
        { ThenAssoc(x, y, z); }
        Then(x, Then(y, z));
      }
    }
  }

  /** After a TypeError nothing more is pushed. */
  lemma Sticks(ci: Instances, comps: Record<ComponentInfo>, a: seq<Visit>, b: seq<Visit>)
    requires IsPrefix(a, b)
    requires RunAll(ci, comps, a).threw
    ensures RunAll(ci, comps, b) == RunAll(ci, comps, a)
  {
    assert b == a + b[|a|..];
    RunAllAppend(ci, comps, a, b[|a|..]);
  }

  /** Every pushed connection comes from one of the visits, joining an out port of the source's
      type to a compatible in port of the target's type; and when nothing raised, every
      visit's connections are all pushed. */
  lemma {:induction false} RunAllExactly(ci: Instances, comps: Record<ComponentInfo>, vs: seq<Visit>)
    ensures forall x :: x in RunAll(ci, comps, vs).pushed ==>
              exists v :: v in vs && x in Linked(ci, comps, v).pushed
    ensures !RunAll(ci, comps, vs).threw ==>
              forall v :: v in vs ==> !Linked(ci, comps, v).threw && forall x :: x in Linked(ci, comps, v).pushed ==> x in RunAll(ci, comps, vs).pushed
  {
    if vs != [] {
      var n := |vs| - 1;
      RunAllExactly(ci, comps, vs[..n]);
      assert vs == vs[..n] + [vs[n]];
    }
  }

  // ---------------------------------------------------------------------------------------
  // the loops

  /** The data once a run's connections are pushed onto its list. */
  function Extended(d: Data, run: Run): Data {
    d.(connections := d.connections + run.pushed)
  }

  /** Pushing two runs one after the other is pushing their sequence. */
  lemma ExtendedThen(d: Data, a: Run, b: Run)
    requires !a.threw
    ensures Extended(Extended(d, a), b) == Extended(d, Then(a, b))
  {
    assert d.connections + a.pushed + b.pushed == d.connections + (a.pushed + b.pushed);
  }

  /** The innermost loop, over the in ports of the target's type: the compatible pairs for
      `sp` are appended to the connections, and nothing else changes. */
  method PushCompatible(store: Store, source: string, sp: Port, target: string, ins: seq<Port>)
    modifies store
    ensures store.data.connections == old(store.data.connections) + PairsFor(source, sp, target, ins)
    ensures store.data == old(store.data).(connections := store.data.connections)
  {
    ghost var d0 := store.data;
    for k := 0 to |ins|
      invariant store.data.connections == d0.connections + PairsFor(source, sp, target, ins[..k])
      invariant store.data == d0.(connections := store.data.connections)
    {
      ghost var before := PairsFor(source, sp, target, ins[..k]);
      PairsForSnoc(source, sp, target, ins, k);
      if ArePortsCompatible(sp, ins[k]) {
        var connection := Wire(source, sp, target, ins[k]);
        store.data := store.data.(connections := store.data.connections + [connection]);
        assert d0.connections + before + [connection] == d0.connections + (before + [connection]);
      }
    }
    assert ins[..|ins|] == ins;
  }

  /** The loop over the out ports of the source's type, each running the in-port loop: all
      the port pairs are appended to the connections, and nothing else changes. */
  method PushPairs(store: Store, source: string, outs: seq<Port>, target: string, ins: seq<Port>)
    modifies store
    ensures store.data.connections == old(store.data.connections) + PortPairs(source, outs, target, ins)
    ensures store.data == old(store.data).(connections := store.data.connections)
  {
    ghost var d0 := store.data;
    ghost var done: seq<Connection> := [];
    for k := 0 to |outs|
      invariant done == PortPairs(source, outs[..k], target, ins)
      invariant store.data.connections == d0.connections + done
      invariant store.data == d0.(connections := store.data.connections)
    {
      ghost var step := PairsFor(source, outs[k], target, ins);
      PortPairsSnoc(source, outs, target, ins, k);
      PushCompatible(store, source, outs[k], target, ins);
      assert d0.connections + done + step == d0.connections + (done + step);
      done := done + step;
    }
    assert outs[..|outs|] == outs;
  }

  /** The two port loops of one visit. A type without a setup entry has no ports to read:
      the source's are read first, the target's once the first out port is visited. */
  method LinkVisit(store: Store, ci: Instances, comps: Record<ComponentInfo>, v: Visit) returns (threw: bool)
    requires ValidVisit(ci, v)
    modifies store
    ensures store.data == Extended(old(store.data), Linked(ci, comps, v))
    ensures threw == Linked(ci, comps, v).threw
  {
    var source, target := ci[v.ti].1[v.si], ci[v.tj].1[v.sj];
    var sourceComponent := Get(comps, ci[v.ti].0);
    var targetComponent := Get(comps, ci[v.tj].0);
    if sourceComponent.None? {
      return true;
    }
    var outs := WithDirection(sourceComponent.value.ports, Out);
    if targetComponent.None? {
      return outs != [];
    }
    var ins := WithDirection(targetComponent.value.ports, In);
    PushPairs(store, source.name, outs, target.name, ins);
    return false;
  }

  /** The loop over the instances of list `tj`, left at the source itself. */
  method RunTargetList(store: Store, ci: Instances, comps: Record<ComponentInfo>, ti: nat, si: nat, tj: nat)
    returns (threw: bool)
    requires ti < |ci| && si < |ci[ti].1| && tj < |ci|
    modifies store
    ensures var run := RunAll(ci, comps, TargetsIn(ci, ti, si, tj));
            store.data == Extended(old(store.data), run) && threw == run.threw
  {
    ghost var d0 := store.data;
    ghost var seg := TargetsIn(ci, ti, si, tj);
    var targets := ci[tj].1;
    var sj := 0;
    while sj < |targets|
      invariant sj <= Bound(ci, ti, si, tj)
      invariant !RunAll(ci, comps, seg[..sj]).threw
      invariant store.data == Extended(d0, RunAll(ci, comps, seg[..sj]))
    {
      if tj == ti && sj == si {
        break;
      }
      ghost var done := RunAll(ci, comps, seg[..sj]);
      ghost var step := Linked(ci, comps, Visit(ti, si, tj, sj));
      RunAllSnoc(ci, comps, seg, sj);
      threw := LinkVisit(store, ci, comps, Visit(ti, si, tj, sj));
      ExtendedThen(d0, done, step);
      if threw {
        Sticks(ci, comps, seg[..sj + 1], seg);
        return;
      }
      sj := sj + 1;
    }
    assert seg[..sj] == seg;
    threw := false;
  }

  /** One more source of list `ti` runs its target lists after the earlier ones. */
  lemma SourcesStep(ci: Instances, comps: Record<ComponentInfo>, ti: nat, si: nat)
    requires ti < |ci| && si < |ci[ti].1|
    ensures RunAll(ci, comps, SourcesUpTo(ci, ti, si + 1))
         == Then(RunAll(ci, comps, SourcesUpTo(ci, ti, si)), RunAll(ci, comps, TargetsUpTo(ci, ti, si, |ci|)))
  {
    RunAllAppend(ci, comps, SourcesUpTo(ci, ti, si), TargetsUpTo(ci, ti, si, |ci|));
  }

  /** One more list runs its sources after the earlier lists. */
  lemma TypesStep(ci: Instances, comps: Record<ComponentInfo>, ti: nat)
    requires ti < |ci|
    ensures RunAll(ci, comps, TypesUpTo(ci, ti + 1))
         == Then(RunAll(ci, comps, TypesUpTo(ci, ti)), RunAll(ci, comps, SourcesUpTo(ci, ti, |ci[ti].1|)))
  {
    RunAllAppend(ci, comps, TypesUpTo(ci, ti), SourcesUpTo(ci, ti, |ci[ti].1|));
  }

  /** The loop over the target lists for source (ti, si). */
  method RunSource(store: Store, ci: Instances, comps: Record<ComponentInfo>, ti: nat, si: nat) returns (threw: bool)
    requires ti < |ci| && si < |ci[ti].1|
    modifies store
    ensures var run := RunAll(ci, comps, TargetsUpTo(ci, ti, si, |ci|));
            store.data == Extended(old(store.data), run) && threw == run.threw
  {
    ghost var d0 := store.data;
    for tj := 0 to |ci|
      invariant !RunAll(ci, comps, TargetsUpTo(ci, ti, si, tj)).threw
      invariant store.data == Extended(d0, RunAll(ci, comps, TargetsUpTo(ci, ti, si, tj)))
    {
      ghost var done := RunAll(ci, comps, TargetsUpTo(ci, ti, si, tj));
      ghost var step := RunAll(ci, comps, TargetsIn(ci, ti, si, tj));
      RunAllAppend(ci, comps, TargetsUpTo(ci, ti, si, tj), TargetsIn(ci, ti, si, tj));
      assert RunAll(ci, comps, TargetsUpTo(ci, ti, si, tj + 1)) == Then(done, step);
      threw := RunTargetList(store, ci, comps, ti, si, tj);
      ExtendedThen(d0, done, step);
      if threw {
        TargetsUpToPrefix(ci, ti, si, tj + 1, |ci|);
        Sticks(ci, comps, TargetsUpTo(ci, ti, si, tj + 1), TargetsUpTo(ci, ti, si, |ci|));
        return;
      }
    }
    threw := false;
  }

  /** The loop over the instances of list `ti` as sources. */
  method RunType(store: Store, ci: Instances, comps: Record<ComponentInfo>, ti: nat) returns (threw: bool)
    requires ti < |ci|
    modifies store
    ensures var run := RunAll(ci, comps, SourcesUpTo(ci, ti, |ci[ti].1|));
            store.data == Extended(old(store.data), run) && threw == run.threw
  {
    ghost var d0 := store.data;
    for si := 0 to |ci[ti].1|
      invariant !RunAll(ci, comps, SourcesUpTo(ci, ti, si)).threw
      invariant store.data == Extended(d0, RunAll(ci, comps, SourcesUpTo(ci, ti, si)))
    {
      ghost var done := RunAll(ci, comps, SourcesUpTo(ci, ti, si));
      ghost var step := RunAll(ci, comps, TargetsUpTo(ci, ti, si, |ci|));
      SourcesStep(ci, comps, ti, si);
      threw := RunSource(store, ci, comps, ti, si);
      ExtendedThen(d0, done, step);
      if threw {
        SourcesUpToPrefix(ci, ti, si + 1, |ci[ti].1|);
        Sticks(ci, comps, SourcesUpTo(ci, ti, si + 1), SourcesUpTo(ci, ti, |ci[ti].1|));
        return;
      }
    }
    threw := false;
  }

  /** The loop over the instance lists. */
  method RunTypes(store: Store, ci: Instances, comps: Record<ComponentInfo>) returns (threw: bool)
    modifies store
    ensures var run := RunAll(ci, comps, Visits(ci));
            store.data == Extended(old(store.data), run) && threw == run.threw
  {
    ghost var d0 := store.data;
    for ti := 0 to |ci|
      invariant !RunAll(ci, comps, TypesUpTo(ci, ti)).threw
      invariant store.data == Extended(d0, RunAll(ci, comps, TypesUpTo(ci, ti)))
    {
      ghost var done := RunAll(ci, comps, TypesUpTo(ci, ti));
      ghost var step := RunAll(ci, comps, SourcesUpTo(ci, ti, |ci[ti].1|));
      TypesStep(ci, comps, ti);
      threw := RunType(store, ci, comps, ti);
      ExtendedThen(d0, done, step);
      if threw {
        TypesUpToPrefix(ci, ti + 1, |ci|);
        Sticks(ci, comps, TypesUpTo(ci, ti + 1), TypesUpTo(ci, |ci|));
        return;
      }
    }
    threw := false;
  }

  /** The loops of add-connections-auto over the store's instance lists; the connection list
      is the only thing they change. */
  method ConnectAll(store: Store) returns (threw: bool)
    modifies store
    ensures var run := RunAll(old(store.data.componentInstances), old(store.data.setupInfo.components),
                              Visits(old(store.data.componentInstances)));
            store.data == Extended(old(store.data), run) && threw == run.threw
  {
    threw := RunTypes(store, store.data.componentInstances, store.data.setupInfo.components);
  }
}

=== FILE: compat.dfy ===
/** Port compatibility and the protocol-less comparison of unit connections (util.ts). */
module Compat {
  import opened Js
  import opened Types

  /** lodash `_.intersection(a, b)`: the values of `a` that also occur in `b`, in the order of
      their first occurrence in `a`, each once. */
  function Intersection(a: seq<string>, b: seq<string>): seq<string> {
    if a == [] then []
    else
      var r' := Intersection(a[..|a| - 1], b);
      var x := a[|a| - 1];
      if x in b && x !in r' then r' + [x] else r'
  }

  /** The intersection holds exactly the values in both lists, once each, and never more
      than the first list holds. */
  lemma {:induction false} IntersectionMembers(a: seq<string>, b: seq<string>)
    ensures var r := Intersection(a, b);
            && (forall x :: x in r <==> x in a && x in b)
            && NoDuplicates(r)
            && |r| <= |a|
  {
    if a != [] {
      IntersectionMembers(a[..|a| - 1], b);
      assert a == a[..|a| - 1] + [a[|a| - 1]];
    }
  }

  /** The intersection is as long as the first list exactly when that list has no duplicates
      and lies inside the second, and then it is that list. */
  lemma {:induction false} IntersectionFull(a: seq<string>, b: seq<string>)
    ensures var r := Intersection(a, b);
            && (|r| == |a| <==> NoDuplicates(a) && forall x :: x in a ==> x in b)
            && (|r| == |a| ==> r == a)
  {
    if a != [] {
      var init, x := a[..|a| - 1], a[|a| - 1];
      IntersectionMembers(init, b);
      IntersectionFull(init, b);
      assert a == init + [x];
    }
  }

  /** `arePortsCompatible`: the intersection of the event types is as long as the source's list. */
  predicate ArePortsCompatible(sourcePort: Port, targetPort: Port) {
    |Intersection(sourcePort.eventTypes, targetPort.eventTypes)| == |sourcePort.eventTypes|
  }

  /** A source port fits a target port exactly when it lists no event type twice and every
      one of its event types is one of the target's. */
  lemma PortsCompatibleSpec(sourcePort: Port, targetPort: Port)
    ensures NoDuplicates(sourcePort.eventTypes) ==>
              (ArePortsCompatible(sourcePort, targetPort) <==> forall e :: e in sourcePort.eventTypes ==> e in targetPort.eventTypes)
    ensures !NoDuplicates(sourcePort.eventTypes) ==> !ArePortsCompatible(sourcePort, targetPort)
  {
    IntersectionFull(sourcePort.eventTypes, targetPort.eventTypes);
  }

  /** `isEqualProtoLess`: the four endpoint fields agree, whatever the protocols. */
  predicate IsEqualProtoLess(conn1: UnitConnection, conn2: UnitConnection) {
    conn1.Endpoints() == conn2.Endpoints()
  }

  /** `connectionExists`: some unit holds a unit connection with these endpoints. */
  function ConnectionExists(toChange: UnitConnection, units: seq<Unit>): (r: bool)
    ensures r <==> exists i, j :: 0 <= i < |units| && 0 <= j < |units[i].unitConnections| &&
                                  units[i].unitConnections[j].Endpoints() == toChange.Endpoints()
  {
    if units == [] then false
    else
      (exists j :: 0 <= j < |units[0].unitConnections| &&
                   IsEqualProtoLess(toChange, units[0].unitConnections[j])) ||
      ConnectionExists(toChange, units[1..])
  }
}

=== FILE: devices_client.dfy ===
/** The device-list conversion of the devices client: raw cluster device descriptions become
    configurator devices, followed by the fixed `ext` device. */
module DevicesClient {
  import opened Js
  import opened Types

  /** One raw device description as the cluster script reports it. */
  datatype RawDevice = RawDevice(name: string, architecture: string, protocols: seq<string>)

  /** One protocol name converted: `BLE` is renamed `BLUETOOTH` before the enum lookup, and the
      client's enum calls its Bluetooth member `BLUETOOTH`; any other name is looked up as a
      key, and a name that is not a key becomes `undefined`. */
  function ConvertProtocol(name: string): (r: Option<Protocol>)
    ensures name == "BLE" || name == "BLUETOOTH" ==> r == Some(BLE)
    ensures name != "BLE" && name != "BLUETOOTH" ==> forall p :: r == Some(p) <==> Key(p) == name
    ensures r.Some? ==> r.value != ON_UNIT || name == "ON_UNIT"
  {
    var key := if name == "BLE" then "BLUETOOTH" else name;
    if key == "BLUETOOTH" then Some(BLE) else ByKey(key)
  }

  /** One raw device converted: its name and architecture, its protocols converted one by one,
      location "unknown" and no units. */
  function ConvertDevice(dev: RawDevice): (d: Device)
    ensures d.deviceName == dev.name && d.architecture == dev.architecture
    ensures |d.protocols| == |dev.protocols|
    ensures forall i :: 0 <= i < |dev.protocols| ==> d.protocols[i] == ConvertProtocol(dev.protocols[i])
    ensures d.location == "unknown" && d.units == []
  {
    Device(dev.name, dev.architecture,
           seq(|dev.protocols|, i requires 0 <= i < |dev.protocols| => ConvertProtocol(dev.protocols[i])),
           "unknown", [])
  }

  /** The device standing for everything outside the cluster. */
  const ExtDevice: Device :=
    Device("ext", "n/a", [Some(REST), Some(MQTT), Some(MQTT_EXTERNAL), Some(BLE), Some(TOM)], "unknown", [])

  /** `initDevices`: nothing at all for an empty raw list; otherwise one converted device per
      raw device, in order, then the `ext` device. No device hosts a unit yet. */
  method InitDevices(devicesRaw: seq<RawDevice>) returns (r: Option<seq<Device>>)
    ensures r.None? <==> devicesRaw == []
    ensures r.Some? ==> |r.value| == |devicesRaw| + 1
    ensures r.Some? ==> forall i :: 0 <= i < |devicesRaw| ==> r.value[i] == ConvertDevice(devicesRaw[i])
    ensures r.Some? ==> r.value[|devicesRaw|] == ExtDevice
    ensures r.Some? ==> forall i :: 0 <= i < |r.value| ==> r.value[i].units == [] && r.value[i].location == "unknown"
  {
    if |devicesRaw| == 0 {
      return None;
    }
    var devices: seq<Device> := [];
    for i := 0 to |devicesRaw|
      invariant |devices| == i
      invariant forall k :: 0 <= k < i ==> devices[k] == ConvertDevice(devicesRaw[k])
    {
      var devTransformed := ConvertDevice(devicesRaw[i]);
      devices := devices + [devTransformed];
    }
    devices := devices + [ExtDevice];
    return Some(devices);
  }

  /** The `ext` device lists every protocol but ON_UNIT, and its MQTT_EXTERNAL entry is the
      member itself, whose string value is 'MQTT_EXTRENAL'. */
  lemma ExtDeviceProtocols()
    ensures forall p :: Some(p) in ExtDevice.protocols <==> p != ON_UNIT
    ensures Value(ExtDevice.protocols[2].value) == "MQTT_EXTRENAL"
  {
    forall p ensures Some(p) in ExtDevice.protocols <==> p != ON_UNIT {
      if p != ON_UNIT {
        match p
        case REST => assert ExtDevice.protocols[0] == Some(p);
        case MQTT => assert ExtDevice.protocols[1] == Some(p);
        case MQTT_EXTERNAL => assert ExtDevice.protocols[2] == Some(p);
        case BLE => assert ExtDevice.protocols[3] == Some(p);
        case TOM => assert ExtDevice.protocols[4] == Some(p);
      }
    }
  }
}

=== FILE: export.dfy ===
/** Building the configuration document from the topology (`transformOutput` of util.ts):
    hosted units grouped under their devices, each component with its unit connections and
    an `ON_UNIT` entry for every other connection it takes part in. */
module Export {
  import opened Js
  import opened Types
  import opened Lookup

  // ---------------------------------------------------------------------------------------
  // ext-tools flags

  /** JavaScript truthiness of an optional port number and host name. */
  predicate PortSet(p: Option<int>) { p.Some? && p.value != 0 }
  predicate NameSet(s: Option<string>) { s.Some? && s.value != "" }

  /** The debug front-end settings are complete: both ports and the host name are set. */
  predicate DebugComplete(d: DebugFrontendInfos) {
    PortSet(d.portToOpenContainer) && PortSet(d.portToOpenHost) && NameSet(d.hostName)
  }

  /** `generateExtToolsConfig`: keeps a non-empty honeypot list and complete debug front-end
      settings, drops the rest, and always sets `useIds`, true only when it was exactly true. */
  function GenerateExtToolsConfig(x: ExtToolsConfig): (r: ExtToolsConfig)
    ensures r.useIds.Some? && (r.useIds.value <==> x.useIds == Some(true))
    ensures r.honeyPots.Some? <==> x.honeyPots.Some? && |x.honeyPots.value| > 0
    ensures r.honeyPots.Some? ==> r.honeyPots == x.honeyPots
    ensures r.debugFrontendInfos.Some? <==> x.debugFrontendInfos.Some? && DebugComplete(x.debugFrontendInfos.value)
    ensures r.debugFrontendInfos.Some? ==> r.debugFrontendInfos == x.debugFrontendInfos
  {
    var honeyPots := if x.honeyPots.Some? && |x.honeyPots.value| > 0 then x.honeyPots else None;
    var debug := if x.debugFrontendInfos.Some? && DebugComplete(x.debugFrontendInfos.value)
                 then x.debugFrontendInfos else None;
    ExtToolsConfig(honeyPots, debug, Some(x.useIds == Some(true)))
  }

  /** Normalising twice is normalising once. */
  lemma GenerateExtToolsConfigIdempotent(x: ExtToolsConfig)
    ensures GenerateExtToolsConfig(GenerateExtToolsConfig(x)) == GenerateExtToolsConfig(x)
  {
  }

  // ---------------------------------------------------------------------------------------
  // connections of one component

  /** The connection touches the component: it is one of its two endpoints. */
  predicate Touches(connection: Connection, name: string) {
    connection.sourceComponent == name || connection.targetComponent == name
  }

  /** Some entry of `conns` has the endpoints of `connection`. */
  predicate Present(connection: Connection, conns: seq<UnitConnection>) {
    exists i :: 0 <= i < |conns| && conns[i].Endpoints() == connection
  }

  /** `checkRelevantConn` as written: an empty (falsy) name admits nothing; otherwise each entry
      already collected rejects a connection that does not touch the component or that has the
      entry's endpoints. With nothing collected yet, the loop body never runs, so any connection
      is admitted, touching the component or not. */
  function CheckRelevantConnAsWritten(connection: Connection, conns: seq<UnitConnection>, relCompName: string): (r: bool)
    ensures relCompName != "" && conns == [] ==> r
    ensures conns != [] ==> (r <==> relCompName != "" && Touches(connection, relCompName) && !Present(connection, conns))
  {
    if relCompName == "" then false
    else if conns == [] then true
    else if connection.sourceComponent != relCompName && connection.targetComponent != relCompName then false
    else if connection == conns[0].Endpoints() then false
    else
      assert forall i :: 1 <= i < |conns| ==> conns[i] == conns[1..][i - 1];
      CheckRelevantConnAsWritten(connection, conns[1..], relCompName)
  }

  /** `checkRelevantConn` as intended: the connection touches the named component and is not
      among the entries collected so far. */
  function CheckRelevantConn(connection: Connection, conns: seq<UnitConnection>, relCompName: string): (r: bool)
    ensures r <==> relCompName != "" && Touches(connection, relCompName) && !Present(connection, conns)
  {
    relCompName != "" && Touches(connection, relCompName) &&
    forall i :: 0 <= i < |conns| ==> conns[i].Endpoints() != connection
  }

  /** The two agree as soon as one entry has been collected. */
  lemma CheckRelevantConnAgrees(connection: Connection, conns: seq<UnitConnection>, relCompName: string)
    requires conns != []
    ensures CheckRelevantConnAsWritten(connection, conns, relCompName) == CheckRelevantConn(connection, conns, relCompName)
  {
  }

  /** The entry emitted for a connection inside a unit. */
  function OnUnitEntry(connection: Connection): UnitConnection {
    UnitConnection(None, connection.sourceComponent, connection.sourcePort,
                   connection.targetComponent, connection.targetPort, ON_UNIT)
  }

  /** The first loop of `generateOutputConnections`: the unit connections derived for this
      component, without their `componentOnUnit` tag. */
  function Explicit(unitConnections: seq<UnitConnection>, name: string): (r: seq<UnitConnection>)
    ensures |r| <= |unitConnections|
    ensures forall x :: x in r ==> x.componentOnUnit.None?
    ensures forall x :: x in r <==> exists u :: u in unitConnections && u.componentOnUnit == Some(name) &&
                                               x == u.(componentOnUnit := None)
  {
    if unitConnections == [] then []
    else
      var init := Explicit(unitConnections[..|unitConnections| - 1], name);
      var u := unitConnections[|unitConnections| - 1];
      assert unitConnections == unitConnections[..|unitConnections| - 1] + [u];
      if u.componentOnUnit == Some(name) then init + [u.(componentOnUnit := None)] else init
  }

  /** The second loop as written: each connection of the topology admitted by the written
      check against the list built so far is appended as an `ON_UNIT` entry. */
  function OnUnitAsWritten(conns: seq<UnitConnection>, connections: seq<Connection>, name: string): (r: seq<UnitConnection>)
    ensures |conns| <= |r|
    ensures r[..|conns|] == conns
  {
    if connections == [] then conns
    else
      var acc := OnUnitAsWritten(conns, connections[..|connections| - 1], name);
      var connection := connections[|connections| - 1];
      if CheckRelevantConnAsWritten(connection, acc, name) then acc + [OnUnitEntry(connection)] else acc
  }

  /** The second loop as intended. */
  function OnUnit(conns: seq<UnitConnection>, connections: seq<Connection>, name: string): (r: seq<UnitConnection>)
    ensures |conns| <= |r| && r[..|conns|] == conns
    ensures forall i :: |conns| <= i < |r| ==>
              r[i].protocol == ON_UNIT && Touches(r[i].Endpoints(), name) && r[i].Endpoints() in connections
    ensures forall i, j :: 0 <= i < j < |r| && |conns| <= j ==> r[i].Endpoints() != r[j].Endpoints()
    ensures name != "" ==> forall c :: c in connections && Touches(c, name) ==> Present(c, r)
  {
    if connections == [] then conns
    else
      var init := connections[..|connections| - 1];
      var acc := OnUnit(conns, init, name);
      var connection := connections[|connections| - 1];
      assert connections == init + [connection];
      if CheckRelevantConn(connection, acc, name) then
        var r := acc + [OnUnitEntry(connection)];
        assert forall c :: Present(c, acc) ==> Present(c, r) by {
          forall c | Present(c, acc) ensures Present(c, r) {
            var i :| 0 <= i < |acc| && acc[i].Endpoints() == c;
            assert r[i] == acc[i];
          }
        }
        assert Present(connection, r) by { assert r[|acc|].Endpoints() == connection; }
        r
      else acc
  }

  /** With at least one unit connection for the component, the written check and the intended
      one build the same list. */
  lemma {:induction false} OnUnitAgrees(conns: seq<UnitConnection>, connections: seq<Connection>, name: string)
    requires conns != []
    ensures OnUnitAsWritten(conns, connections, name) == OnUnit(conns, connections, name)
  {
    if connections != [] {
      OnUnitAgrees(conns, connections[..|connections| - 1], name);
      var acc := OnUnit(conns, connections[..|connections| - 1], name);
      assert acc != [] by { assert |acc| >= |conns|; }
      CheckRelevantConnAgrees(connections[|connections| - 1], acc, name);
    }
  }

  /** A component with no unit connection gets an `ON_UNIT` entry, as written, for the first
      connection of the topology even when that connection does not touch it. */
  lemma ForeignConnectionAsWritten()
    ensures var connection := Connection("s1", "p1", "a1", "p2");
            && !Touches(connection, "c1")
            && OnUnitAsWritten([], [connection], "c1") == [OnUnitEntry(connection)]
            && OnUnit([], [connection], "c1") == []
  {
    var connection := Connection("s1", "p1", "a1", "p2");
    assert [connection][..0] == [];
  }

  /** `generateOutputConnections`: the component's unit connections, then an `ON_UNIT` entry
      for each other connection that touches it. */
  function OutputConnections(name: string, unitConnections: seq<UnitConnection>, connections: seq<Connection>): seq<UnitConnection> {
    OnUnit(Explicit(unitConnections, name), connections, name)
  }

  // ---------------------------------------------------------------------------------------
  // components, units and elements

  /** `generateOutputComponents` for one placed instance. */
  function OutputComponent(ref: InstanceRef, unitConnections: seq<UnitConnection>, connections: seq<Connection>): ComponentOut {
    var typeName := if ref.componentType.Some? then Some(ref.componentType.value.name) else None;
    var ports := if ref.componentType.Some? then Some(ref.componentType.value.ports) else None;
    ComponentOut(typeName, ref.instance.name, ports,
                 OutputConnections(ref.instance.name, unitConnections, connections),
                 ref.instance.startState, ref.instance.startStateGenerator, ref.instance.startStateArgs)
  }

  /** `generateOutputComponents`: one entry per placed instance, in placement order. */
  function OutputComponents(refs: seq<InstanceRef>, unitConnections: seq<UnitConnection>, connections: seq<Connection>): (r: seq<ComponentOut>)
    ensures |r| == |refs|
    ensures forall i :: 0 <= i < |refs| ==> r[i].id == refs[i].instance.name && r[i].startState == refs[i].instance.startState
    ensures forall i :: 0 <= i < |refs| ==>
              r[i].connections == OutputConnections(refs[i].instance.name, unitConnections, connections)
    ensures forall i :: 0 <= i < |refs| ==>
              && r[i].startStateGenerator == refs[i].instance.startStateGenerator
              && r[i].startStateArgs == refs[i].instance.startStateArgs
    ensures forall i :: 0 <= i < |refs| ==>
              && (r[i].typeName.Some? <==> refs[i].componentType.Some?)
              && (r[i].ports.Some? <==> refs[i].componentType.Some?)
              && (refs[i].componentType.Some? ==>
                    r[i].typeName.value == refs[i].componentType.value.name && r[i].ports.value == refs[i].componentType.value.ports)
  {
    seq(|refs|, i requires 0 <= i < |refs| => OutputComponent(refs[i], unitConnections, connections))
  }

  /** The names that are ids of units, in order. */
  function KnownNames(names: seq<string>, units: seq<Unit>): (r: seq<string>)
    ensures forall x :: x in r <==> x in names && x in UnitIds(units)
  {
    if names == [] then []
    else
      var init := KnownNames(names[..|names| - 1], units);
      var x := names[|names| - 1];
      assert names == names[..|names| - 1] + [x];
      if x in UnitIds(units) then init + [x] else init
  }

  /** The exported form of a unit. */
  function OutputUnit(unit: Unit, connections: seq<Connection>): UnitOut {
    UnitOut(unit.id, OutputComponents(unit.components, unit.unitConnections, connections),
            unit.shadowModeConfig, unit.pinnedNodePort)
  }

  /** `generateOutputUnits`: the units named by a device, in the device's own order, each
      taken from the first unit with that id; names of no unit are skipped. */
  function OutputUnits(unitNames: seq<string>, data: Data): (r: seq<UnitOut>)
    ensures |r| == |KnownNames(unitNames, data.units)|
    ensures forall i :: 0 <= i < |r| ==> r[i].id == KnownNames(unitNames, data.units)[i]
    ensures forall i :: 0 <= i < |r| ==>
              exists k :: 0 <= k < |data.units| && GetUnitIndx(r[i].id, data.units) == Some(k) &&
                          r[i] == OutputUnit(data.units[k], data.connections)
  {
    if unitNames == [] then []
    else
      var init := OutputUnits(unitNames[..|unitNames| - 1], data);
      var x := unitNames[|unitNames| - 1];
      match GetUnitIndx(x, data.units)
      case None => init
      case Some(k) => init + [OutputUnit(data.units[k], data.connections)]
  }

  /** The exported form of a device, with the id drawn for it. */
  function OutputElement(dev: Device, id: string, data: Data): Element {
    Element(dev.deviceName, id, dev.architecture, dev.protocols, dev.location, OutputUnits(dev.units, data))
  }

  /** How many devices host at least one unit. */
  function HostingCount(devices: seq<Device>): nat {
    if devices == [] then 0
    else HostingCount(devices[..|devices| - 1]) + (if devices[|devices| - 1].units != [] then 1 else 0)
  }

  /** `generateOutputElements`: one element per device hosting a unit, in device order; `ids`
      stands for the random ids, one drawn per device. */
  function OutputElements(devices: seq<Device>, ids: seq<string>, data: Data): (r: seq<Element>)
    requires |ids| == |devices|
    ensures |r| == HostingCount(devices)
  {
    if devices == [] then []
    else
      var n := |devices| - 1;
      var init := OutputElements(devices[..n], ids[..n], data);
      if devices[n].units != [] then init + [OutputElement(devices[n], ids[n], data)] else init
  }

  /** The elements are exactly those of the devices that host a unit. */
  lemma {:induction false} OutputElementsHosted(devices: seq<Device>, ids: seq<string>, data: Data)
    requires |ids| == |devices|
    ensures forall e :: e in OutputElements(devices, ids, data) ==>
              exists i :: 0 <= i < |devices| && devices[i].units != [] && e == OutputElement(devices[i], ids[i], data)
    ensures forall i :: 0 <= i < |devices| && devices[i].units != [] ==>
              OutputElement(devices[i], ids[i], data) in OutputElements(devices, ids, data)
  {
    if devices != [] {
      var n := |devices| - 1;
      OutputElementsHosted(devices[..n], ids[..n], data);
      var init := OutputElements(devices[..n], ids[..n], data);
      var r := OutputElements(devices, ids, data);
      forall e | e in r
        ensures exists i :: 0 <= i < |devices| && devices[i].units != [] && e == OutputElement(devices[i], ids[i], data)
      {
        if e in init {
          var i :| 0 <= i < n && devices[..n][i].units != [] && e == OutputElement(devices[..n][i], ids[..n][i], data);
          assert devices[..n][i] == devices[i] && ids[..n][i] == ids[i];
        } else {
          assert e == OutputElement(devices[n], ids[n], data);
        }
      }
      forall i | 0 <= i < |devices| && devices[i].units != []
        ensures OutputElement(devices[i], ids[i], data) in r
      {
        if i < n {
          assert devices[..n][i] == devices[i] && ids[..n][i] == ids[i];
          assert OutputElement(devices[i], ids[i], data) in init;
        } else {
          assert r[|r| - 1] == OutputElement(devices[i], ids[i], data);
        }
      }
    }
  }

  /** The last name is kept after those kept from the others, when it is the id of a unit. */
  lemma KnownNamesLast(names: seq<string>, units: seq<Unit>)
    requires names != []
    ensures var n := |names| - 1;
            KnownNames(names, units) ==
            KnownNames(names[..n], units) + (if names[n] in UnitIds(units) then [names[n]] else [])
  {
  }

  /** The unit names are filtered piecewise: the names kept from `a + b` are those kept from `a`
      followed by those kept from `b`, so the device's order and repeated names are kept. */
  lemma {:induction false} KnownNamesAppend(a: seq<string>, b: seq<string>, units: seq<Unit>)
    ensures KnownNames(a + b, units) == KnownNames(a, units) + KnownNames(b, units)
    decreases |b|
  {
    if b == [] {
      assert a + b == a;
    } else {
      var n := |b| - 1;
      var ab := a + b;
      assert ab[..|ab| - 1] == a + b[..n] && ab[|ab| - 1] == b[n];
      KnownNamesAppend(a, b[..n], units);
      KnownNamesLast(ab, units);
      KnownNamesLast(b, units);
    }
  }

  /** A single name is kept exactly when it is the id of a unit. */
  lemma KnownNamesOne(x: string, units: seq<Unit>)
    ensures KnownNames([x], units) == if x in UnitIds(units) then [x] else []
  {
    assert [x][..0] == [];
  }

  /** The last device contributes its element after those of the others, when it hosts a unit. */
  lemma OutputElementsLast(devices: seq<Device>, ids: seq<string>, data: Data)
    requires |ids| == |devices| && devices != []
    ensures var n := |devices| - 1;
            OutputElements(devices, ids, data) ==
            OutputElements(devices[..n], ids[..n], data) +
            (if devices[n].units != [] then [OutputElement(devices[n], ids[n], data)] else [])
  {
  }

  /** The elements are built piecewise: those of `devices + more` are those of `devices`
      followed by those of `more`, so they follow the device order. */
  lemma {:induction false} OutputElementsAppend(devices: seq<Device>, ids: seq<string>,
                                                more: seq<Device>, moreIds: seq<string>, data: Data)
    requires |ids| == |devices| && |moreIds| == |more|
    ensures OutputElements(devices + more, ids + moreIds, data) ==
            OutputElements(devices, ids, data) + OutputElements(more, moreIds, data)
    decreases |more|
  {
    if more == [] {
      assert devices + more == devices && ids + moreIds == ids;
    } else {
      var n := |more| - 1;
      var all, allIds := devices + more, ids + moreIds;
      var m := |all| - 1;
      assert all[..m] == devices + more[..n];
      assert allIds[..m] == ids + moreIds[..n];
      assert all[m] == more[n] && allIds[m] == moreIds[n];
      OutputElementsAppend(devices, ids, more[..n], moreIds[..n], data);
      OutputElementsLast(all, allIds, data);
      OutputElementsLast(more, moreIds, data);
    }
  }

  /** A single device gives its element exactly when it hosts a unit. */
  lemma OutputElementsOne(d: Device, id: string, data: Data)
    ensures OutputElements([d], [id], data) == if d.units != [] then [OutputElement(d, id, data)] else []
  {
    assert [d][..0] == [] && [id][..0] == [];
  }

  /** `transformOutput`: the document; it raises when the store has no resilience record list
      (reading its length) or no ext-tools settings (reading their fields). */
  function TransformOutput(data: Data, ids: seq<string>): (r: Completion<Configuration>)
    requires |ids| == |data.devices|
    ensures r.Threw? <==> data.resilienceInfo.components.None? || data.extToolsConfig.None?
    ensures r.Normal? ==>
              && r.value.elements == OutputElements(data.devices, ids, data)
              && r.value.resilienceLibraryPath == data.resilienceInfo.resilienceLibraryPath
              && (r.value.resilienceConfiguration.Some? <==> |data.resilienceInfo.components.value| > 0)
              && (r.value.resilienceConfiguration.Some? ==> r.value.resilienceConfiguration == data.resilienceInfo.components)
              && r.value.securityConfiguration == data.securityConfig.GetOr(EmptyObject)
              && r.value.extToolsConfiguration == GenerateExtToolsConfig(data.extToolsConfig.value)
              && r.value.degradationConfiguration == data.degradationInfo
              && r.value.npmConfiguration == data.npmConfig
              && r.value.migrationStatus == data.migrationStatus
              && r.value.debuggingConfiguration == data.debuggingConfiguration
              && r.value.capitalisedDebuggingConfiguration.None?
  {
    var elements := OutputElements(data.devices, ids, data);
    match data.resilienceInfo.components
    case None => Threw
    case Some(records) =>
      var resilience := if |records| > 0 then Some(records) else None;
      match data.extToolsConfig
      case None => Threw
      case Some(ext) =>
        Normal(Configuration(elements, data.resilienceInfo.resilienceLibraryPath, resilience,
                             data.securityConfig.GetOr(EmptyObject), GenerateExtToolsConfig(ext),
                             data.degradationInfo, data.npmConfig, data.migrationStatus,
                             data.debuggingConfiguration, None))
  }
}

=== FILE: import.dfy ===
/** Reading a configuration document back into the topology: `transformInput` of util.ts. */
module Import {
  import opened Js
  import opened Types
  import opened Export

  // ---------------------------------------------------------------------------------------
  // the document, flattened in the order of its `flatMap`s

  /** `elements.flatMap(el => el.units)`. */
  function UnitsOf(elements: seq<Element>): (r: seq<UnitOut>)
    ensures forall u :: u in r <==> exists i :: 0 <= i < |elements| && u in elements[i].units
  {
    if elements == [] then []
    else
      var n := |elements| - 1;
      var init := UnitsOf(elements[..n]);
      assert forall i :: 0 <= i < n ==> elements[..n][i] == elements[i];
      init + elements[n].units
  }

  /** `units.flatMap(unit => unit.components)`. */
  function ComponentsOf(units: seq<UnitOut>): seq<ComponentOut> {
    if units == [] then [] else ComponentsOf(units[..|units| - 1]) + units[|units| - 1].components
  }

  /** `components.flatMap(comp => comp.connections)`. */
  function ConnectionsOf(comps: seq<ComponentOut>): seq<UnitConnection> {
    if comps == [] then [] else ConnectionsOf(comps[..|comps| - 1]) + comps[|comps| - 1].connections
  }

  // ---------------------------------------------------------------------------------------
  // what one component contributes

  /** `comp.type` used as a property key: an absent type becomes the key "undefined". */
  function TypeKey(comp: ComponentOut): string {
    comp.typeName.GetOr("undefined")
  }

  /** The setup entry written for the component's type. */
  function Info(comp: ComponentOut): (r: ComponentInfo)
    ensures r.name == TypeKey(comp)
  {
    ComponentInfo(TypeKey(comp), comp.ports.GetOr([]))
  }

  /** The instance record built from the component. */
  function InstanceOf(comp: ComponentOut): (r: Instance)
    ensures r.name == comp.id && r.startState == comp.startState
    ensures r.startStateGenerator == comp.startStateGenerator && r.startStateArgs == comp.startStateArgs
  {
    Instance(comp.id, comp.startState, comp.startStateGenerator, comp.startStateArgs)
  }

  /** A string field that is present and non-empty. */
  predicate Truthy(s: Option<string>) {
    s.Some? && s.value != ""
  }

  /** The start-state key `type + "StartState" + state ? "" : "Empty"`: the conditional
      takes the whole concatenation as its condition, which is never empty, so every
      start state lands under the key "". */
  function StartStateKey(comp: ComponentOut, state: string): (k: string)
    ensures k == ""
  {
    var condition := TypeKey(comp) + "StartState" + state;
    assert condition[|TypeKey(comp)|] == 'S';
    if condition != "" then "" else "Empty"
  }

  /** The list after `type` received one more instance: a new entry, or the old list extended. */
  function AddInstance(instances: Record<seq<Instance>>, key: string, inst: Instance): (r: Record<seq<Instance>>)
    ensures Get(r, key) == Some(Get(instances, key).GetOr([]) + [inst])
    ensures forall k :: k != key ==> Get(r, k) == Get(instances, k)
  {
    Put(instances, key, Get(instances, key).GetOr([]) + [inst])
  }

  /** The connection list after `conns` were pushed, each only when no entry has its endpoints. */
  function AddConnections(cs: seq<Connection>, conns: seq<UnitConnection>): (r: seq<Connection>)
    ensures |cs| <= |r| && r[..|cs|] == cs
    ensures NoDuplicates(cs) ==> NoDuplicates(r)
    ensures forall x :: x in r <==> x in cs || exists u :: u in conns && u.Endpoints() == x
  {
    if conns == [] then cs
    else
      var n := |conns| - 1;
      var acc := AddConnections(cs, conns[..n]);
      var e := conns[n].Endpoints();
      assert conns == conns[..n] + [conns[n]];
      if e in acc then acc else acc + [e]
  }

  // ---------------------------------------------------------------------------------------
  // the collecting pass over all components

  datatype Collected = Collected(components: Record<ComponentInfo>, instances: Record<seq<Instance>>,
                                 startStates: Record<StartStateEntry>, generators: Record<Option<Opaque>>,
                                 connections: seq<Connection>)

  const Nothing := Collected([], [], [], [], [])

  /** What the `forEach` body does with one component. */
  function Step(st: Collected, comp: ComponentOut): Collected {
    Collected(
      Put(st.components, TypeKey(comp), Info(comp)),
      AddInstance(st.instances, TypeKey(comp), InstanceOf(comp)),
      if Truthy(comp.startState)
      then Put(st.startStates, StartStateKey(comp, comp.startState.value), StartStateEntry(comp.startState.value))
      else st.startStates,
      if Truthy(comp.startStateGenerator)
      then Put(st.generators, comp.startStateGenerator.value, comp.startStateArgs)
      else st.generators,
      AddConnections(st.connections, comp.connections))
  }

  /** The state after the `forEach` over `comps`. */
  function Collect(comps: seq<ComponentOut>): Collected {
    if comps == [] then Nothing else Step(Collect(comps[..|comps| - 1]), comps[|comps| - 1])
  }

  lemma CollectSnoc(comps: seq<ComponentOut>, i: nat)
    requires i < |comps|
    ensures Collect(comps[..i + 1]) == Step(Collect(comps[..i]), comps[i])
  {
    assert comps[..i + 1][..i] == comps[..i];
  }

  /** The instances built from the components of type `key`, in order. */
  function OfType(comps: seq<ComponentOut>, key: string): (r: seq<Instance>)
    ensures forall x :: x in r <==> exists i :: 0 <= i < |comps| && TypeKey(comps[i]) == key && InstanceOf(comps[i]) == x
  {
    if comps == [] then []
    else
      var n := |comps| - 1;
      var init := OfType(comps[..n], key);
      assert forall i :: 0 <= i < n ==> comps[..n][i] == comps[i];
      if TypeKey(comps[n]) == key then init + [InstanceOf(comps[n])] else init
  }

  /** Each type present holds exactly the instances of its components, in document order,
      and has a setup entry of that name; an absent type has neither. */
  lemma {:induction false} CollectedTypes(comps: seq<ComponentOut>, key: string)
    ensures Get(Collect(comps).instances, key) == if OfType(comps, key) == [] then None else Some(OfType(comps, key))
    ensures Get(Collect(comps).components, key).Some? <==> OfType(comps, key) != []
    ensures Get(Collect(comps).components, key).Some? ==> Get(Collect(comps).components, key).value.name == key
  {
    if comps != [] {
      CollectedTypes(comps[..|comps| - 1], key);
    }
  }

  /** The connection list has no two entries with the same endpoints, and holds the endpoints
      of exactly the connections listed by the components. */
  lemma {:induction false} CollectedConnections(comps: seq<ComponentOut>)
    ensures NoDuplicates(Collect(comps).connections)
    ensures forall x :: x in Collect(comps).connections <==> exists u :: u in ConnectionsOf(comps) && u.Endpoints() == x
  {
    if comps != [] {
      CollectedConnections(comps[..|comps| - 1]);
    }
  }

  /** Some component has a start state. */
  predicate HasStartState(comps: seq<ComponentOut>) {
    exists i :: 0 <= i < |comps| && Truthy(comps[i].startState)
  }

  /** Some component names the generator `g`. */
  predicate NamesGenerator(comps: seq<ComponentOut>, g: string) {
    exists i :: 0 <= i < |comps| && comps[i].startStateGenerator == Some(g)
  }

  lemma LastComponent(comps: seq<ComponentOut>, g: string)
    requires comps != []
    ensures var n := |comps| - 1;
            && (HasStartState(comps) <==> HasStartState(comps[..n]) || Truthy(comps[n].startState))
            && (NamesGenerator(comps, g) <==> NamesGenerator(comps[..n], g) || comps[n].startStateGenerator == Some(g))
  {
    var n := |comps| - 1;
    assert forall i :: 0 <= i < n ==> comps[..n][i] == comps[i];
  }

  /** All start states share the key "": the record is empty, or holds that one key. */
  lemma {:induction false} CollectedStartStates(comps: seq<ComponentOut>)
    ensures Keys(Collect(comps).startStates) == if HasStartState(comps) then [""] else []
  {
    if comps != [] {
      var n := |comps| - 1;
      CollectedStartStates(comps[..n]);
      LastComponent(comps, "");
    }
  }

  /** A generator name is registered exactly when some component names it. */
  lemma {:induction false} CollectedGenerators(comps: seq<ComponentOut>, g: string)
    ensures Get(Collect(comps).generators, g).Some? <==> g != "" && NamesGenerator(comps, g)
  {
    if comps != [] {
      var n := |comps| - 1;
      CollectedGenerators(comps[..n], g);
      LastComponent(comps, g);
      var c, prev := comps[n], Collect(comps[..n]).generators;
      if Truthy(c.startStateGenerator) && c.startStateGenerator.value == g {
        assert Collect(comps).generators == Put(prev, g, c.startStateArgs);
      } else {
        assert Get(Collect(comps).generators, g) == Get(prev, g);
      }
    }
  }

  // ---------------------------------------------------------------------------------------
  // units

  /** The first name among `names` that is an endpoint component of `conn`. */
  function FirstTouching(names: seq<string>, conn: UnitConnection): (r: Option<string>)
    ensures r.Some? ==> r.value in names && (r.value == conn.sourceComponent || r.value == conn.targetComponent)
    ensures r.None? <==> forall i :: 0 <= i < |names| ==> names[i] != conn.sourceComponent && names[i] != conn.targetComponent
    ensures r.Some? ==> exists i :: 0 <= i < |names| && names[i] == r.value &&
                          forall k :: 0 <= k < i ==> names[k] != conn.sourceComponent && names[k] != conn.targetComponent
  {
    if names == [] then None
    else if names[0] == conn.sourceComponent || names[0] == conn.targetComponent then Some(names[0])
    else
      var r := FirstTouching(names[1..], conn);
      assert forall i :: 1 <= i < |names| ==> names[i] == names[1..][i - 1];
      r
  }

  /** The inner loops over a unit's connections: each is assigned the first of the unit's
      components it touches, and keeps its old assignment when it touches none. */
  function Tag(conn: UnitConnection, names: seq<string>): (r: UnitConnection)
    ensures r.Endpoints() == conn.Endpoints() && r.protocol == conn.protocol
    ensures r.componentOnUnit == match FirstTouching(names, conn)
                                 case Some(n) => Some(n)
                                 case None => conn.componentOnUnit
  {
    match FirstTouching(names, conn)
    case Some(n) => conn.(componentOnUnit := Some(n))
    case None => conn
  }

  /** A placed component, corrected: it refers to the instance built from itself. */
  function ImportedComponent(comp: ComponentOut): (r: InstanceRef)
    ensures r.componentType == Some(Info(comp))
    ensures r.instance.name == comp.id && r.instance == InstanceOf(comp)
  {
    InstanceRef(Some(Info(comp)), InstanceOf(comp))
  }

  /** The instances of the unit's components of type `key`, gathered as the unit's `insts`
      list: component by component, the instances of that type carrying its id. */
  function UnitInsts(unitComps: seq<ComponentOut>, key: string, instances: Record<seq<Instance>>): (r: seq<Instance>)
    ensures forall x :: x in r ==> x.name in (set i | 0 <= i < |unitComps| :: unitComps[i].id)
  {
    if unitComps == [] then []
    else
      var n := |unitComps| - 1;
      var init := UnitInsts(unitComps[..n], key, instances);
      assert forall i :: 0 <= i < n ==> unitComps[..n][i] == unitComps[i];
      var c := unitComps[n];
      if TypeKey(c) == key
      then init + Matching(Get(instances, key).GetOr([]), c.id)
      else init
  }

  /** The instances in `l` called `id`. */
  function Matching(l: seq<Instance>, id: string): (r: seq<Instance>)
    ensures forall x :: x in r <==> x in l && x.name == id
  {
    if l == [] then []
    else
      var init := Matching(l[..|l| - 1], id);
      assert l == l[..|l| - 1] + [l[|l| - 1]];
      if l[|l| - 1].name == id then init + [l[|l| - 1]] else init
  }

  /** A placed component as written: `insts[comp.type][0]`, the first instance gathered for
      its type on this unit, whichever component of that type it came from. */
  function ImportedComponentAsWritten(unitComps: seq<ComponentOut>, comp: ComponentOut,
                                      instances: Record<seq<Instance>>): (r: InstanceRef)
    ensures r.componentType == Some(Info(comp))
    ensures UnitInsts(unitComps, TypeKey(comp), instances) != [] ==>
              r.instance == UnitInsts(unitComps, TypeKey(comp), instances)[0]
  {
    var l := UnitInsts(unitComps, TypeKey(comp), instances);
    InstanceRef(Some(Info(comp)), if l != [] then l[0] else InstanceOf(comp))
  }

  /** Two components "a" and "b" of one type on one unit: as written, "b" is given the
      instance of "a", while the corrected import gives it its own. */
  lemma SecondOfTypeAsWritten()
    ensures var a := ComponentOut(Some("T"), "a", Some([]), [], None, None, None);
            var b := ComponentOut(Some("T"), "b", Some([]), [], None, None, None);
            var instances := [("T", [InstanceOf(a), InstanceOf(b)])];
            && ImportedComponentAsWritten([a, b], b, instances).instance.name == "a"
            && ImportedComponent(b).instance.name == "b"
  {
    var a := ComponentOut(Some("T"), "a", Some([]), [], None, None, None);
    var b := ComponentOut(Some("T"), "b", Some([]), [], None, None, None);
    var l := [InstanceOf(a), InstanceOf(b)];
    var instances := [("T", l)];
    assert Get(instances, "T") == Some(l);
    FirstOfTwo(a, l, instances);
    assert [a, b][..1] == [a];
    var first := UnitInsts([a], "T", instances);
    assert UnitInsts([a, b], "T", instances) == first + Matching(l, "b");
  }

  /** The instances gathered for the first component `a` of type "T" are its own. */
  lemma FirstOfTwo(a: ComponentOut, l: seq<Instance>, instances: Record<seq<Instance>>)
    requires a.typeName == Some("T") && a.id == "a" && |l| == 2 && l[0] == InstanceOf(a) && l[1].name != "a"
    requires Get(instances, "T") == Some(l)
    ensures UnitInsts([a], "T", instances) == [InstanceOf(a)]
  {
    assert l[..1] == [InstanceOf(a)] && l[..1][..0] == [];
    assert Matching(l[..1], "a") == [InstanceOf(a)];
    assert Matching(l, "a") == [InstanceOf(a)];
    assert [a][..0] == [];
  }

  /** `unit.components.flatMap(component => component.id)`. */
  function ComponentIds(comps: seq<ComponentOut>): (r: seq<string>)
    ensures |r| == |comps| && forall i :: 0 <= i < |comps| ==> r[i] == comps[i].id
  {
    seq(|comps|, i requires 0 <= i < |comps| => comps[i].id)
  }

  /** The unit built from an exported unit. */
  function ImportedUnit(unit: UnitOut): (r: Unit)
    ensures r.id == unit.id && r.shadowModeConfig == unit.shadowModeConfig
    ensures r.pinnedNodePort.None?
    ensures |r.components| == |unit.components|
    ensures forall i :: 0 <= i < |unit.components| ==>
              r.components[i].componentType == Some(Info(unit.components[i])) &&
              r.components[i].instance == InstanceOf(unit.components[i])
    ensures |r.unitConnections| == |ConnectionsOf(unit.components)|
    ensures forall i :: 0 <= i < |r.unitConnections| ==>
              r.unitConnections[i] == Tag(ConnectionsOf(unit.components)[i], ComponentIds(unit.components))
  {
    var conns := ConnectionsOf(unit.components);
    var names := ComponentIds(unit.components);
    Unit(unit.id,
         seq(|unit.components|, i requires 0 <= i < |unit.components| => ImportedComponent(unit.components[i])),
         seq(|conns|, i requires 0 <= i < |conns| => Tag(conns[i], names)),
         unit.shadowModeConfig, None)
  }

  /** The device built from an element; it hosts the element's units by id. */
  function ImportedDevice(el: Element): (r: Device)
    ensures r.deviceName == el.deviceName && r.architecture == el.architecture
    ensures r.protocols == el.protocols && r.location == el.location
    ensures |r.units| == |el.units| && forall i :: 0 <= i < |el.units| ==> r.units[i] == el.units[i].id
  {
    Device(el.deviceName, el.architecture, el.protocols, el.location,
           seq(|el.units|, i requires 0 <= i < |el.units| => el.units[i].id))
  }

  function ImportedUnits(units: seq<UnitOut>): (r: seq<Unit>)
    ensures |r| == |units| && forall i :: 0 <= i < |units| ==> r[i] == ImportedUnit(units[i])
  {
    seq(|units|, i requires 0 <= i < |units| => ImportedUnit(units[i]))
  }

  function ImportedDevices(elements: seq<Element>): (r: seq<Device>)
    ensures |r| == |elements| && forall i :: 0 <= i < |elements| ==> r[i] == ImportedDevice(elements[i])
  {
    seq(|elements|, i requires 0 <= i < |elements| => ImportedDevice(elements[i]))
  }

  // ---------------------------------------------------------------------------------------
  // the whole import

  /** The topology read from `configuration`. The passthrough sections are copied; the
      debugging section is read from the capitalised key `DebuggingConfiguration`; a
      resilience section `{}` leaves the record list undefined. */
  function Imported(configuration: Configuration): (d: Data)
    ensures var comps := ComponentsOf(UnitsOf(configuration.elements));
            d.connections == Collect(comps).connections && d.componentInstances == Collect(comps).instances
    ensures |d.devices| == |configuration.elements|
    ensures forall i :: 0 <= i < |configuration.elements| ==> d.devices[i] == ImportedDevice(configuration.elements[i])
    ensures |d.units| == |UnitsOf(configuration.elements)|
    ensures forall i :: 0 <= i < |d.units| ==> d.units[i] == ImportedUnit(UnitsOf(configuration.elements)[i])
    ensures d.resilienceInfo == ResilienceInfo(configuration.resilienceLibraryPath, configuration.resilienceConfiguration)
    ensures d.securityConfig == Some(configuration.securityConfiguration)
    ensures d.extToolsConfig == Some(configuration.extToolsConfiguration)
    ensures d.debuggingConfiguration == configuration.capitalisedDebuggingConfiguration
  {
    var units := UnitsOf(configuration.elements);
    var st := Collect(ComponentsOf(units));
    Data(SetupInfo(st.components, st.startStates, st.generators),
         st.instances, st.connections,
         ImportedUnits(units), ImportedDevices(configuration.elements),
         ResilienceInfo(configuration.resilienceLibraryPath, configuration.resilienceConfiguration),
         Some(configuration.securityConfiguration), Some(configuration.extToolsConfiguration),
         configuration.npmConfiguration, configuration.degradationConfiguration,
         configuration.migrationStatus, configuration.capitalisedDebuggingConfiguration)
  }

  /** The `connections.forEach` of one component: push each connection whose endpoints
      are not listed yet. */
  method PushConnections(cs: seq<Connection>, conns: seq<UnitConnection>) returns (r: seq<Connection>)
    ensures r == AddConnections(cs, conns)
  {
    r := cs;
    var j := 0;
    while j < |conns|
      invariant 0 <= j <= |conns|
      invariant r == AddConnections(cs, conns[..j])
    {
      assert conns[..j + 1][..j] == conns[..j];
      if conns[j].Endpoints() !in r {
        r := r + [conns[j].Endpoints()];
      }
      j := j + 1;
    }
    assert conns[..j] == conns;
  }

  /** The `forEach` over all components, filling the setup entries, the instance lists,
      the start states, the generators and the connection list. */
  method CollectComponents(comps: seq<ComponentOut>) returns (st: Collected)
    ensures st == Collect(comps)
  {
    var components: Record<ComponentInfo> := [];
    var instances: Record<seq<Instance>> := [];
    var startStates: Record<StartStateEntry> := [];
    var generators: Record<Option<Opaque>> := [];
    var connections: seq<Connection> := [];
    var i := 0;
    while i < |comps|
      invariant 0 <= i <= |comps|
      invariant Collected(components, instances, startStates, generators, connections) == Collect(comps[..i])
    {
      var comp := comps[i];
      ghost var before := Collected(components, instances, startStates, generators, connections);
      CollectSnoc(comps, i);
      components := Put(components, TypeKey(comp), Info(comp));
      instances := AddInstance(instances, TypeKey(comp), InstanceOf(comp));
      if Truthy(comp.startState) {
        startStates := Put(startStates, StartStateKey(comp, comp.startState.value), StartStateEntry(comp.startState.value));
      }
      if Truthy(comp.startStateGenerator) {
        generators := Put(generators, comp.startStateGenerator.value, comp.startStateArgs);
      }
      connections := PushConnections(connections, comp.connections);
      assert Collected(components, instances, startStates, generators, connections) == Step(before, comp);
      i := i + 1;
    }
    assert comps[..i] == comps;
    st := Collected(components, instances, startStates, generators, connections);
  }

  /** The `for ... of` over the elements: one device per element, in order. */
  method ImportDevices(elements: seq<Element>) returns (devices: seq<Device>)
    ensures devices == ImportedDevices(elements)
  {
    devices := [];
    for k := 0 to |elements|
      invariant |devices| == k
      invariant forall m :: 0 <= m < k ==> devices[m] == ImportedDevice(elements[m])
    {
      devices := devices + [ImportedDevice(elements[k])];
    }
    assert devices == ImportedDevices(elements);
  }

  /** `transformInput`: the collecting pass over all components, the loop over the elements
      building the devices, then the units. */
  method TransformInput(configuration: Configuration) returns (d: Data)
    ensures d == Imported(configuration)
  {
    var units := UnitsOf(configuration.elements);
    var st := CollectComponents(ComponentsOf(units));
    var devices := ImportDevices(configuration.elements);
    d := Data(SetupInfo(st.components, st.startStates, st.generators),
              st.instances, st.connections,
              ImportedUnits(units), devices,
              ResilienceInfo(configuration.resilienceLibraryPath, configuration.resilienceConfiguration),
              Some(configuration.securityConfiguration), Some(configuration.extToolsConfiguration),
              configuration.npmConfiguration, configuration.degradationConfiguration,
              configuration.migrationStatus, configuration.capitalisedDebuggingConfiguration);
  }

  lemma {:induction false} ComponentsOfHas(units: seq<UnitOut>, i: nat, j: nat)
    requires i < |units| && j < |units[i].components|
    ensures units[i].components[j] in ComponentsOf(units)
  {
    var n := |units| - 1;
    if i < n {
      ComponentsOfHas(units[..n], i, j);
      assert units[..n][i] == units[i];
    }
  }

  /** With the corrected placement, every imported component refers to an instance that is
      registered under its type, and that instance carries the component's own id. */
  lemma ImportedInstancesRegistered(configuration: Configuration, i: nat, j: nat)
    requires i < |UnitsOf(configuration.elements)| && j < |UnitsOf(configuration.elements)[i].components|
    ensures var d := Imported(configuration);
            var ref := d.units[i].components[j];
            && ref.componentType.Some?
            && Get(d.componentInstances, ref.componentType.value.name).Some?
            && ref.instance in Get(d.componentInstances, ref.componentType.value.name).value
            && ref.instance.name == UnitsOf(configuration.elements)[i].components[j].id
  {
    var units := UnitsOf(configuration.elements);
    var comps := ComponentsOf(units);
    var c := units[i].components[j];
    ComponentsOfHas(units, i, j);
    var k :| 0 <= k < |comps| && comps[k] == c;
    assert InstanceOf(c) in OfType(comps, TypeKey(c));
    CollectedTypes(comps, TypeKey(c));
  }

  /** Exporting and importing again: the debugging section is lost (written under one key,
      read under another), an empty resilience record list comes back undefined, the ext-tools
      settings come back normalised, only devices hosting a unit survive, and every unit loses
      its pinned node port. */
  lemma ExportImport(data: Data, ids: seq<string>)
    requires |ids| == |data.devices|
    requires TransformOutput(data, ids).Normal?
    ensures var d := Imported(TransformOutput(data, ids).value);
            && d.debuggingConfiguration.None?
            && (d.resilienceInfo.components.Some? <==> |data.resilienceInfo.components.value| > 0)
            && (d.resilienceInfo.components.Some? ==> d.resilienceInfo.components == data.resilienceInfo.components)
            && d.extToolsConfig == Some(GenerateExtToolsConfig(data.extToolsConfig.value))
            && |d.devices| == HostingCount(data.devices)
            && forall i :: 0 <= i < |d.units| ==> d.units[i].pinnedNodePort.None?
  {
  }
}

=== FILE: js.dfy ===
/** The few JavaScript notions the configurator's TypeScript code relies on. */
module Js {

  /** A value that may be `undefined`. */
  datatype Option<+T> = None | Some(value: T) {
    function GetOr(default: T): T {
      if Some? then value else default
    }
  }

  /** How a piece of code finishes: with a value, or by raising a TypeError
      (reading or writing a property of `undefined`). */
  datatype Completion<+T> = Normal(value: T) | Threw

  /** A plain object used as a dictionary: its entries in key order.
      Keys are unique in every object the code builds; lookups take the first entry. */
  type Record<V> = seq<(string, V)>

  function Keys<V>(r: Record<V>): (ks: seq<string>)
    ensures |ks| == |r|
    ensures forall i :: 0 <= i < |r| ==> ks[i] == r[i].0
  {
    if r == [] then [] else [r[0].0] + Keys(r[1..])
  }

  /** `r[key]`: the value stored under `key`, or `undefined`. */
  function Get<V>(r: Record<V>, key: string): (v: Option<V>)
    ensures v.Some? <==> key in Keys(r)
    ensures v.Some? ==> (key, v.value) in r
  {
    if r == [] then None
    else if r[0].0 == key then Some(r[0].1)
    else Get(r[1..], key)
  }

  /** `r[key] = v`: an existing key keeps its position, a new key goes last. */
  function Put<V>(r: Record<V>, key: string, v: V): (r': Record<V>)
    ensures Get(r', key) == Some(v)
    ensures forall k :: k != key ==> Get(r', k) == Get(r, k)
    ensures key in Keys(r) ==> Keys(r') == Keys(r)
    ensures key !in Keys(r) ==> Keys(r') == Keys(r) + [key]
  {
    if r == [] then [(key, v)]
    else if r[0].0 == key then
      PutHere(r, key, v);
      [(key, v)] + r[1..]
    else
      var rest := Put(r[1..], key, v);
      PutFurther(r, key, v, rest);
      [r[0]] + rest
  }

  /** `Put` on the first entry's key replaces that entry. */
  lemma PutHere<V>(r: Record<V>, key: string, v: V)
    requires r != [] && r[0].0 == key
    ensures var r' := [(key, v)] + r[1..];
            && Get(r', key) == Some(v)
            && (forall k :: k != key ==> Get(r', k) == Get(r, k))
            && Keys(r') == Keys(r)
  {
    var r' := [(key, v)] + r[1..];
    assert r'[1..] == r[1..];
  }

  /** `Put` on another key keeps the first entry before the updated rest. */
  lemma PutFurther<V>(r: Record<V>, key: string, v: V, rest: Record<V>)
    requires r != [] && r[0].0 != key
    requires Get(rest, key) == Some(v)
    requires forall k :: k != key ==> Get(rest, k) == Get(r[1..], k)
    requires key in Keys(r[1..]) ==> Keys(rest) == Keys(r[1..])
    requires key !in Keys(r[1..]) ==> Keys(rest) == Keys(r[1..]) + [key]
    ensures var r' := [r[0]] + rest;
            && Get(r', key) == Some(v)
            && (forall k :: k != key ==> Get(r', k) == Get(r, k))
            && (key in Keys(r) ==> Keys(r') == Keys(r))
            && (key !in Keys(r) ==> Keys(r') == Keys(r) + [key])
  {
    var r' := [r[0]] + rest;
    assert r'[0] == r[0] && r'[1..] == rest;
    forall k | k != key ensures Get(r', k) == Get(r, k) {
      if k != r[0].0 {
        assert Get(r', k) == Get(rest, k);
      }
    }
    FirstKey(r, key, rest);
  }

  /** The keys of a record whose first entry is not `key`, after the rest gained or kept it. */
  lemma FirstKey<V>(r: Record<V>, key: string, rest: Record<V>)
    requires r != [] && r[0].0 != key
    requires key in Keys(r[1..]) ==> Keys(rest) == Keys(r[1..])
    requires key !in Keys(r[1..]) ==> Keys(rest) == Keys(r[1..]) + [key]
    ensures key in Keys(r) ==> Keys([r[0]] + rest) == Keys(r)
    ensures key !in Keys(r) ==> Keys([r[0]] + rest) == Keys(r) + [key]
  {
    var r' := [r[0]] + rest;
    assert r'[1..] == rest;
    var ks := Keys(r[1..]);
    assert Keys(r) == [r[0].0] + ks;
    assert Keys(r') == [r[0].0] + Keys(rest);
    assert key in Keys(r) <==> key in ks;
    if key !in ks {
      assert [r[0].0] + (ks + [key]) == ([r[0].0] + ks) + [key];
    }
  }

  predicate NoDuplicates<T(==)>(s: seq<T>) {
    forall i, j :: 0 <= i < j < |s| ==> s[i] != s[j]
  }

  /** The decimal digit for `d`. */
  function Digit(d: nat): char
    requires d < 10
  {
    (48 + d) as char
  }

  /** `String(n)` for a non-negative integer: its decimal digits, most significant first. */
  function NatToString(n: nat): (s: string)
    ensures |s| >= 1
    ensures |s| == 1 <==> n < 10
  {
    if n < 10 then [Digit(n)] else NatToString(n / 10) + [Digit(n % 10)]
  }

  /** Different numbers print differently. */
  lemma {:induction false} NatToStringInjective(a: nat, b: nat)
    requires NatToString(a) == NatToString(b)
    ensures a == b
  {
    if a >= 10 && b >= 10 {
      var sa, sb := NatToString(a), NatToString(b);
      assert sa[..|sa| - 1] == NatToString(a / 10);
      assert sb[..|sb| - 1] == NatToString(b / 10);
      NatToStringInjective(a / 10, b / 10);
      assert Digit(a % 10) == sa[|sa| - 1] == sb[|sb| - 1] == Digit(b % 10);
    }
  }
}

=== FILE: lookup.dfy ===
/** The index and name lookups of util.ts over the topology. */
module Lookup {
  import opened Js
  import opened Types

  /** The instance called `name` in one type's list, the first one if several. */
  function FindNamed(l: seq<Instance>, name: string): (r: Option<Instance>)
    ensures r.Some? ==> r.value in l && r.value.name == name
    ensures r.None? <==> forall k :: 0 <= k < |l| ==> l[k].name != name
    ensures r.Some? ==> exists k :: 0 <= k < |l| && l[k] == r.value && forall j :: 0 <= j < k ==> l[j].name != name
  {
    if l == [] then None
    else if l[0].name == name then Some(l[0])
    else
      var r := FindNamed(l[1..], name);
      assert forall k :: 1 <= k < |l| ==> l[k] == l[1..][k - 1];
      r
  }

  /** How many instances, over all type lists, are called `name`. */
  function InstanceCount(instances: Record<seq<Instance>>, name: string): nat {
    if instances == [] then 0
    else CountNamed(instances[0].1, name) + InstanceCount(instances[1..], name)
  }

  function CountNamed(l: seq<Instance>, name: string): nat {
    if l == [] then 0 else (if l[0].name == name then 1 else 0) + CountNamed(l[1..], name)
  }

  lemma {:induction false} CountNamedZero(l: seq<Instance>, name: string)
    ensures CountNamed(l, name) == 0 <==> FindNamed(l, name).None?
  {
    if l != [] { CountNamedZero(l[1..], name); }
  }

  /** `getInstance`: the first instance called `name`, type lists taken in key order. */
  function GetInstance(name: string, instances: Record<seq<Instance>>): (r: Option<Instance>)
    ensures r.Some? ==> r.value.name == name
    ensures r.Some? <==> InstanceCount(instances, name) > 0
    ensures r == match FirstHolding(instances, name)
                 case Some(k) => FindNamed(instances[k].1, name)
                 case None => None
  {
    if instances == [] then None
    else
      CountNamedZero(instances[0].1, name);
      match FindNamed(instances[0].1, name)
      case Some(i) => Some(i)
      case None => GetInstance(name, instances[1..])
  }

  /** `instanceNameUnique`: exactly one instance is called `name`. */
  function InstanceNameUnique(name: string, instances: Record<seq<Instance>>): (r: bool)
    ensures r <==> InstanceCount(instances, name) == 1
  {
    CountAll(instances, name) == 1
  }

  // the nested loop of instanceNameUnique, counting matches list by list
  function CountAll(instances: Record<seq<Instance>>, name: string): (c: nat)
    ensures c == InstanceCount(instances, name)
  {
    if instances == [] then 0
    else
      InstanceCountSplit(instances, name);
      CountAll(instances[..|instances| - 1], name) + CountNamed(instances[|instances| - 1].1, name)
  }

  lemma {:induction false} InstanceCountSplit(instances: Record<seq<Instance>>, name: string)
    requires instances != []
    ensures InstanceCount(instances, name) ==
            InstanceCount(instances[..|instances| - 1], name) + CountNamed(instances[|instances| - 1].1, name)
  {
    if |instances| > 1 {
      InstanceCountSplit(instances[1..], name);
      assert instances[1..][..|instances| - 2] == instances[..|instances| - 1][1..];
    }
  }

  /** `componentTypeUsed`: the type has an entry in the instance record. */
  function ComponentTypeUsed(componentType: string, instances: Record<seq<Instance>>): (r: bool)
    ensures r <==> Get(instances, componentType).Some?
  {
    componentType in Keys(instances)
  }

  /** The index of the first type list, in key order, holding an instance called `name`. */
  function FirstHolding(instances: Record<seq<Instance>>, name: string): (r: Option<nat>)
    ensures r.Some? ==> r.value < |instances| && FindNamed(instances[r.value].1, name).Some?
    ensures r.Some? ==> forall j :: 0 <= j < r.value ==> FindNamed(instances[j].1, name).None?
    ensures r.None? <==> forall j :: 0 <= j < |instances| ==> FindNamed(instances[j].1, name).None?
  {
    if instances == [] then None
    else if FindNamed(instances[0].1, name).Some? then Some(0)
    else
      var r := FirstHolding(instances[1..], name);
      assert forall j :: 1 <= j < |instances| ==> instances[j] == instances[1..][j - 1];
      match r
      case Some(i) => Some(i + 1)
      case None => None
  }

  /** `getComponentInfoOfInstance`: the setup entry of the type of the first list holding an
      instance called `name`; `undefined` when there is no such instance or no such entry. */
  function GetComponentInfoOfInstance(name: string, instances: Record<seq<Instance>>,
                                      components: Record<ComponentInfo>): (r: Option<ComponentInfo>)
    ensures r == match FirstHolding(instances, name)
                 case Some(k) => Get(components, instances[k].0)
                 case None => None
    ensures r.Some? ==> InstanceCount(instances, name) > 0
  {
    if instances == [] then None
    else if FindNamed(instances[0].1, name).Some? then
      CountNamedZero(instances[0].1, name);
      Get(components, instances[0].0)
    else
      GetComponentInfoOfInstance(name, instances[1..], components)
  }

  /** The ids of the units, in order. */
  function UnitIds(units: seq<Unit>): (ids: seq<string>)
    ensures |ids| == |units|
    ensures forall i :: 0 <= i < |units| ==> ids[i] == units[i].id
  {
    if units == [] then [] else [units[0].id] + UnitIds(units[1..])
  }

  /** `getUnitIndx`: the index of the first unit with this id. */
  function GetUnitIndx(unitName: string, units: seq<Unit>): (r: Option<nat>)
    ensures r.Some? ==> r.value < |units| && units[r.value].id == unitName
    ensures r.Some? ==> forall k :: 0 <= k < r.value ==> units[k].id != unitName
    ensures r.None? <==> unitName !in UnitIds(units)
  {
    if units == [] then None
    else if units[0].id == unitName then Some(0)
    else match GetUnitIndx(unitName, units[1..])
      case Some(i) => Some(i + 1)
      case None => None
  }

  /** `getDeviceIndx`: the index of the first device with this name. */
  function GetDeviceIndx(deviceName: string, devices: seq<Device>): (r: Option<nat>)
    ensures r.Some? ==> r.value < |devices| && devices[r.value].deviceName == deviceName
    ensures r.Some? ==> forall k :: 0 <= k < r.value ==> devices[k].deviceName != deviceName
    ensures r.None? <==> forall k :: 0 <= k < |devices| ==> devices[k].deviceName != deviceName
  {
    if devices == [] then None
    else if devices[0].deviceName == deviceName then Some(0)
    else match GetDeviceIndx(deviceName, devices[1..])
      case Some(i) => Some(i + 1)
      case None => None
  }
}

=== FILE: placement.dfy ===
/** The unit connections of the placement: rewriting the protocol of a connection between
    units (`changeProtocol`), and deriving the connections of a unit mapped onto a device
    (`initUnitConnections`). Both update `data.units` in place. */
module Placement {
  import opened Js
  import opened Types
  import opened Compat
  import opened Topology

  /** The topology with this unit list. */
  function WithUnits(d: Data, units: seq<Unit>): Data {
    d.(units := units)
  }

  // ---------------------------------------------------------------------------------------
  // changeProtocol

  /** The unit holds a unit connection with the endpoints of `c`. */
  predicate Involved(u: Unit, c: UnitConnection) {
    exists j :: 0 <= j < |u.unitConnections| && IsEqualProtoLess(c, u.unitConnections[j])
  }

  /** `x` is the id of a unit involved in `c`. */
  predicate InvolvedId(units: seq<Unit>, c: UnitConnection, x: string) {
    exists i :: 0 <= i < |units| && units[i].id == x && Involved(units[i], c)
  }

  /** The first loop of `changeProtocol`: the ids of the units involved in the connection,
      pushed once per matching unit connection. */
  method RelevantUnitNames(units: seq<Unit>, c: UnitConnection) returns (names: seq<string>)
    ensures forall x :: x in names <==> InvolvedId(units, c, x)
  {
    names := [];
    for i := 0 to |units|
      invariant forall x :: x in names <==> InvolvedId(units[..i], c, x)
    {
      var unit := units[i];
      for j := 0 to |unit.unitConnections|
        invariant forall x :: x in names <==>
                    InvolvedId(units[..i], c, x) ||
                    (x == unit.id && exists m :: 0 <= m < j && IsEqualProtoLess(c, unit.unitConnections[m]))
      {
        if IsEqualProtoLess(c, unit.unitConnections[j]) {
          names := names + [unit.id];
        }
      }
      InvolvedIdSnoc(units, c, i);
    }
    assert units[..|units|] == units;
  }

  lemma InvolvedIdSnoc(units: seq<Unit>, c: UnitConnection, i: nat)
    requires i < |units|
    ensures forall x :: InvolvedId(units[..i + 1], c, x) <==>
                        InvolvedId(units[..i], c, x) || (x == units[i].id && Involved(units[i], c))
  {
    forall x ensures InvolvedId(units[..i + 1], c, x) <==>
                     InvolvedId(units[..i], c, x) || (x == units[i].id && Involved(units[i], c))
    {
      if InvolvedId(units[..i + 1], c, x) {
        var k :| 0 <= k < i + 1 && units[..i + 1][k].id == x && Involved(units[..i + 1][k], c);
        if k < i {
          assert units[..i][k] == units[k];
        }
      }
      if InvolvedId(units[..i], c, x) {
        var k :| 0 <= k < i && units[..i][k].id == x && Involved(units[..i][k], c);
        assert units[..i + 1][k] == units[k];
      }
      if x == units[i].id && Involved(units[i], c) {
        assert units[..i + 1][i] == units[i];
      }
    }
  }

  /** The device lists the protocol. */
  predicate Listed(d: Device, p: Protocol) {
    Some(p) in d.protocols
  }

  /** The device test as `changeProtocol` writes it: `conn_protocol[p]` looks the protocol's
      string value up as a key of the enum. */
  predicate ListedAsWritten(d: Device, p: Protocol) {
    ByKey(Value(p)) in d.protocols
  }

  /** The two tests agree on every protocol but MQTT_EXTERNAL; for that one the written test
      asks whether the device has an unknown (`undefined`) protocol entry. */
  lemma ListedAsWrittenDiffers(d: Device, p: Protocol)
    ensures p != MQTT_EXTERNAL ==> (ListedAsWritten(d, p) <==> Listed(d, p))
    ensures p == MQTT_EXTERNAL ==> (ListedAsWritten(d, p) <==> None in d.protocols)
  {
    if p != MQTT_EXTERNAL {
      assert Key(p) == Value(p) by { ProtocolMembers(); }
      assert ByKey(Value(p)) == Some(p);
    } else {
      assert ByKey("MQTT_EXTRENAL") == None;
    }
  }

  /** A device listing MQTT_EXTERNAL, and nothing unknown, fails the written test. */
  lemma MqttExternalRejectedAsWritten()
    ensures var d := Device("edge", "arm64", [Some(MQTT_EXTERNAL)], "unknown", ["unit_1"]);
            Listed(d, MQTT_EXTERNAL) && !ListedAsWritten(d, MQTT_EXTERNAL)
  {
    var d := Device("edge", "arm64", [Some(MQTT_EXTERNAL)], "unknown", ["unit_1"]);
    assert d.protocols[0] == Some(MQTT_EXTERNAL);
    ListedAsWrittenDiffers(d, MQTT_EXTERNAL);
  }

  /** Every device hosting one of the named units lists the protocol. */
  predicate HostsSupport(devices: seq<Device>, names: seq<string>, p: Protocol) {
    forall i, j :: 0 <= i < |devices| && 0 <= j < |devices[i].units| && devices[i].units[j] in names ==>
      Listed(devices[i], p)
  }

  /** The second loop of `changeProtocol`: stops at the first hosting device that lacks the protocol. */
  method DevicesSupport(devices: seq<Device>, names: seq<string>, p: Protocol) returns (ok: bool)
    ensures ok <==> HostsSupport(devices, names, p)
  {
    for i := 0 to |devices|
      invariant forall i', j :: 0 <= i' < i && 0 <= j < |devices[i'].units| && devices[i'].units[j] in names ==>
                  Listed(devices[i'], p)
    {
      var dev := devices[i];
      for j := 0 to |dev.units|
        invariant forall i', j' :: 0 <= i' < i && 0 <= j' < |devices[i'].units| && devices[i'].units[j'] in names ==>
                    Listed(devices[i'], p)
        invariant forall j' :: 0 <= j' < j && dev.units[j'] in names ==> Listed(dev, p)
      {
        if dev.units[j] in names {
          if !Listed(dev, p) {
            return false;
          }
        }
      }
    }
    return true;
  }

  /** A unit connection after the rewrite: the matching ones take the protocol of `c`. */
  function RewriteConn(x: UnitConnection, c: UnitConnection): UnitConnection {
    if IsEqualProtoLess(c, x) then x.(protocol := c.protocol) else x
  }

  function RewriteUnit(u: Unit, c: UnitConnection): Unit {
    u.(unitConnections := seq(|u.unitConnections|, j requires 0 <= j < |u.unitConnections| =>
                                RewriteConn(u.unitConnections[j], c)))
  }

  /** The units after the third loop of `changeProtocol`: every unit connection with the
      endpoints of `c` carries its protocol, and everything else is as it was. */
  function Rewritten(units: seq<Unit>, c: UnitConnection): (r: seq<Unit>)
    ensures |r| == |units|
    ensures forall i :: 0 <= i < |units| ==>
              && r[i].id == units[i].id && r[i].components == units[i].components
              && r[i].shadowModeConfig == units[i].shadowModeConfig
              && r[i].pinnedNodePort == units[i].pinnedNodePort
              && |r[i].unitConnections| == |units[i].unitConnections|
    ensures forall i, j :: 0 <= i < |units| && 0 <= j < |units[i].unitConnections| ==>
              var x := units[i].unitConnections[j];
              if x.Endpoints() == c.Endpoints() then r[i].unitConnections[j] == x.(protocol := c.protocol)
              else r[i].unitConnections[j] == x
  {
    seq(|units|, i requires 0 <= i < |units| => RewriteUnit(units[i], c))
  }

  /** A unit not involved in `c` is left alone by the rewrite, so skipping it by id changes nothing. */
  lemma RewriteUninvolved(u: Unit, c: UnitConnection)
    requires !Involved(u, c)
    ensures RewriteUnit(u, c) == u
  {
    assert RewriteUnit(u, c).unitConnections == u.unitConnections;
  }

  /** The devices hosting a unit involved in the connection all list its protocol. */
  predicate Allowed(d: Data, c: UnitConnection) {
    forall i, j :: 0 <= i < |d.devices| && 0 <= j < |d.devices[i].units| &&
                   InvolvedId(d.units, c, d.devices[i].units[j]) ==>
      Listed(d.devices[i], c.protocol)
  }

  /** The third loop, over one unit: rewrites its matching unit connections in place. */
  method RewriteUnitInPlace(store: Store, i: nat, c: UnitConnection)
    requires i < |store.data.units|
    modifies store
    ensures store.data == WithUnits(old(store.data), old(store.data.units)[i := RewriteUnit(old(store.data.units)[i], c)])
  {
    ghost var d0 := store.data;
    var unit := store.data.units[i];
    var conns := unit.unitConnections;
    for j := 0 to |unit.unitConnections|
      invariant |conns| == |unit.unitConnections|
      invariant forall m :: 0 <= m < |conns| ==>
                  conns[m] == if m < j then RewriteConn(unit.unitConnections[m], c) else unit.unitConnections[m]
      invariant store.data == WithUnits(d0, d0.units[i := unit.(unitConnections := conns)])
    {
      var connection := conns[j];
      if IsEqualProtoLess(c, connection) {
        conns := conns[j := connection.(protocol := c.protocol)];
        store.data := WithUnits(store.data, store.data.units[i := store.data.units[i].(unitConnections := conns)]);
      }
    }
    assert conns == RewriteUnit(unit, c).unitConnections;
    assert unit.(unitConnections := conns) == RewriteUnit(unit, c);
  }

  /** `changeProtocol`: when every device hosting an involved unit lists the protocol, gives
      every unit connection with the endpoints of `c` its protocol and answers true; otherwise
      answers false and changes nothing, since all the checks come before the first write. */
  method ChangeProtocol(store: Store, c: UnitConnection) returns (ok: bool)
    modifies store
    ensures ok <==> Allowed(old(store.data), c)
    ensures ok ==> store.data == WithUnits(old(store.data), Rewritten(old(store.data.units), c))
    ensures !ok ==> store.data == old(store.data)
  {
    var relevantUnitNames := RelevantUnitNames(store.data.units, c);
    ok := DevicesSupport(store.data.devices, relevantUnitNames, c.protocol);
    if !ok {
      return false;
    }
    ghost var d0 := store.data;
    var units0 := store.data.units;
    for i := 0 to |units0|
      invariant |store.data.units| == |units0|
      invariant forall k :: 0 <= k < |units0| ==>
                  store.data.units[k] == if k < i then RewriteUnit(units0[k], c) else units0[k]
      invariant store.data == WithUnits(d0, store.data.units)
    {
      var unit := store.data.units[i];
      if unit.id in relevantUnitNames {
        RewriteUnitInPlace(store, i, c);
      } else {
        assert !Involved(units0[i], c);
        RewriteUninvolved(units0[i], c);
      }
    }
    assert store.data.units == Rewritten(units0, c);
    return true;
  }

  // ---------------------------------------------------------------------------------------
  // initUnitConnections

  /** Component `a` of the mapped unit and component `b` of another unit are the two ends of
      `conn`, in either direction. */
  predicate Realise(a: InstanceRef, b: InstanceRef, conn: Connection) {
    (a.instance.name == conn.sourceComponent && b.instance.name == conn.targetComponent) ||
    (a.instance.name == conn.targetComponent && b.instance.name == conn.sourceComponent)
  }

  /** The entry the innermost loop of `initUnitConnections` pushes for a component `a` of the
      mapped unit: a REST connection with the endpoints of `conn`, tagged with whichever
      endpoint `a` is. */
  function Entry(a: InstanceRef, conn: Connection): UnitConnection {
    var an := a.instance.name;
    UnitConnection(Some(if an == conn.sourceComponent then conn.sourceComponent else conn.targetComponent),
                   conn.sourceComponent, conn.sourcePort, conn.targetComponent, conn.targetPort, REST)
  }

  /** What the innermost loop pushes for components `a` (mapped unit) and `b` (another unit):
      the entry when the two realise `conn` in either direction, nothing otherwise. */
  function PairEntry(a: InstanceRef, b: InstanceRef, conn: Connection): seq<UnitConnection> {
    if Realise(a, b, conn) then [Entry(a, conn)] else []
  }

  /** The entries for one component of the mapped unit against the components `there` of another unit. */
  function EntriesWith(a: InstanceRef, there: seq<InstanceRef>, conn: Connection): seq<UnitConnection> {
    if there == [] then [] else EntriesWith(a, there[..|there| - 1], conn) + PairEntry(a, there[|there| - 1], conn)
  }

  /** The entries for the components `here` of the mapped unit against the components `there`. */
  function EntriesFor(here: seq<InstanceRef>, there: seq<InstanceRef>, conn: Connection): seq<UnitConnection> {
    if here == [] then []
    else EntriesFor(here[..|here| - 1], there, conn) + EntriesWith(here[|here| - 1], there, conn)
  }

  /** The entries for every connection of the topology, against one other unit's components. */
  function EntriesAcross(here: seq<InstanceRef>, there: seq<InstanceRef>, connections: seq<Connection>): seq<UnitConnection> {
    if connections == [] then []
    else EntriesAcross(here, there, connections[..|connections| - 1]) + EntriesFor(here, there, connections[|connections| - 1])
  }

  /** What the loop over units pushes while visiting unit `i`: nothing for unit `k` itself. */
  function Block(units: seq<Unit>, k: nat, connections: seq<Connection>, i: nat): seq<UnitConnection>
    requires k < |units| && i < |units|
  {
    if i == k then [] else EntriesAcross(units[k].components, units[i].components, connections)
  }

  /** The lists of `blocks`, one after the other. */
  function Flatten(blocks: seq<seq<UnitConnection>>): seq<UnitConnection> {
    if blocks == [] then [] else Flatten(blocks[..|blocks| - 1]) + blocks[|blocks| - 1]
  }

  /** The entries `initUnitConnections` appends to unit `k`, having visited the first `n` units. */
  function Derived(units: seq<Unit>, k: nat, connections: seq<Connection>, n: nat): seq<UnitConnection>
    requires k < |units| && n <= |units|
  {
    Flatten(seq(n, i requires 0 <= i < n => Block(units, k, connections, i)))
  }

  /** The topology after appending `extra` to the unit connections of unit `k`. */
  function Appended(d: Data, k: nat, extra: seq<UnitConnection>): Data
    requires k < |d.units|
  {
    d.(units := d.units[k := d.units[k].(unitConnections := d.units[k].unitConnections + extra)])
  }

  lemma AppendedNothing(d: Data, k: nat)
    requires k < |d.units|
    ensures Appended(d, k, []) == d
  {
    assert d.units[k].unitConnections + [] == d.units[k].unitConnections;
    assert d.units[k := d.units[k]] == d.units;
  }

  lemma AppendedTwice(d: Data, k: nat, e1: seq<UnitConnection>, e2: seq<UnitConnection>)
    requires k < |d.units|
    ensures Appended(Appended(d, k, e1), k, e2) == Appended(d, k, e1 + e2)
  {
    assert d.units[k].unitConnections + e1 + e2 == d.units[k].unitConnections + (e1 + e2);
  }

  /** The two inner loops of `initUnitConnections`: push the entries for the components `as` of
      unit `k` against the components `there` of another unit. */
  method PushEntries(store: Store, k: nat, here: seq<InstanceRef>, there: seq<InstanceRef>, conn: Connection)
    requires k < |store.data.units|
    modifies store
    ensures store.data == Appended(old(store.data), k, EntriesFor(here, there, conn))
  {
    ghost var d0 := store.data;
    AppendedNothing(d0, k);
    for a := 0 to |here|
      invariant store.data == Appended(d0, k, EntriesFor(here[..a], there, conn))
    {
      ghost var d1 := store.data;
      AppendedNothing(d1, k);
      for b := 0 to |there|
        invariant store.data == Appended(d1, k, EntriesWith(here[a], there[..b], conn))
      {
        if Realise(here[a], there[b], conn) {
          store.data := Appended(store.data, k, [Entry(here[a], conn)]);
        } else {
          AppendedNothing(store.data, k);
        }
        assert there[..b + 1][..b] == there[..b];
        AppendedTwice(d1, k, EntriesWith(here[a], there[..b], conn), PairEntry(here[a], there[b], conn));
      }
      assert there[..|there|] == there;
      assert here[..a + 1][..a] == here[..a];
      AppendedTwice(d0, k, EntriesFor(here[..a], there, conn), EntriesWith(here[a], there, conn));
    }
    assert here[..|here|] == here;
  }

  /** The loop of `initUnitConnections` over the connections of the topology, for one other unit. */
  method PushAcross(store: Store, k: nat, here: seq<InstanceRef>, there: seq<InstanceRef>)
    requires k < |store.data.units|
    modifies store
    ensures store.data == Appended(old(store.data), k, EntriesAcross(here, there, old(store.data.connections)))
  {
    ghost var d1 := store.data;
    AppendedNothing(d1, k);
    for c := 0 to |store.data.connections|
      invariant store.data.connections == d1.connections
      invariant store.data == Appended(d1, k, EntriesAcross(here, there, d1.connections[..c]))
    {
      var connection := store.data.connections[c];
      PushEntries(store, k, here, there, connection);
      assert d1.connections[..c + 1][..c] == d1.connections[..c];
      AppendedTwice(d1, k, EntriesAcross(here, there, d1.connections[..c]), EntriesFor(here, there, connection));
    }
    assert d1.connections[..|d1.connections|] == d1.connections;
  }

  /** `initUnitConnections`: appends to unit `unitIndx`, and to no other unit, one REST entry per
      connection and pair of components (one on that unit, one on another unit) that realise it,
      without checking for duplicates or protocols, and answers true. */
  method InitUnitConnections(store: Store, deviceIndx: nat, unitIndx: nat) returns (ok: bool)
    requires unitIndx < |store.data.units|
    modifies store
    ensures ok
    ensures store.data == Appended(old(store.data), unitIndx,
                                   Derived(old(store.data.units), unitIndx, old(store.data.connections), |old(store.data.units)|))
  {
    ghost var d0 := store.data;
    var unitConsidered := store.data.units[unitIndx];
    AppendedNothing(d0, unitIndx);
    for i := 0 to |store.data.units|
      invariant |store.data.units| == |d0.units|
      invariant store.data == Appended(d0, unitIndx, Derived(d0.units, unitIndx, d0.connections, i))
    {
      if i == unitIndx {
        DerivedSkip(d0.units, unitIndx, d0.connections, i + 1);
        continue;
      }
      var unit := store.data.units[i];
      assert unit == d0.units[i];
      PushAcross(store, unitIndx, unitConsidered.components, unit.components);
      AppendedStep(d0, unitIndx, i + 1);
    }
    return true;
  }

  lemma AppendedStep(d: Data, k: nat, n: nat)
    requires k < |d.units| && 0 < n <= |d.units| && n - 1 != k
    ensures Appended(Appended(d, k, Derived(d.units, k, d.connections, n - 1)), k,
                     EntriesAcross(d.units[k].components, d.units[n - 1].components, d.connections))
            == Appended(d, k, Derived(d.units, k, d.connections, n))
  {
    AppendedTwice(d, k, Derived(d.units, k, d.connections, n - 1),
                  EntriesAcross(d.units[k].components, d.units[n - 1].components, d.connections));
    DerivedStep(d.units, k, d.connections, n);
  }

  /** Nothing is derived for a unit without components, nor without connections. */
  lemma {:induction false} NothingDerived(units: seq<Unit>, k: nat, connections: seq<Connection>, n: nat)
    requires k < |units| && n <= |units|
    requires units[k].components == [] || connections == []
    ensures Derived(units, k, connections, n) == []
  {
    if n > 0 {
      NothingDerived(units, k, connections, n - 1);
      DerivedSnoc(units, k, connections, n);
      if n - 1 != k {
        NothingAcross(units[k].components, units[n - 1].components, connections);
      }
    }
  }

  lemma {:induction false} NothingAcross(here: seq<InstanceRef>, there: seq<InstanceRef>, connections: seq<Connection>)
    requires here == [] || connections == []
    ensures EntriesAcross(here, there, connections) == []
  {
    if connections != [] {
      NothingAcross(here, there, connections[..|connections| - 1]);
    }
  }

  // ---------------------------------------------------------------------------------------
  // every matching pair yields one entry

  lemma EntriesAcrossSnoc(here: seq<InstanceRef>, there: seq<InstanceRef>, connections: seq<Connection>)
    requires connections != []
    ensures var n := |connections| - 1;
            EntriesAcross(here, there, connections) == EntriesAcross(here, there, connections[..n]) + EntriesFor(here, there, connections[n])
  {
  }

  lemma DerivedSnoc(units: seq<Unit>, k: nat, connections: seq<Connection>, n: nat)
    requires k < |units| && 0 < n <= |units|
    ensures Derived(units, k, connections, n) ==
              Derived(units, k, connections, n - 1) + Block(units, k, connections, n - 1)
  {
    var bs := seq(n, i requires 0 <= i < n => Block(units, k, connections, i));
    assert bs[..n - 1] == seq(n - 1, i requires 0 <= i < n - 1 => Block(units, k, connections, i));
  }

  lemma DerivedSkip(units: seq<Unit>, k: nat, connections: seq<Connection>, n: nat)
    requires k < |units| && 0 < n <= |units| && n - 1 == k
    ensures Derived(units, k, connections, n) == Derived(units, k, connections, n - 1)
  {
    DerivedSnoc(units, k, connections, n);
    assert Block(units, k, connections, n - 1) == [];
  }

  lemma DerivedStep(units: seq<Unit>, k: nat, connections: seq<Connection>, n: nat)
    requires k < |units| && 0 < n <= |units| && n - 1 != k
    ensures Derived(units, k, connections, n) ==
              Derived(units, k, connections, n - 1) + EntriesAcross(units[k].components, units[n - 1].components, connections)
  {
    DerivedSnoc(units, k, connections, n);
  }

  lemma {:induction false} FlattenIncludes(bs: seq<seq<UnitConnection>>, i: nat, e: UnitConnection)
    requires i < |bs| && e in bs[i]
    ensures e in Flatten(bs)
  {
    var n := |bs|;
    if i < n - 1 {
      FlattenIncludes(bs[..n - 1], i, e);
    }
  }

  lemma {:induction false} FlattenMember(bs: seq<seq<UnitConnection>>, e: UnitConnection) returns (i: nat)
    requires e in Flatten(bs)
    ensures i < |bs| && e in bs[i]
  {
    var n := |bs|;
    if e in Flatten(bs[..n - 1]) {
      i := FlattenMember(bs[..n - 1], e);
    } else {
      i := n - 1;
    }
  }

  lemma {:induction false} EntriesWithIncludes(x: InstanceRef, there: seq<InstanceRef>, conn: Connection, b: nat, e: UnitConnection)
    requires b < |there| && e in PairEntry(x, there[b], conn)
    ensures e in EntriesWith(x, there, conn)
  {
    var n := |there| - 1;
    if b < n {
      assert there[..n][b] == there[b];
      EntriesWithIncludes(x, there[..n], conn, b, e);
    }
  }

  lemma {:induction false} EntriesForIncludes(here: seq<InstanceRef>, there: seq<InstanceRef>, conn: Connection, a: nat, e: UnitConnection)
    requires a < |here| && e in EntriesWith(here[a], there, conn)
    ensures e in EntriesFor(here, there, conn)
  {
    var n := |here| - 1;
    if a < n {
      assert here[..n][a] == here[a];
      EntriesForIncludes(here[..n], there, conn, a, e);
    }
  }

  lemma {:induction false} EntriesAcrossIncludes(here: seq<InstanceRef>, there: seq<InstanceRef>, connections: seq<Connection>,
                                                 c: nat, e: UnitConnection)
    requires c < |connections| && e in EntriesFor(here, there, connections[c])
    ensures e in EntriesAcross(here, there, connections)
  {
    var n := |connections| - 1;
    if c < n {
      assert connections[..n][c] == connections[c];
      EntriesAcrossIncludes(here, there, connections[..n], c, e);
    }
  }

  lemma DerivedIncludes(units: seq<Unit>, k: nat, connections: seq<Connection>, i: nat, e: UnitConnection)
    requires k < |units| && i < |units| && i != k
    requires e in EntriesAcross(units[k].components, units[i].components, connections)
    ensures e in Derived(units, k, connections, |units|)
  {
    var n := |units|;
    FlattenIncludes(seq(n, j requires 0 <= j < n => Block(units, k, connections, j)), i, e);
  }

  /** Every component pair across unit `k` and another unit that realises a connection has
      its entry among the derived ones. */
  lemma DerivedComplete(units: seq<Unit>, k: nat, connections: seq<Connection>, i: nat, c: nat, a: nat, b: nat)
    requires k < |units| && i < |units| && i != k
    requires c < |connections| && a < |units[k].components| && b < |units[i].components|
    requires Realise(units[k].components[a], units[i].components[b], connections[c])
    ensures Entry(units[k].components[a], connections[c]) in Derived(units, k, connections, |units|)
  {
    var here, there, conn := units[k].components, units[i].components, connections[c];
    var e := Entry(here[a], conn);
    EntriesWithIncludes(here[a], there, conn, b, e);
    EntriesForIncludes(here, there, conn, a, e);
    EntriesAcrossIncludes(here, there, connections, c, e);
    DerivedIncludes(units, k, connections, i, e);
  }

  /** The matching pairs (i, c, a, b) the innermost loop sees for component `a` of the mapped
      unit, unit `i` and connection `c`, over the first `m` components `there` of unit `i`. */
  ghost function WithHits(i: nat, c: nat, a: nat, x: InstanceRef, there: seq<InstanceRef>, conn: Connection, m: nat)
    : set<(nat, nat, nat, nat)>
    requires m <= |there|
  {
    set b: nat | b < m && Realise(x, there[b], conn) :: (i, c, a, b)
  }

  /** The matching pairs for unit `i` and connection `c`, over the first `am` components `here`. */
  ghost function ForHits(i: nat, c: nat, here: seq<InstanceRef>, there: seq<InstanceRef>, conn: Connection, am: nat)
    : set<(nat, nat, nat, nat)>
    requires am <= |here|
  {
    set a: nat, b: nat | a < am && b < |there| && Realise(here[a], there[b], conn) :: (i, c, a, b)
  }

  /** The matching pairs for unit `i`, over the first `cm` connections. */
  ghost function AcrossHits(i: nat, here: seq<InstanceRef>, there: seq<InstanceRef>, connections: seq<Connection>, cm: nat)
    : set<(nat, nat, nat, nat)>
    requires cm <= |connections|
  {
    set c: nat, a: nat, b: nat | c < cm && a < |here| && b < |there| && Realise(here[a], there[b], connections[c]) :: (i, c, a, b)
  }

  /** The matching quadruples (i, c, a, b) over the first `n` units: unit `i` is not unit `k`,
      and component `a` of unit `k` and component `b` of unit `i` realise connection `c`. */
  ghost function DerivedHits(units: seq<Unit>, k: nat, connections: seq<Connection>, n: nat): set<(nat, nat, nat, nat)>
    requires k < |units| && n <= |units|
  {
    set i: nat, c: nat, a: nat, b: nat | i < n && i != k && c < |connections| && a < |units[k].components| &&
                                         b < |units[i].components| &&
                                         Realise(units[k].components[a], units[i].components[b], connections[c]) :: (i, c, a, b)
  }

  lemma WithHitsStep(i: nat, c: nat, a: nat, x: InstanceRef, there: seq<InstanceRef>, conn: Connection, m: nat)
    requires 0 < m <= |there|
    ensures var prev, t := WithHits(i, c, a, x, there, conn, m - 1), (i, c, a, m - 1);
            && t !in prev
            && WithHits(i, c, a, x, there, conn, m) == if Realise(x, there[m - 1], conn) then prev + {t} else prev
  {
  }

  lemma ForHitsStep(i: nat, c: nat, here: seq<InstanceRef>, there: seq<InstanceRef>, conn: Connection, am: nat)
    requires 0 < am <= |here|
    ensures var prev, step := ForHits(i, c, here, there, conn, am - 1), WithHits(i, c, am - 1, here[am - 1], there, conn, |there|);
            prev * step == {} && ForHits(i, c, here, there, conn, am) == prev + step
  {
    var prev, step := ForHits(i, c, here, there, conn, am - 1), WithHits(i, c, am - 1, here[am - 1], there, conn, |there|);
    var all := ForHits(i, c, here, there, conn, am);
    forall a: nat, b: nat | a < am && b < |there| && Realise(here[a], there[b], conn) ensures (i, c, a, b) in prev + step {
      if a < am - 1 {
        assert (i, c, a, b) in prev;
      } else {
        assert (i, c, a, b) in step;
      }
    }
    assert prev + step <= all;
  }

  lemma AcrossHitsStep(i: nat, here: seq<InstanceRef>, there: seq<InstanceRef>, connections: seq<Connection>, cm: nat)
    requires 0 < cm <= |connections|
    ensures var prev, step := AcrossHits(i, here, there, connections, cm - 1), ForHits(i, cm - 1, here, there, connections[cm - 1], |here|);
            prev * step == {} && AcrossHits(i, here, there, connections, cm) == prev + step
  {
    var prev, step := AcrossHits(i, here, there, connections, cm - 1), ForHits(i, cm - 1, here, there, connections[cm - 1], |here|);
    var all := AcrossHits(i, here, there, connections, cm);
    forall c: nat, a: nat, b: nat | c < cm && a < |here| && b < |there| && Realise(here[a], there[b], connections[c])
      ensures (i, c, a, b) in prev + step
    {
      if c < cm - 1 {
        assert (i, c, a, b) in prev;
      } else {
        assert (i, c, a, b) in step;
      }
    }
    assert prev + step <= all;
  }

  lemma DerivedHitsStep(units: seq<Unit>, k: nat, connections: seq<Connection>, n: nat)
    requires k < |units| && 0 < n <= |units|
    ensures var prev := DerivedHits(units, k, connections, n - 1);
            if n - 1 == k then DerivedHits(units, k, connections, n) == prev
            else
              var step := AcrossHits(n - 1, units[k].components, units[n - 1].components, connections, |connections|);
              prev * step == {} && DerivedHits(units, k, connections, n) == prev + step
  {
    var prev := DerivedHits(units, k, connections, n - 1);
    var all := DerivedHits(units, k, connections, n);
    var here := units[k].components;
    if n - 1 == k {
      forall i: nat, c: nat, a: nat, b: nat | i < n && i != k && c < |connections| && a < |here| &&
                                              b < |units[i].components| && Realise(here[a], units[i].components[b], connections[c])
        ensures (i, c, a, b) in prev
      {
      }
    } else {
      var step := AcrossHits(n - 1, here, units[n - 1].components, connections, |connections|);
      forall i: nat, c: nat, a: nat, b: nat | i < n && i != k && c < |connections| && a < |here| &&
                                              b < |units[i].components| && Realise(here[a], units[i].components[b], connections[c])
        ensures (i, c, a, b) in prev + step
      {
        if i < n - 1 {
          assert (i, c, a, b) in prev;
        } else {
          assert (i, c, a, b) in step;
        }
      }
      assert prev + step <= all;
    }
  }

  lemma DerivedHitsCard(units: seq<Unit>, k: nat, connections: seq<Connection>, n: nat)
    requires k < |units| && 0 < n <= |units|
    ensures |DerivedHits(units, k, connections, n)| == |DerivedHits(units, k, connections, n - 1)| +
              if n - 1 == k then 0 else |AcrossHits(n - 1, units[k].components, units[n - 1].components, connections, |connections|)|
  {
    DerivedHitsStep(units, k, connections, n);
    if n - 1 != k {
      var prev := DerivedHits(units, k, connections, n - 1);
      var step := AcrossHits(n - 1, units[k].components, units[n - 1].components, connections, |connections|);
      assert |prev + step| == |prev| + |step|;
    }
  }

  lemma EntriesWithLength(x: InstanceRef, there: seq<InstanceRef>, conn: Connection, m: nat)
    requires 0 < m <= |there|
    ensures |EntriesWith(x, there[..m], conn)| == |EntriesWith(x, there[..m - 1], conn)| + |PairEntry(x, there[m - 1], conn)|
  {
    assert there[..m][..m - 1] == there[..m - 1];
  }

  lemma EntriesForLength(here: seq<InstanceRef>, there: seq<InstanceRef>, conn: Connection, am: nat)
    requires 0 < am <= |here|
    ensures |EntriesFor(here[..am], there, conn)| == |EntriesFor(here[..am - 1], there, conn)| + |EntriesWith(here[am - 1], there, conn)|
  {
    assert here[..am][..am - 1] == here[..am - 1];
  }

  lemma EntriesAcrossLength(here: seq<InstanceRef>, there: seq<InstanceRef>, connections: seq<Connection>, cm: nat)
    requires 0 < cm <= |connections|
    ensures |EntriesAcross(here, there, connections[..cm])|
         == |EntriesAcross(here, there, connections[..cm - 1])| + |EntriesFor(here, there, connections[cm - 1])|
  {
    assert connections[..cm][..cm - 1] == connections[..cm - 1];
  }

  lemma {:induction false} CountWith(i: nat, c: nat, a: nat, x: InstanceRef, there: seq<InstanceRef>, conn: Connection, m: nat)
    requires m <= |there|
    ensures |EntriesWith(x, there[..m], conn)| == |WithHits(i, c, a, x, there, conn, m)|
  {
    if m == 0 {
      assert there[..0] == [];
      assert WithHits(i, c, a, x, there, conn, 0) == {};
    } else {
      CountWith(i, c, a, x, there, conn, m - 1);
      EntriesWithLength(x, there, conn, m);
      WithHitsStep(i, c, a, x, there, conn, m);
    }
  }

  lemma {:induction false} CountFor(i: nat, c: nat, here: seq<InstanceRef>, there: seq<InstanceRef>, conn: Connection, am: nat)
    requires am <= |here|
    ensures |EntriesFor(here[..am], there, conn)| == |ForHits(i, c, here, there, conn, am)|
  {
    if am == 0 {
      assert here[..0] == [];
      assert ForHits(i, c, here, there, conn, 0) == {};
    } else {
      CountFor(i, c, here, there, conn, am - 1);
      EntriesForLength(here, there, conn, am);
      CountWith(i, c, am - 1, here[am - 1], there, conn, |there|);
      assert there[..|there|] == there;
      ForHitsStep(i, c, here, there, conn, am);
    }
  }

  lemma {:induction false} CountAcross(i: nat, here: seq<InstanceRef>, there: seq<InstanceRef>, connections: seq<Connection>, cm: nat)
    requires cm <= |connections|
    ensures |EntriesAcross(here, there, connections[..cm])| == |AcrossHits(i, here, there, connections, cm)|
  {
    if cm == 0 {
      assert connections[..0] == [];
      assert AcrossHits(i, here, there, connections, 0) == {};
    } else {
      CountAcross(i, here, there, connections, cm - 1);
      EntriesAcrossLength(here, there, connections, cm);
      CountFor(i, cm - 1, here, there, connections[cm - 1], |here|);
      assert here[..|here|] == here;
      AcrossHitsStep(i, here, there, connections, cm);
    }
  }

  lemma DerivedHitsEmpty(units: seq<Unit>, k: nat, connections: seq<Connection>)
    requires k < |units|
    ensures |DerivedHits(units, k, connections, 0)| == 0
  {
    assert DerivedHits(units, k, connections, 0) == {};
  }

  lemma CountAcrossAll(i: nat, here: seq<InstanceRef>, there: seq<InstanceRef>, connections: seq<Connection>)
    ensures |EntriesAcross(here, there, connections)| == |AcrossHits(i, here, there, connections, |connections|)|
  {
    CountAcross(i, here, there, connections, |connections|);
    assert connections[..|connections|] == connections;
  }

  lemma DerivedLength(units: seq<Unit>, k: nat, connections: seq<Connection>, n: nat)
    requires k < |units| && 0 < n <= |units|
    ensures |Derived(units, k, connections, n)| == |Derived(units, k, connections, n - 1)| +
              (if n - 1 == k then 0 else |EntriesAcross(units[k].components, units[n - 1].components, connections)|)
  {
    DerivedSnoc(units, k, connections, n);
  }

  lemma DerivedLengthHits(units: seq<Unit>, k: nat, connections: seq<Connection>, n: nat)
    requires k < |units| && 0 < n <= |units|
    ensures |Derived(units, k, connections, n)| == |Derived(units, k, connections, n - 1)| +
              if n - 1 == k then 0 else |AcrossHits(n - 1, units[k].components, units[n - 1].components, connections, |connections|)|
  {
    DerivedLength(units, k, connections, n);
    if n - 1 != k {
      CountAcrossAll(n - 1, units[k].components, units[n - 1].components, connections);
    }
  }

  /** How many quadruples the first n units contribute, unit by unit. */
  ghost function HitsUpTo(units: seq<Unit>, k: nat, connections: seq<Connection>, n: nat): nat
    requires k < |units| && n <= |units|
  {
    if n == 0 then 0
    else
      HitsUpTo(units, k, connections, n - 1) +
      (if n - 1 == k then 0 else |AcrossHits(n - 1, units[k].components, units[n - 1].components, connections, |connections|)|)
  }

  lemma {:induction false} DerivedLengthUpTo(units: seq<Unit>, k: nat, connections: seq<Connection>, n: nat)
    requires k < |units| && n <= |units|
    ensures |Derived(units, k, connections, n)| == HitsUpTo(units, k, connections, n)
  {
    if n > 0 {
      DerivedLengthUpTo(units, k, connections, n - 1);
      UpToStep(units, k, connections, n);
    }
  }

  lemma UpToStep(units: seq<Unit>, k: nat, connections: seq<Connection>, n: nat)
    requires k < |units| && 0 < n <= |units|
    requires |Derived(units, k, connections, n - 1)| == HitsUpTo(units, k, connections, n - 1)
    ensures |Derived(units, k, connections, n)| == HitsUpTo(units, k, connections, n)
  {
    DerivedLengthHits(units, k, connections, n);
  }

  lemma {:induction false} HitsUpToCard(units: seq<Unit>, k: nat, connections: seq<Connection>, n: nat)
    requires k < |units| && n <= |units|
    ensures HitsUpTo(units, k, connections, n) == |DerivedHits(units, k, connections, n)|
  {
    if n == 0 {
      DerivedHitsEmpty(units, k, connections);
    } else {
      HitsUpToCard(units, k, connections, n - 1);
      DerivedHitsCard(units, k, connections, n);
    }
  }

  /** One entry per matching quadruple: the derived list is exactly as long as the set of
      (unit, connection, component here, component there) choices that realise a connection. */
  lemma DerivedCount(units: seq<Unit>, k: nat, connections: seq<Connection>, n: nat)
    requires k < |units| && n <= |units|
    ensures |Derived(units, k, connections, n)| == |DerivedHits(units, k, connections, n)|
  {
    DerivedLengthUpTo(units, k, connections, n);
    HitsUpToCard(units, k, connections, n);
  }

  /** An entry realised by component `a` is REST, carries the endpoints of the connection and
      is tagged with `a`'s own name. */
  lemma EntryTagged(a: InstanceRef, b: InstanceRef, conn: Connection)
    requires Realise(a, b, conn)
    ensures Entry(a, conn).protocol == REST
    ensures Entry(a, conn).Endpoints() == conn
    ensures Entry(a, conn).componentOnUnit == Some(a.instance.name)
  {
  }

  lemma {:induction false} EntriesWithSound(x: InstanceRef, there: seq<InstanceRef>, conn: Connection, e: UnitConnection)
    returns (b: nat)
    requires e in EntriesWith(x, there, conn)
    ensures b < |there| && Realise(x, there[b], conn) && e == Entry(x, conn)
  {
    var n := |there|;
    if e in EntriesWith(x, there[..n - 1], conn) {
      b := EntriesWithSound(x, there[..n - 1], conn, e);
      assert there[..n - 1][b] == there[b];
    } else {
      b := n - 1;
    }
  }

  lemma {:induction false} EntriesForSound(here: seq<InstanceRef>, there: seq<InstanceRef>, conn: Connection, e: UnitConnection)
    returns (a: nat)
    requires e in EntriesFor(here, there, conn)
    ensures a < |here| && e in EntriesWith(here[a], there, conn)
  {
    var n := |here|;
    if e in EntriesFor(here[..n - 1], there, conn) {
      a := EntriesForSound(here[..n - 1], there, conn, e);
      assert here[..n - 1][a] == here[a];
    } else {
      a := n - 1;
    }
  }

  lemma {:induction false} EntriesAcrossSound(here: seq<InstanceRef>, there: seq<InstanceRef>, connections: seq<Connection>, e: UnitConnection)
    returns (c: nat)
    requires e in EntriesAcross(here, there, connections)
    ensures c < |connections| && e in EntriesFor(here, there, connections[c])
  {
    var n := |connections|;
    if e in EntriesAcross(here, there, connections[..n - 1]) {
      c := EntriesAcrossSound(here, there, connections[..n - 1], e);
      assert connections[..n - 1][c] == connections[c];
    } else {
      c := n - 1;
    }
  }

  /** Every derived entry comes from a connection and a pair of components, one on unit `k` and
      one on another unit, that realise it; it is that connection as REST, tagged with the
      component on unit `k`. */
  lemma DerivedSound(units: seq<Unit>, k: nat, connections: seq<Connection>, e: UnitConnection)
    requires k < |units| && e in Derived(units, k, connections, |units|)
    ensures exists i, c, a, b :: (i, c, a, b) in DerivedHits(units, k, connections, |units|) &&
              e == Entry(units[k].components[a], connections[c])
    ensures e.protocol == REST && e.Endpoints() in connections
    ensures e.componentOnUnit.Some? && exists a :: 0 <= a < |units[k].components| && units[k].components[a].instance.name == e.componentOnUnit.value
  {
    var here := units[k].components;
    var n := |units|;
    var i := FlattenMember(seq(n, j requires 0 <= j < n => Block(units, k, connections, j)), e);
    var there := units[i].components;
    var c := EntriesAcrossSound(here, there, connections, e);
    var a := EntriesForSound(here, there, connections[c], e);
    var b := EntriesWithSound(here[a], there, connections[c], e);
    EntryTagged(here[a], there[b], connections[c]);
    assert (i, c, a, b) in DerivedHits(units, k, connections, |units|);
  }
}

=== FILE: resilience.dfy ===
/** The resilience annotations of util.ts: the feasibility checks, and the in-place
    additions and edits of the records in `data.resilienceInfo.components`. */
module Resilience {
  import opened Js
  import opened Types
  import opened Lookup
  import opened Topology

  /** `executionSitesFeasible`: every site is a non-empty string naming a unit. */
  function ExecutionSitesFeasible(sites: seq<string>, units: seq<Unit>): (r: bool)
    ensures r <==> forall i :: 0 <= i < |sites| ==> sites[i] != "" && sites[i] in UnitIds(units)
  {
    if sites == [] then true
    else if sites[0] == "" || sites[0] !in UnitIds(units) then false
    else ExecutionSitesFeasible(sites[1..], units)
  }

  /** Some record carries this id. */
  predicate HasRecord(records: seq<ResilienceRecord>, name: string) {
    exists i :: 0 <= i < |records| && records[i].id == name
  }

  /** The index of the first record with this id (also the search loop of `setExecutionSites`). */
  function FirstWithId(rs: seq<ResilienceRecord>, name: string): (r: Option<nat>)
    ensures r.Some? ==> r.value < |rs| && rs[r.value].id == name
    ensures r.Some? ==> forall k :: 0 <= k < r.value ==> rs[k].id != name
    ensures r.None? <==> !HasRecord(rs, name)
  {
    if rs == [] then None
    else if rs[0].id == name then Some(0)
    else match FirstWithId(rs[1..], name)
      case Some(i) => Some(i + 1)
      case None => None
  }

  // `componentHasActiveReplication` and `componentHasCheckpointRecovery` first compare
  // `Object.getPrototypeOf(comp.mechanisms)` with a class name. A prototype is an object and
  // never strictly equals a string, so that branch never applies and both functions come down
  // to the id comparison of their other branch.

  /** `componentHasActiveReplication`: true for any record with this id, whatever its mechanism. */
  function ComponentHasActiveReplication(name: string, records: seq<ResilienceRecord>): (r: bool)
    ensures r <==> exists i :: 0 <= i < |records| && records[i].id == name
  {
    FirstWithId(records, name).Some?
  }

  /** `componentHasCheckpointRecovery`: true for any record with this id, whatever its mechanism. */
  function ComponentHasCheckpointRecovery(name: string, records: seq<ResilienceRecord>): (r: bool)
    ensures r <==> exists i :: 0 <= i < |records| && records[i].id == name
  {
    FirstWithId(records, name).Some?
  }

  datatype CheckpointRecoveryErrors = CheckpointRecoveryErrors(unitNameUnique: bool, hasCheckPointing: bool)

  /** How many units carry this id (the length of the `filter`). */
  function UnitCount(units: seq<Unit>, unitName: string): nat {
    if units == [] then 0 else (if units[0].id == unitName then 1 else 0) + UnitCount(units[1..], unitName)
  }

  lemma {:induction false} UnitCountFirst(units: seq<Unit>, unitName: string, k: nat)
    requires k < |units| && units[k].id == unitName
    requires forall j :: 0 <= j < k ==> units[j].id != unitName
    ensures UnitCount(units, unitName) == 1 <==> forall j :: 0 <= j < |units| && units[j].id == unitName ==> j == k
  {
    if k == 0 {
      UnitCountNone(units[1..], unitName);
      assert forall j :: 1 <= j < |units| ==> units[j] == units[1..][j - 1];
    } else {
      UnitCountFirst(units[1..], unitName, k - 1);
      assert forall j :: 1 <= j < |units| ==> units[j] == units[1..][j - 1];
    }
  }

  lemma {:induction false} UnitCountNone(units: seq<Unit>, unitName: string)
    ensures UnitCount(units, unitName) == 0 <==> forall j :: 0 <= j < |units| ==> units[j].id != unitName
  {
    if units != [] {
      UnitCountNone(units[1..], unitName);
      assert forall j :: 1 <= j < |units| ==> units[j] == units[1..][j - 1];
    }
  }

  /** Some instance placed on the unit has a resilience record. */
  function AnyRecorded(components: seq<InstanceRef>, records: seq<ResilienceRecord>): (r: bool)
    ensures r <==> exists j :: 0 <= j < |components| && HasRecord(records, components[j].instance.name)
  {
    if components == [] then false
    else ComponentHasCheckpointRecovery(components[0].instance.name, records) || AnyRecorded(components[1..], records)
  }

  /** `unitHasCheckpointRecovery`: looks at the first unit with this id, reports whether the id
      is unique and whether one of its instances has a record. Without such a unit, reading its
      components raises; so does looking the records up when there are none. */
  function UnitHasCheckpointRecovery(unitName: string, data: Data): (r: Completion<CheckpointRecoveryErrors>)
    ensures unitName !in UnitIds(data.units) ==> r.Threw?
    ensures unitName in UnitIds(data.units) ==>
              var k := GetUnitIndx(unitName, data.units).value;
              && (r.Threw? <==> data.resilienceInfo.components.None? && data.units[k].components != [])
              && (r.Normal? ==>
                    && (r.value.unitNameUnique <==>
                          forall j :: 0 <= j < |data.units| && data.units[j].id == unitName ==> j == k)
                    && (r.value.hasCheckPointing <==>
                          exists j :: 0 <= j < |data.units[k].components| &&
                            HasRecord(data.resilienceInfo.components.GetOr([]), data.units[k].components[j].instance.name)))
  {
    match GetUnitIndx(unitName, data.units)
    case None => Threw
    case Some(k) =>
      UnitCountFirst(data.units, unitName, k);
      var unique := UnitCount(data.units, unitName) == 1;
      var unit := data.units[k];
      if unit.components == [] then Normal(CheckpointRecoveryErrors(unique, false))
      else match data.resilienceInfo.components
        case None => Threw
        case Some(records) => Normal(CheckpointRecoveryErrors(unique, AnyRecorded(unit.components, records)))
  }

  /** An edit of one active-replication record. */
  datatype Edit = SetParams(faultModel: string, n: int, f: int) | PushSite(site: string)

  /** The record after the edit. A checkpoint record has no `activeReplication` member,
      so editing it raises (None). */
  function Apply(e: Edit, r: ResilienceRecord): (t: Option<ResilienceRecord>)
    ensures t.None? <==> r.mechanisms.CheckpointRecovery?
    ensures t.Some? ==> t.value.id == r.id && t.value.mechanisms.ActiveReplication?
    ensures t.Some? ==> t.value.mechanisms.enabled == r.mechanisms.enabled
    ensures t.Some? && e.SetParams? ==>
              && t.value.mechanisms.executionSites == r.mechanisms.executionSites
              && t.value.mechanisms.faultModel == e.faultModel
              && t.value.mechanisms.n == e.n && t.value.mechanisms.f == e.f
    ensures t.Some? && e.PushSite? ==>
              && t.value.mechanisms.executionSites == r.mechanisms.executionSites + [e.site]
              && t.value.mechanisms.faultModel == r.mechanisms.faultModel
              && t.value.mechanisms.n == r.mechanisms.n && t.value.mechanisms.f == r.mechanisms.f
  {
    match r.mechanisms
    case CheckpointRecovery(_, _) => None
    case ActiveReplication(fm, n, f, enabled, sites) =>
      match e
      case SetParams(fm', n', f') => Some(r.(mechanisms := ActiveReplication(fm', n', f', enabled, sites)))
      case PushSite(site) => Some(r.(mechanisms := ActiveReplication(fm, n, f, enabled, sites + [site])))
  }

  /** A record with this id that cannot be edited. */
  predicate Blocks(r: ResilienceRecord, name: string) {
    r.id == name && r.mechanisms.CheckpointRecovery?
  }

  /** The index of the first blocking record, or the length when there is none. */
  function Stop(rs: seq<ResilienceRecord>, name: string): (k: nat)
    ensures k <= |rs|
    ensures forall i :: 0 <= i < k ==> !Blocks(rs[i], name)
    ensures k < |rs| ==> Blocks(rs[k], name)
  {
    if rs == [] then 0
    else
      var s := Stop(rs[..|rs| - 1], name);
      if s < |rs| - 1 then s else if Blocks(rs[|rs| - 1], name) then |rs| - 1 else |rs|
  }

  /** The first blocking record is the one the loop stops at. */
  lemma StopAt(rs: seq<ResilienceRecord>, name: string, i: nat)
    requires i <= |rs| && forall k :: 0 <= k < i ==> !Blocks(rs[k], name)
    requires i < |rs| ==> Blocks(rs[i], name)
    ensures Stop(rs, name) == i
  {
  }

  /** A record after the edit, when it carries this id and can be edited. */
  function EditOne(r: ResilienceRecord, name: string, e: Edit): ResilienceRecord {
    if r.id == name then Apply(e, r).GetOr(r) else r
  }

  /** The records after the edit, with every record treated on its own. */
  function EditAll(rs: seq<ResilienceRecord>, name: string, e: Edit): seq<ResilienceRecord> {
    seq(|rs|, i requires 0 <= i < |rs| => EditOne(rs[i], name, e))
  }

  /** The records after an edit loop, and whether it raised. */
  datatype Outcome = Outcome(records: seq<ResilienceRecord>, threw: bool)

  /** What the index loop of `setReplicationParameters` and `setReplicationExecutionSite`
      leaves: every record with the id is edited in turn, the first one that cannot be edited
      raises, and the records edited before it stay edited. */
  function Edited(rs: seq<ResilienceRecord>, name: string, e: Edit): (o: Outcome)
    ensures |o.records| == |rs|
    ensures o.threw <==> exists i :: 0 <= i < |rs| && Blocks(rs[i], name)
    ensures forall i :: 0 <= i < |rs| ==> o.records[i].id == rs[i].id
    ensures forall i :: 0 <= i < |rs| && rs[i].id != name ==> o.records[i] == rs[i]
    ensures forall i :: 0 <= i < |rs| && Blocks(rs[i], name) ==> o.records[i] == rs[i]
    ensures !o.threw ==> forall i :: 0 <= i < |rs| && rs[i].id == name ==> Apply(e, rs[i]) == Some(o.records[i])
  {
    var k := Stop(rs, name);
    Outcome(EditAll(rs[..k], name, e) + rs[k..], k < |rs|)
  }

  /** The topology with this record list. */
  function WithRecords(d: Data, records: seq<ResilienceRecord>): Data {
    d.(resilienceInfo := d.resilienceInfo.(components := Some(records)))
  }

  /** The loop of the two edit helpers, writing each edited record back in place. A missing
      record list raises before the first record. */
  method EditRecords(store: Store, name: string, e: Edit) returns (threw: bool)
    modifies store
    ensures old(store.data.resilienceInfo.components).None? ==> threw && store.data == old(store.data)
    ensures old(store.data.resilienceInfo.components).Some? ==>
              var o := Edited(old(store.data.resilienceInfo.components).value, name, e);
              threw == o.threw && store.data == WithRecords(old(store.data), o.records)
  {
    if store.data.resilienceInfo.components.None? {
      return true;
    }
    var rs := store.data.resilienceInfo.components.value;
    threw := EditLoop(store, rs, name, e);
  }

  /** The index loop itself, over the record list `rs` the topology holds. */
  method EditLoop(store: Store, rs: seq<ResilienceRecord>, name: string, e: Edit) returns (threw: bool)
    requires store.data.resilienceInfo.components == Some(rs)
    modifies store
    ensures var o := Edited(rs, name, e);
            threw == o.threw && store.data == WithRecords(old(store.data), o.records)
  {
    ghost var d0 := store.data;
    assert d0 == WithRecords(d0, rs);
    var cur := rs;
    var i := 0;
    while i < |rs|
      invariant 0 <= i <= |rs|
      invariant forall k :: 0 <= k < i ==> !Blocks(rs[k], name)
      invariant |cur| == |rs|
      invariant forall k :: 0 <= k < i ==> cur[k] == EditOne(rs[k], name, e)
      invariant forall k :: i <= k < |rs| ==> cur[k] == rs[k]
      invariant store.data == WithRecords(d0, cur)
    {
      var comp := cur[i];
      assert comp == rs[i];
      if comp.id == name && comp.mechanisms.CheckpointRecovery? {
        EditedAt(rs, name, e, i, cur);
        return true;
      }
      if comp.id == name {
        cur := cur[i := Apply(e, comp).value];
        store.data := WithRecords(store.data, cur);
      }
      i := i + 1;
    }
    EditedAt(rs, name, e, i, cur);
    return false;
  }

  /** Where the loop stops, it has left exactly the outcome `Edited` describes. */
  lemma EditedAt(rs: seq<ResilienceRecord>, name: string, e: Edit, i: nat, cur: seq<ResilienceRecord>)
    requires i <= |rs| && forall k :: 0 <= k < i ==> !Blocks(rs[k], name)
    requires i < |rs| ==> Blocks(rs[i], name)
    requires |cur| == |rs|
    requires forall k :: 0 <= k < i ==> cur[k] == EditOne(rs[k], name, e)
    requires forall k :: i <= k < |rs| ==> cur[k] == rs[k]
    ensures Edited(rs, name, e) == Outcome(cur, i < |rs|)
  {
    StopAt(rs, name, i);
    var edited := EditAll(rs[..i], name, e) + rs[i..];
    assert |edited| == |cur|;
    forall k | 0 <= k < |cur| ensures edited[k] == cur[k] {
      if k < i {
        assert edited[k] == EditAll(rs[..i], name, e)[k];
      } else {
        assert edited[k] == rs[i..][k - i];
      }
    }
  }

  /** `setReplicationParameters`: sets fault model, n and f of every record with this id. */
  method SetReplicationParameters(store: Store, faultModel: string, name: string, n: int, f: int) returns (threw: bool)
    modifies store
    ensures old(store.data.resilienceInfo.components).None? ==> threw && store.data == old(store.data)
    ensures old(store.data.resilienceInfo.components).Some? ==>
              var o := Edited(old(store.data.resilienceInfo.components).value, name, SetParams(faultModel, n, f));
              && threw == o.threw
              && store.data == WithRecords(old(store.data), o.records)
  {
    threw := EditRecords(store, name, SetParams(faultModel, n, f));
  }

  /** `setReplicationExecutionSite`: appends the site to every record with this id. */
  method SetReplicationExecutionSite(store: Store, componentType: string, executionSite: string) returns (threw: bool)
    modifies store
    ensures old(store.data.resilienceInfo.components).None? ==> threw && store.data == old(store.data)
    ensures old(store.data.resilienceInfo.components).Some? ==>
              var o := Edited(old(store.data.resilienceInfo.components).value, componentType, PushSite(executionSite));
              && threw == o.threw
              && store.data == WithRecords(old(store.data), o.records)
  {
    threw := EditRecords(store, componentType, PushSite(executionSite));
  }

  /** Without a checkpoint record for the id, the parameter edit sets fault model, n and f on
      every record with that id, keeps their `enabled` flag and sites, and changes nothing else. */
  lemma RetuneComplete(rs: seq<ResilienceRecord>, name: string, faultModel: string, n: int, f: int)
    requires forall i :: 0 <= i < |rs| && rs[i].id == name ==> rs[i].mechanisms.ActiveReplication?
    ensures var o := Edited(rs, name, SetParams(faultModel, n, f));
            && !o.threw && |o.records| == |rs|
            && forall i :: 0 <= i < |rs| ==>
                 if rs[i].id == name then
                   o.records[i] == ResilienceRecord(name, ActiveReplication(faultModel, n, f,
                                     rs[i].mechanisms.enabled, rs[i].mechanisms.executionSites))
                 else o.records[i] == rs[i]
  {
  }

  /** `setExecutionSites`: replaces the sites of the first record with this id and returns them;
      returns `undefined` when there is no such record, and raises when it is a checkpoint record. */
  method SetExecutionSites(store: Store, sites: seq<string>, name: string) returns (r: Completion<Option<seq<string>>>)
    modifies store
    ensures old(store.data.resilienceInfo.components).None? ==> r.Threw? && store.data == old(store.data)
    ensures old(store.data.resilienceInfo.components).Some? ==>
              var rs := old(store.data.resilienceInfo.components).value;
              match FirstWithId(rs, name)
              case None => r == Normal(None) && store.data == old(store.data)
              case Some(k) =>
                if rs[k].mechanisms.CheckpointRecovery? then r.Threw? && store.data == old(store.data)
                else
                  && r == Normal(Some(sites))
                  && store.data == old(store.data).(resilienceInfo := old(store.data).resilienceInfo.(
                       components := Some(rs[k := rs[k].(mechanisms := rs[k].mechanisms.(executionSites := sites))])))
  {
    if store.data.resilienceInfo.components.None? {
      return Threw;
    }
    var rs := store.data.resilienceInfo.components.value;
    var usedIndx := -1;
    var i := 0;
    while i < |rs|
      invariant 0 <= i <= |rs|
      invariant usedIndx == -1
      invariant forall k :: 0 <= k < i ==> rs[k].id != name
    {
      if rs[i].id == name {
        usedIndx := i;
        break;
      }
      i := i + 1;
    }
    if usedIndx == -1 {
      return Normal(None);
    }
    var component := rs[usedIndx];
    if component.mechanisms.CheckpointRecovery? {
      return Threw;
    }
    component := component.(mechanisms := component.mechanisms.(executionSites := sites));
    store.data := store.data.(resilienceInfo := store.data.resilienceInfo.(components := Some(rs[usedIndx := component])));
    return Normal(Some(sites));
  }

  /** `addReplicatedComponent`: appends an enabled active-replication record with no sites. */
  method AddReplicatedComponent(store: Store, faultModel: string, name: string, n: int, f: int) returns (threw: bool)
    modifies store
    ensures threw <==> old(store.data.resilienceInfo.components).None?
    ensures threw ==> store.data == old(store.data)
    ensures !threw ==>
              store.data == old(store.data).(resilienceInfo := old(store.data).resilienceInfo.(components :=
                Some(old(store.data.resilienceInfo.components).value +
                     [ResilienceRecord(name, ActiveReplication(faultModel, n, f, true, []))])))
  {
    if store.data.resilienceInfo.components.None? {
      return true;
    }
    var component := ResilienceRecord(name, ActiveReplication(faultModel, n, f, true, []));
    store.data := store.data.(resilienceInfo := store.data.resilienceInfo.(components :=
      Some(store.data.resilienceInfo.components.value + [component])));
    return false;
  }

  /** `addCheckpointedComponent`: appends a record with recovery and checkpointing enabled. */
  method AddCheckpointedComponent(store: Store, componentType: string) returns (threw: bool)
    modifies store
    ensures threw <==> old(store.data.resilienceInfo.components).None?
    ensures threw ==> store.data == old(store.data)
    ensures !threw ==>
              store.data == old(store.data).(resilienceInfo := old(store.data).resilienceInfo.(components :=
                Some(old(store.data.resilienceInfo.components).value +
                     [ResilienceRecord(componentType, CheckpointRecovery(true, true))])))
  {
    if store.data.resilienceInfo.components.None? {
      return true;
    }
    var component := ResilienceRecord(componentType, CheckpointRecovery(true, true));
    store.data := store.data.(resilienceInfo := store.data.resilienceInfo.(components :=
      Some(store.data.resilienceInfo.components.value + [component])));
    return false;
  }
}

=== FILE: store.dfy ===
/** The configurator's one topology object (the module-level `data` of app.ts),
    which every handler and helper reads and updates in place. */
module Topology {
  import opened Js
  import opened Types

  /** The resilience library path set once at start-up. */
  const ResilienceLibraryPath: string := "/usr/src/sorrir/framework/resilience_library"

  /** The state `clearData` leaves: empty setup, instances, connections, units, devices and
      resilience records, an empty library path; the passthrough configurations keep whatever
      they held. */
  function Cleared(d: Data): (c: Data)
    ensures c.setupInfo == SetupInfo([], [], [])
    ensures c.componentInstances == [] && c.connections == [] && c.units == [] && c.devices == []
    ensures c.resilienceInfo == ResilienceInfo("", Some([]))
    ensures c.securityConfig == d.securityConfig && c.extToolsConfig == d.extToolsConfig
    ensures c.npmConfig == d.npmConfig && c.degradationInfo == d.degradationInfo
    ensures c.migrationStatus == d.migrationStatus && c.debuggingConfiguration == d.debuggingConfiguration
  {
    d.(setupInfo := SetupInfo([], [], []), componentInstances := [], connections := [], units := [],
       devices := [], resilienceInfo := ResilienceInfo("", Some([])))
  }

  /** The state `initData` leaves: the resilience library path set, nothing else changed. */
  function InitData(d: Data): (r: Data)
    ensures r.resilienceInfo.resilienceLibraryPath == ResilienceLibraryPath
    ensures r.resilienceInfo.components == d.resilienceInfo.components
    ensures r.(resilienceInfo := d.resilienceInfo) == d
  {
    d.(resilienceInfo := d.resilienceInfo.(resilienceLibraryPath := ResilienceLibraryPath))
  }

  class Store {
    var data: Data

    /** Start-up: an empty object, `clearData()`, then `initData()`. */
    constructor ()
      ensures data.setupInfo == SetupInfo([], [], [])
      ensures data.componentInstances == [] && data.connections == [] && data.units == [] && data.devices == []
      ensures data.resilienceInfo == ResilienceInfo(ResilienceLibraryPath, Some([]))
      ensures data.securityConfig.None? && data.extToolsConfig.None? && data.migrationStatus.None?
      ensures data.npmConfig.None? && data.degradationInfo.None? && data.debuggingConfiguration.None?
    {
      // the empty object: every property undefined, with placeholders for those clearData sets
      var blank := Data(SetupInfo([], [], []), [], [], [], [], ResilienceInfo("", None),
                        None, None, None, None, None, None);
      data := InitData(Cleared(blank));
    }
  }
}

=== FILE: types.dfy ===
/** The records of the deployment topology (types.ts), and the exported
    configuration document built from them. */
module Types {
  import opened Js

  /** A JSON payload the core stores and re-emits but never looks into,
      represented by its text. */
  type Opaque = string

  /** The empty object `{}`. */
  const EmptyObject: Opaque := "{}"

  /** A port's direction is exactly "in" or "out". */
  datatype Direction = In | Out

  datatype Port = Port(name: string, eventTypes: seq<string>, direction: Direction)

  /** A component type of the setup description (its `tsType` tag is constant and left out). */
  datatype ComponentInfo = ComponentInfo(name: string, ports: seq<Port>)

  /** The members of `conn_protocol`, named by their keys. */
  datatype Protocol = REST | MQTT | MQTT_EXTERNAL | BLE | TOM | ON_UNIT

  const AllProtocols: seq<Protocol> := [REST, MQTT, MQTT_EXTERNAL, BLE, TOM, ON_UNIT]

  /** The member's key, as written in the enum declaration. */
  function Key(p: Protocol): string {
    match p
    case REST => "REST"
    case MQTT => "MQTT"
    case MQTT_EXTERNAL => "MQTT_EXTERNAL"
    case BLE => "BLE"
    case TOM => "TOM"
    case ON_UNIT => "ON_UNIT"
  }

  /** The member's string value; the one for MQTT_EXTERNAL is spelled 'MQTT_EXTRENAL'. */
  function Value(p: Protocol): string {
    match p
    case REST => "REST"
    case MQTT => "MQTT"
    case MQTT_EXTERNAL => "MQTT_EXTRENAL"
    case BLE => "BLE"
    case TOM => "TOM"
    case ON_UNIT => "ON_UNIT"
  }

  /** `conn_protocol[k]`: lookup by key; `undefined` for anything that is not a key. */
  function ByKey(k: string): (r: Option<Protocol>)
    ensures forall p :: r == Some(p) <==> Key(p) == k
  {
    if k == "REST" then Some(REST)
    else if k == "MQTT" then Some(MQTT)
    else if k == "MQTT_EXTERNAL" then Some(MQTT_EXTERNAL)
    else if k == "BLE" then Some(BLE)
    else if k == "TOM" then Some(TOM)
    else if k == "ON_UNIT" then Some(ON_UNIT)
    else None
  }

  /** The member whose value is `v`, if `Object.values(conn_protocol)` includes `v`. */
  function ByValue(v: string): (r: Option<Protocol>)
    ensures forall p :: r == Some(p) <==> Value(p) == v
  {
    if v == "REST" then Some(REST)
    else if v == "MQTT" then Some(MQTT)
    else if v == "MQTT_EXTRENAL" then Some(MQTT_EXTERNAL)
    else if v == "BLE" then Some(BLE)
    else if v == "TOM" then Some(TOM)
    else if v == "ON_UNIT" then Some(ON_UNIT)
    else None
  }

  /** The enum has six distinct members, and key and value agree for all but MQTT_EXTERNAL. */
  lemma ProtocolMembers()
    ensures |AllProtocols| == 6 && NoDuplicates(AllProtocols)
    ensures forall p :: p in AllProtocols
    ensures NoDuplicates(seq(6, i requires 0 <= i < 6 => Value(AllProtocols[i])))
    ensures forall p :: Key(p) == Value(p) <==> p != MQTT_EXTERNAL
    ensures Value(MQTT_EXTERNAL) == "MQTT_EXTRENAL"
  {
    var vs := seq(6, i requires 0 <= i < 6 => Value(AllProtocols[i]));
    assert vs == ["REST", "MQTT", "MQTT_EXTRENAL", "BLE", "TOM", "ON_UNIT"];
    forall p ensures p in AllProtocols {
      match p
      case REST => assert AllProtocols[0] == p;
      case MQTT => assert AllProtocols[1] == p;
      case MQTT_EXTERNAL => assert AllProtocols[2] == p;
      case BLE => assert AllProtocols[3] == p;
      case TOM => assert AllProtocols[4] == p;
      case ON_UNIT => assert AllProtocols[5] == p;
    }
  }

  datatype Connection = Connection(sourceComponent: string, sourcePort: string,
                                   targetComponent: string, targetPort: string)

  /** A component instance; the start-state generator fields come from the revision of util.ts. */
  datatype Instance = Instance(name: string, startState: Option<string>,
                               startStateGenerator: Option<string>, startStateArgs: Option<Opaque>)

  /** `ComponentInstanceExtended`: an instance placed on a unit, with its type if one was found. */
  datatype InstanceRef = InstanceRef(componentType: Option<ComponentInfo>, instance: Instance)

  /** A connection realised between units: the four endpoint fields of a Connection,
      the protocol, and the component of the owning unit it was derived for. */
  datatype UnitConnection = UnitConnection(componentOnUnit: Option<string>,
                                           sourceComponent: string, sourcePort: string,
                                           targetComponent: string, targetPort: string,
                                           protocol: Protocol)
  {
    function Endpoints(): Connection {
      Connection(sourceComponent, sourcePort, targetComponent, targetPort)
    }
  }

  datatype Unit = Unit(id: string, components: seq<InstanceRef>, unitConnections: seq<UnitConnection>,
                       shadowModeConfig: Option<Opaque>, pinnedNodePort: Option<int>)

  /** A device; its hosted units are an ordered list of unit ids. A protocol entry is
      `undefined` when an unknown protocol name was converted. */
  datatype Device = Device(deviceName: string, architecture: string, protocols: seq<Option<Protocol>>,
                           location: string, units: seq<string>)

  /** The resilience mechanism of a record: exactly one of the two variants. */
  datatype Mechanism =
    | ActiveReplication(faultModel: string, n: int, f: int, enabled: bool, executionSites: seq<string>)
    | CheckpointRecovery(recoveryEnabled: bool, checkpointEnabled: bool)

  datatype ResilienceRecord = ResilienceRecord(id: string, mechanisms: Mechanism)

  /** `components` is `undefined` after importing a document whose resilience section is `{}`. */
  datatype ResilienceInfo = ResilienceInfo(resilienceLibraryPath: string,
                                           components: Option<seq<ResilienceRecord>>)

  datatype StartStateEntry = StartStateEntry(state: Opaque)

  datatype SetupInfo = SetupInfo(components: Record<ComponentInfo>,
                                 startStates: Record<StartStateEntry>,
                                 stateGenerators: Record<Option<Opaque>>)

  datatype DebugFrontendInfos = DebugFrontendInfos(portToOpenContainer: Option<int>,
                                                   portToOpenHost: Option<int>,
                                                   hostName: Option<string>)

  datatype ExtToolsConfig = ExtToolsConfig(honeyPots: Option<seq<Opaque>>,
                                           debugFrontendInfos: Option<DebugFrontendInfos>,
                                           useIds: Option<bool>)

  /** The whole topology (`Data`). The passthrough configurations are opaque. */
  datatype Data = Data(
    setupInfo: SetupInfo,
    componentInstances: Record<seq<Instance>>,
    connections: seq<Connection>,
    units: seq<Unit>,
    devices: seq<Device>,
    resilienceInfo: ResilienceInfo,
    securityConfig: Option<Opaque>,
    extToolsConfig: Option<ExtToolsConfig>,
    npmConfig: Option<Opaque>,
    degradationInfo: Option<Opaque>,
    migrationStatus: Option<Opaque>,
    debuggingConfiguration: Option<Opaque>)

  // The exported configuration document.

  datatype ComponentOut = ComponentOut(typeName: Option<string>, id: string, ports: Option<seq<Port>>,
                                       connections: seq<UnitConnection>,
                                       startState: Option<string>, startStateGenerator: Option<string>,
                                       startStateArgs: Option<Opaque>)

  datatype UnitOut = UnitOut(id: string, components: seq<ComponentOut>,
                             shadowModeConfig: Option<Opaque>, pinnedNodePort: Option<int>)

  datatype Element = Element(deviceName: string, id: string, architecture: string,
                             protocols: seq<Option<Protocol>>, location: string, units: seq<UnitOut>)

  /** The document. `resilienceConfiguration` is None for `{}`. It has both spellings of the
      debugging key: export writes `debuggingConfiguration`, import reads `DebuggingConfiguration`. */
  datatype Configuration = Configuration(
    elements: seq<Element>,
    resilienceLibraryPath: string,
    resilienceConfiguration: Option<seq<ResilienceRecord>>,
    securityConfiguration: Opaque,
    extToolsConfiguration: ExtToolsConfig,
    degradationConfiguration: Option<Opaque>,
    npmConfiguration: Option<Opaque>,
    migrationStatus: Option<Opaque>,
    debuggingConfiguration: Option<Opaque>,
    capitalisedDebuggingConfiguration: Option<Opaque>)
}
